=== FILE: README.md ===
# Sinatra front end, modelled in Dafny

Sinatra is a React front end that shows a Spotify listener's taste: a
signed-in dashboard (`home.jsx`), a public profile page (`public.jsx`), an
onboarding wizard, settings modals for featured and imported playlists, a
theme system, and a card for the recently played track. This project models
the logic of those components as pure Dafny functions over immutable state,
and proves what they promise.

The modules follow the source files:

- `Cookie`: `utils/cookie.js`.
- `MetaGenres` and `MetaGenreUtils`: the two meta-genre registries.
- `GenreUtils` and `ParentGenre`: `genreUtils.js` and `getParentGenre.js`.
- `GenreMaps`: the normalised genre map.
- `GenreRanking`: `MusicTaste.jsx` and `GenreIntro.jsx`.
- `BarLists`: the four bar-list components.
- `Normalize`: `normalize.js`.
- `Selection`: the shared building blocks of the playlist pickers.
- `EditFeatured`, `FeaturedPicker`, `PlaylistImporter`, `EditPlaylists`,
  `OnboardingSteps` and `NameEditor`: the pickers and wizard steps.
- `TrackPatterns` and `RecentlyPlayed`: `RecentlyPlayedCard.jsx`.
- `Home` and `PublicProfile`: the two pages.
- `UserContext`: the user context.
- `ClassLists`, `ThemeContext` and `ThemePickerModal`: the theme system.
- `AppTheme`: the start-up dark class of `App.jsx`.

`Wrappers`, `Strings` and `Seqs` hold the shared vocabulary:

- JavaScript's `null`/`undefined` as `Option`, and truthiness of strings.
- Browser storage as a map.
- ASCII `toLowerCase`, `includes`, `split`/`join` and `trim`.
- A stable insertion sort standing in for `Array.prototype.sort`, with
  descending order by a negated key.

Every request is an outcome parameter (`Fetched(data)` or `FetchFailed`), and
clocks and `Math.random()` are parameters too. A React effect or handler is a
function from the state before to the state after.

## Model

| member | source | states |
|---|---|---|
| Cookie.FindRow | src/utils/cookie.js:1-3 | `find` returns the first row with the prefix, and none only when no row has it |
| Cookie.UserCookieRow | src/utils/cookie.js:1-3 | the row found always starts with `sinatra_user_id=` |
| Cookie.GetUserCookie | src/utils/cookie.js:5 | a missing row fails (the TypeError); otherwise the value is a suffix of the row and holds no "=" |
| Cookie.ValueFollowsLastEquals | src/utils/cookie.js:5 | when the row has an "=", the value is exactly the text after its last "=" |
| Cookie.ValueRoundTrip | src/utils/cookie.js:5 | writing `sinatra_user_id=v` and reading it back gives `v` for every `v` without "=" |
| Cookie.BareRowIsEmpty | src/utils/cookie.js:5 | the bare row `sinatra_user_id=` reads as the empty string |
| Cookie.ValueWithEqualsTruncated | src/utils/cookie.js:5 | a value containing "=" comes back as its last segment only |
| Cookie.SoleRowFound | src/utils/cookie.js:1-5 | a cookie holding only the user row finds that row and reads back its value |
| Cookie.NoSemicolonNoRow | src/utils/cookie.js:2 | text without ";" is one row when split on "; " |
| MetaGenres.GetMetaGenreColor | src/constants/metaGenres.js:18-21 | the colour is always one of the table's colours |
| MetaGenres.KeysAreTableKeys | src/constants/metaGenres.js:3-16 | the key list and the colour table describe the same ten names |
| MetaGenres.ColorFollowsMembership | src/constants/metaGenres.js:18-25 | a meta-genre gets its own colour and every other name gets the `other` navy; lookup and membership agree |
| MetaGenres.CaseInsensitive | src/constants/metaGenres.js:18-25 | colour and membership are the same for a name and its lower-cased form |
| MetaGenres.AbsentName | src/constants/metaGenres.js:18-25 | a missing name is no meta-genre and gets navy |
| MetaGenres.HipHopSpelling | src/constants/metaGenres.js:16 | only the hyphenated "hip-hop" is a meta-genre; "Rock" is one by case folding |
| MetaGenres.IsMetaGenre | src/constants/metaGenres.js:16-25 | a name is a meta-genre exactly when it is present and its lower-cased form is a key of the colour table |
| MetaGenreUtils.GetMetaGenreColor | src/utils/metaGenres.js:18-20 | the colour is one of this table's colours or the navy fallback |
| MetaGenreUtils.SameMembershipAsConstants | src/utils/metaGenres.js:22-24 | both registries classify every name the same way |
| MetaGenreUtils.ColorFollowsMembership | src/utils/metaGenres.js:18-24 | meta-genres get their colour; every other name, or a missing one, gets the fallback |
| MetaGenreUtils.OtherDiffersFromFallback | src/utils/metaGenres.js:13-19 | in this registry "other" is grey while unknown names are navy; in the constants registry both are navy |
| MetaGenreUtils.OtherIsGrey | src/utils/metaGenres.js:13 | "other" and "Other" are grey |
| MetaGenreUtils.CaseInsensitive | src/utils/metaGenres.js:18-24 | colour and membership ignore letter case |
| MetaGenreUtils.IsMetaGenre | src/utils/metaGenres.js:16-24 | a name is a meta-genre exactly when it is present and its lower-cased form is one of the ten registry names |
| GenreUtils.FindContained | src/utils/genreUtils.js:25 | the position found is the first list entry contained in the text, and none means no entry is contained |
| GenreUtils.GetMetaGenre | src/utils/genreUtils.js:17-26 | the result is "other" exactly when no known meta-genre occurs in the lower-cased genre; otherwise it is the first such entry in list order |
| GenreUtils.PopRockIsRock | src/utils/genreUtils.js:19-25 | priority follows the list, not the text: "pop rock" is rock |
| GenreUtils.GetMetaGradients | src/utils/genreUtils.js:4-15 | a cached table is returned without a request; a success fills the cache; a failure resolves to an empty table and leaves the cache empty |
| GenreUtils.FetchOnceAfterSuccess | src/utils/genreUtils.js:4-10 | after one success no later call fetches, and every later call returns the first table |
| GenreUtils.FailureRetries | src/utils/genreUtils.js:11-14 | after a failure the next call fetches again |
| ParentGenre.GetParentGenre | src/utils/getParentGenre.js:5-7 | the parent is the table's non-empty entry for the lower-cased genre, or "other"; never empty |
| ParentGenre.CaseInsensitive | src/utils/getParentGenre.js:6 | case variants of a genre have the same parent |
| ParentGenre.ResultIsParentOrOther | src/utils/getParentGenre.js:6 | the result is a value of the table or "other" |
| GenreMaps.FromEntries | src/pages/public.jsx:24-26 | the keys of the built map are exactly the entries' keys |
| GenreMaps.LastEntryWins | src/pages/public.jsx:24-26 | an entry whose key no later entry repeats gives that key its value |
| GenreMaps.NormalizeGenreMap | src/pages/public.jsx:23-27 | the keys are exactly the lower-cased keys of the response |
| GenreMaps.NormalizedIsLower | src/pages/public.jsx:25 | keys and values of the normalised map are lower case |
| GenreMaps.ValuesFromEntries | src/pages/public.jsx:24-26 | every value kept is the value of an entry with that key |
| GenreMaps.CaseVariantsMerge | src/pages/public.jsx:25 | two spellings differing only in case become one key, holding the later parent |
| GenreRanking.Round1Close | src/components/ui/MusicTaste.jsx:24 | rounding to a tenth moves a weight by at most half a tenth |
| GenreRanking.Round1Monotone | src/components/ui/MusicTaste.jsx:24 | rounding never swaps two weights |
| GenreRanking.Round1Idempotent | src/components/ui/MusicTaste.jsx:24 | rounding a rounded weight changes nothing |
| GenreRanking.RoundAllSorted | src/components/ui/MusicTaste.jsx:21-24 | rounding after sorting keeps the list sorted |
| GenreRanking.RankMeta | src/components/ui/MusicTaste.jsx:21-24 | the chart is the rounding of a top five taken by the unrounded weight: heaviest first, drawn from the input with multiplicity, and every entry left out weighs no more than each one kept |
| GenreRanking.TopMeta | src/components/ui/MusicTaste.jsx:15-27 | without `highest` the previous list stays; an empty `highest` empties it |
| GenreRanking.KeptSubs | src/components/ui/MusicTaste.jsx:37-45 | the kept sub-genres are exactly the entries passing the filter, in input order |
| GenreRanking.RankSub | src/components/ui/MusicTaste.jsx:36-48 | at most five kept sub-genres, heaviest first, no entry shown more often than it is kept, none lighter than a kept entry left out |
| GenreRanking.TopSub | src/components/ui/MusicTaste.jsx:29-53 | without sub-genres or with an empty genre map the previous list stays |
| GenreRanking.SubViewExcludesMetaAndSelfParent | src/components/ui/MusicTaste.jsx:38-40 | no shown sub-genre is a meta-genre, lacks a parent, or is its own parent |
| GenreRanking.StepStaysInRange | src/components/ui/MusicTaste.jsx:55-58 | from step 0, any sequence of swipes and dot clicks keeps the step in {0, 1} |
| GenreRanking.SwipeLeft | src/components/ui/MusicTaste.jsx:56 | a left swipe moves one step forward and never past step 1 |
| GenreRanking.SwipeRight | src/components/ui/MusicTaste.jsx:57 | a right swipe moves one step back and never before step 0 |
| GenreRanking.CurrentView | src/components/ui/MusicTaste.jsx:65-80 | the card shows the loading line exactly when the current list is empty; step 0 shows the meta-genres |
| GenreRanking.GesturesPickAChart | src/components/ui/MusicTaste.jsx:55-93 | with both lists filled, every gesture sequence shows one of the two charts, and the second dot always shows the sub-genres |
| GenreRanking.GetColorForGenre | src/components/ui/MusicTaste.jsx:60-63 | the colour is always a registry colour, the one of the sub-genre's parent |
| GenreRanking.ColorWithoutParent | src/components/ui/MusicTaste.jsx:61 | a sub-genre without a parent gets the `other` colour |
| GenreRanking.IntroMetaNames | src/components/steps/GenreIntro.jsx:10-16 | the names of a top three of `highest` by weight: heaviest first, drawn from the input with multiplicity, and every entry left out weighs no more than each one named |
| GenreRanking.IntroSubNames | src/components/steps/GenreIntro.jsx:11-21 | the names of a top five of `sub_genres` by weight, with no filtering: heaviest first, drawn from the input with multiplicity, and every entry left out weighs no more than each one named |
| GenreRanking.IntroAgreesWithMusicTaste | src/components/steps/GenreIntro.jsx:13-16 | the snapshot's three meta names are the first three of the profile chart |
| GenreRanking.IntroSubAgreesWithMusicTaste | src/components/steps/GenreIntro.jsx:18-21 | when the profile's filter keeps every sub-genre, the snapshot's five sub names are the names of the profile's sub chart |
| GenreRanking.IntroSubKeepsMetaGenres | src/components/steps/GenreIntro.jsx:18-21 | the snapshot lists a meta-genre among the sub-genres where the profile chart drops it |
| BarLists.TotalOrOne | src/components/ui/GenreBarList.jsx:11-14 | the total is never zero, and equals the sum whenever the sum is non-zero |
| BarLists.SumPercents | src/components/ui/GenreBarList.jsx:21 | the percentages sum to the values' share of the total |
| BarLists.PercentsOfOwnSum | src/components/ui/SubGenreBarList.jsx:6-13 | against their own non-zero sum the percentages add up to 100 |
| BarLists.PercentsInRange | src/components/ui/GenreBarList.jsx:21 | non-negative values give percentages between 0 and 100 |
| BarLists.AllZeroGivesZeroPercents | src/components/ui/GenreBarList.jsx:11-14 | all-zero values divide by 1 and give 0 everywhere |
| BarLists.FiniteEntries | src/components/ui/GenreBarList.jsx:19 | exactly the finite entries are kept, in input order |
| BarLists.FiniteEntriesCounts | src/components/ui/GenreBarList.jsx:19 | each finite entry is kept as often as it occurs, every other entry never |
| BarLists.FiniteSumIsSumOfFinite | src/components/ui/GenreBarList.jsx:11-14 | the reducer's sum equals the sum of the finite values |
| BarLists.RenderBars | src/components/ui/GenreBarList.jsx:18-21 | one bar per finite entry, in order |
| BarLists.GenreBarList | src/components/ui/GenreBarList.jsx:7-9 | the placeholder is shown exactly for a non-array or empty list |
| BarLists.RenderedPercents | src/components/music/GenreBarList.jsx:23-26 | the rendered percentages are those of the finite values against the total |
| BarLists.GenreBarsSumTo100 | src/components/ui/GenreBarList.jsx:11-21 | with non-negative values and a positive sum the bars add up to 100 |
| BarLists.GenreBarsAllZero | src/components/music/GenreBarList.jsx:11-26 | when every finite value is zero every bar shows 0 |
| BarLists.NonFiniteSkipped | src/components/ui/GenreBarList.jsx:12-19 | inserting a non-finite entry anywhere changes nothing rendered |
| BarLists.SubParent | src/components/ui/SubGenreBarList.jsx:11-12 | the parent is the map's non-empty entry for the lower-cased name; without a map, or without a non-empty entry, it is "other" |
| BarLists.SubColor | src/components/ui/SubGenreBarList.jsx:14 | the colour is the callback's non-empty answer, else gold |
| BarLists.SubBars | src/components/ui/SubGenreBarList.jsx:10-14 | one bar per entry, with its parent, percentage and colour |
| BarLists.SubGenreBarList | src/components/ui/SubGenreBarList.jsx:5-14 | one bar per entry, none skipped: its name, its share of the plain sum or of 1, the parent looked up for it, and the colour for that parent |
| BarLists.SubBarsSumTo100 | src/components/ui/SubGenreBarList.jsx:6-13 | with a non-zero sum the sub-genre bars add up to 100 |
| BarLists.SubBarsWithoutMapShareColor | src/components/ui/MusicTaste.jsx:79 | without a genre map every bar's parent is "other", so all bars share one colour |
| BarLists.MusicSubGenreBarList | src/components/music/SubGenreBarList.jsx:15-19 | one bar per entry with its name and share of the total; a truthy gradient is used as given, a missing one becomes the grey default |
| BarLists.MusicSubBarsSumTo100 | src/components/music/SubGenreBarList.jsx:6-17 | with a non-zero sum the bars add up to 100 |
| Normalize.ResolveTracks | src/utils/normalize.js:8-13 | a numeric `tracks` wins, then a present `track_count`, then `tracks.total`, then 0 |
| Normalize.NormalizePlaylist | src/utils/normalize.js:2-17 | both id fields hold `id`, or `playlist_id` when `id` is falsy; the track count is resolved; a missing URL is generated; the other fields pass through |
| Normalize.NormalizeIdempotent | src/utils/normalize.js:2-17 | normalising twice is normalising once |
| Normalize.UrlNamesPlaylist | src/utils/normalize.js:14-15 | the URL is always truthy; a generated one is the Spotify playlist address of the id |
| Normalize.IdPreference | src/utils/normalize.js:3 | a truthy `id` wins over `playlist_id` |
| Selection.Toggle | src/components/steps/PlaylistImporter.jsx:27 | the id is in the result exactly when it was not in the selection; other ids are untouched |
| Selection.ToggleTwice | src/components/steps/PlaylistImporter.jsx:27 | toggling twice restores the selection |
| Selection.ToggleNoDup | src/components/steps/PlaylistImporter.jsx:27 | toggling keeps a selection free of duplicates |
| Selection.ToggleCapped | src/components/settings/EditFeatured.jsx:28-34 | a selected id is removed and the others stay in their order; a new one is added only below the cap |
| Selection.ToggleCappedInvariant | src/components/settings/EditFeatured.jsx:28-34 | a duplicate-free selection within the cap stays so |
| Selection.ToggleAll | src/components/steps/PlaylistImporter.jsx:35-41 | a selection as long as the list clears; any other becomes every id |
| Selection.SelectedById | src/components/steps/PlaylistImporter.jsx:21 | exactly the listed playlists whose id is selected, in list order |
| Selection.Search | src/components/steps/FeaturedPicker.jsx:29 | exactly the playlists whose name contains the text, ignoring case, in list order |
| Selection.EmptySearchKeepsAll | src/components/steps/FeaturedPicker.jsx:29 | an empty search text keeps every playlist |
| Selection.ByTracksDesc | src/components/steps/FeaturedPicker.jsx:30 | a permutation sorted by track count, most first |
| Selection.ByTracksAsc | src/components/steps/FeaturedPicker.jsx:30 | a permutation sorted by track count, fewest first |
| EditFeatured.InitialSelection | src/components/settings/EditFeatured.jsx:22 | one id per featured playlist, `id` before `playlist_id` |
| EditFeatured.HandleToggle | src/components/settings/EditFeatured.jsx:28-34 | removing an id keeps the other ids in their order; a new id is appended below three and refused at three; the selection never exceeds three distinct ids |
| EditFeatured.ThreeClicksEnableSave | src/components/settings/EditFeatured.jsx:28-34 | three distinct clicks enable Save, a fourth is refused, and a deselect disables it |
| EditFeatured.Load | src/components/settings/EditFeatured.jsx:10-26 | closed, nothing happens; a failed first request keeps the lists; with only the first answer the full list is shown; with both, the dashboard's list and its featured selection; the loader stops |
| EditFeatured.ThreeFeaturedLoadSavable | src/components/settings/EditFeatured.jsx:22 | three featured playlists load a selection that can be saved at once |
| EditFeatured.Shown | src/components/settings/EditFeatured.jsx:70-71 | the grid is exactly the playlists matching the search, in list order |
| EditFeatured.Save | src/components/settings/EditFeatured.jsx:36-45 | a body is posted exactly when three are selected, and it carries the selection |
| FeaturedPicker.Init | src/components/steps/FeaturedPicker.jsx:5-8 | the selection is the `playlist_id` of each featured playlist, in order; no search, descending |
| FeaturedPicker.ApplySelection | src/components/steps/FeaturedPicker.jsx:10-14 | the featured list is the imported playlists whose id is selected; the wizard may proceed exactly at three |
| FeaturedPicker.ToggleSelect | src/components/steps/FeaturedPicker.jsx:16-22 | removing an id keeps the other ids in their order; a new id is appended below three and refused at three; search and order stay |
| FeaturedPicker.ToggleSort | src/components/steps/FeaturedPicker.jsx:24-26 | only the direction flips; selection and search stay |
| FeaturedPicker.ToggleSortTwice | src/components/steps/FeaturedPicker.jsx:24-26 | flipping the order twice restores the state |
| FeaturedPicker.Shown | src/components/steps/FeaturedPicker.jsx:28-30 | the grid holds exactly the matching imported playlists, sorted as the flag says |
| PlaylistImporter.Init | src/components/steps/PlaylistImporter.jsx:6-9 | the selection is the `playlist_id` of each chosen playlist, in order; empty list, descending, no search |
| PlaylistImporter.Fetch | src/components/steps/PlaylistImporter.jsx:11-18 | the listed items become the list, most tracks first; a failure changes nothing |
| PlaylistImporter.ApplySelection | src/components/steps/PlaylistImporter.jsx:20-24 | the chosen playlists are the listed ones whose id is selected, in list order; proceed needs at least three |
| PlaylistImporter.ToggleSelect | src/components/steps/PlaylistImporter.jsx:26-28 | only the clicked id changes membership |
| PlaylistImporter.ToggleAllSelected | src/components/steps/PlaylistImporter.jsx:35-41 | select-all selects every listed id in order, or clears a full selection |
| PlaylistImporter.ToggleAllTwiceClears | src/components/steps/PlaylistImporter.jsx:35-41 | select-all followed by toggle-all clears |
| PlaylistImporter.ToggleSort | src/components/steps/PlaylistImporter.jsx:30-33 | the flag flips and the list is permuted |
| PlaylistImporter.OrderMatchesFlagInvariant | src/components/steps/PlaylistImporter.jsx:11-41 | the list order matches the flag after the fetch and after every action |
| PlaylistImporter.Filtered | src/components/steps/PlaylistImporter.jsx:43 | exactly the listed playlists matching the search, in order |
| EditPlaylists.Unimported | src/components/settings/EditPlaylists.jsx:29-33 | exactly the Spotify playlists whose id is not an imported key |
| EditPlaylists.Open | src/components/settings/EditPlaylists.jsx:15 | opening clears the selection only |
| EditPlaylists.Load | src/components/settings/EditPlaylists.jsx:17-39 | a failure empties both lists; a success replaces the imported list, and on the add tab the Spotify list holds only new playlists |
| EditPlaylists.SwitchTab | src/components/settings/EditPlaylists.jsx:12-42 | clicking the active tab changes nothing; choosing the other tab clears the selection and reloads both lists |
| EditPlaylists.Listed | src/components/settings/EditPlaylists.jsx:64 | the add tab lists the Spotify playlists, the remove tab the imported ones |
| EditPlaylists.AddTabListsOnlyNew | src/components/settings/EditPlaylists.jsx:29-33 | switching from the remove tab to the add tab lists only new Spotify playlists with nothing selected; clicking the add tab while on it changes nothing |
| EditPlaylists.Click | src/components/settings/EditPlaylists.jsx:99-108 | a click flips the tile key's membership |
| EditPlaylists.SavePayload | src/components/settings/EditPlaylists.jsx:44-59 | the playlists sent are exactly the selected ones of the tab's list, in order |
| EditPlaylists.AddNeverReimports | src/components/settings/EditPlaylists.jsx:29-50 | saving on the add tab never re-sends an imported playlist |
| OnboardingSteps.EligiblePlaylists | src/components/OnboardingSteps.jsx:56 | exactly the playlists with at least five tracks, in order |
| OnboardingSteps.LoadWizard | src/components/OnboardingSteps.jsx:45-64 | `/me` sets the name and picture, then the grid becomes the eligible playlists; a failure stops the chain |
| OnboardingSteps.GridStaysEligible | src/components/OnboardingSteps.jsx:56-144 | loading, searching and sorting never put an ineligible playlist in the grid |
| OnboardingSteps.HandleNext | src/components/OnboardingSteps.jsx:66-82 | the two alerts and the missing-name error block Next; step 2 submits the selection, name and picture |
| OnboardingSteps.NextBlockedOnlyWhen | src/components/OnboardingSteps.jsx:66-82 | Next moves one step forward unless it is blocked, and it is blocked exactly in the two alert cases and the missing name |
| OnboardingSteps.EnabledNextAdvances | src/components/OnboardingSteps.jsx:188-190 | with the button enabled, step 0 always advances |
| OnboardingSteps.ClickTile | src/components/OnboardingSteps.jsx:159-164 | a click flips the playlist id's membership |
| OnboardingSteps.SearchAsWritten | src/components/OnboardingSteps.jsx:117-126 | the result is the shown playlists matching the text, sorted by name |
| OnboardingSteps.SearchAsWrittenNeverWidens | src/components/OnboardingSteps.jsx:117-126 | a playlist hidden by one search never comes back, even when the box is cleared |
| OnboardingSteps.SearchCorrected | src/components/OnboardingSteps.jsx:117-126 | the eligible playlists matching the text, sorted by name |
| OnboardingSteps.ClearedSearchRestoresAll | src/components/OnboardingSteps.jsx:117-126 | clearing the box brings back every eligible playlist |
| OnboardingSteps.SortShown | src/components/OnboardingSteps.jsx:129-144 | each menu entry gives a permutation sorted by its key and direction |
| OnboardingSteps.SavePicture | src/components/OnboardingSteps.jsx:242-245 | the saved picture becomes both the upload and the picture |
| OnboardingSteps.CancelPicture | src/components/OnboardingSteps.jsx:246-249 | cancelling drops the upload and restores the user's picture or none |
| OnboardingSteps.PictureChoiceSubmitted | src/components/OnboardingSteps.jsx:77-78 | Next at the picture step submits the saved picture, or after a cancel the user's own |
| NameEditor.InitialName | src/components/steps/NameEditor.jsx:6 | the wizard's name, else the user's, else empty |
| NameEditor.CanProceed | src/components/steps/NameEditor.jsx:9 | proceed exactly when the name has a non-space character |
| NameEditor.HandleChange | src/components/steps/NameEditor.jsx:12-16 | field and record take the new name; the playlists are untouched |
| NameEditor.ChangeThenReopen | src/components/steps/NameEditor.jsx:6-16 | a typed non-empty name is what the step shows when opened again |
| NameEditor.Heading | src/components/steps/NameEditor.jsx:20 | the user's name or "friend", never empty |
| TrackPatterns.ReplaceFirstCuts | src/components/RecentlyPlayedCard.jsx:10-17 | a replacement cuts out exactly the first match |
| TrackPatterns.ReplaceFirst | src/components/RecentlyPlayedCard.jsx:10-17 | without a match the text is unchanged; otherwise the first match is cut out, so the text never grows |
| TrackPatterns.RemoveSuffixes | src/components/RecentlyPlayedCard.jsx:10-17 | the eight removals never lengthen the name |
| TrackPatterns.CleanTrackName | src/components/RecentlyPlayedCard.jsx:8-19 | the clean name is trimmed and no longer than the name |
| TrackPatterns.MatchShowsLiteral | src/components/RecentlyPlayedCard.jsx:10-17 | a match of a pattern demanding a word puts that word in the case-folded text |
| TrackPatterns.AbsentLiteralNoMatch | src/components/RecentlyPlayedCard.jsx:10-17 | a pattern demanding a word the text lacks leaves it alone |
| TrackPatterns.RemasterPatternsSkip | src/components/RecentlyPlayedCard.jsx:10-17 | text without "remaster" passes the six remaster patterns |
| TrackPatterns.SinglePatternsSkip | src/components/RecentlyPlayedCard.jsx:15-16 | text without "single" passes the two single patterns |
| TrackPatterns.SingleSuffixRemoved | src/components/RecentlyPlayedCard.jsx:15 | "A - Single" cleans to "A" |
| TrackPatterns.SixthRemovalOnly | src/components/RecentlyPlayedCard.jsx:10-17 | when only the sixth pattern matches, its result is the result |
| TrackPatterns.RemoveSuffixesUnchanged | src/components/RecentlyPlayedCard.jsx:10-17 | when no pattern matches, the name is unchanged |
| TrackPatterns.KeywordFreeNamesOnlyTrimmed | src/components/RecentlyPlayedCard.jsx:8-19 | a name mentioning neither keyword is only trimmed |
| TrackPatterns.CleanNameIsIdentityOnPlainNames | src/components/RecentlyPlayedCard.jsx:8-19 | a trimmed name without the keywords comes back unchanged |
| RecentlyPlayed.FreshnessLabel | src/components/RecentlyPlayedCard.jsx:96-104 | no date gives no label; under a minute reads "just now"; otherwise whole minutes and "m ago" |
| RecentlyPlayed.LabelShowsElapsedMinutes | src/components/RecentlyPlayedCard.jsx:99-103 | reading the label back gives the whole minutes elapsed, 0 when under a minute |
| RecentlyPlayed.FutureIsJustNow | src/components/RecentlyPlayedCard.jsx:101 | a date in the future reads "just now" |
| RecentlyPlayed.UnwrapRecent | src/components/RecentlyPlayedCard.jsx:67 | a wrapped track is unwrapped; a plain one is kept |
| RecentlyPlayed.Refresh | src/components/RecentlyPlayedCard.jsx:60-82 | the track changes and is posted exactly when both requests answer and a playing track differs in id from the stored one, or none is stored; the spinner always stops |
| RecentlyPlayed.RefreshIdleOnSameTrack | src/components/RecentlyPlayedCard.jsx:70 | the same track id changes nothing |
| RecentlyPlayed.FetchInitial | src/components/RecentlyPlayedCard.jsx:35-58 | the first track found among the three sources is shown; only the last two post |
| RecentlyPlayed.GenreBadge | src/components/RecentlyPlayedCard.jsx:154-158 | a badge exactly when the track has a genre and the gradients arrived; painted exactly when the table has the meta-genre |
| RecentlyPlayed.BadgeFollowsMetaGenre | src/components/RecentlyPlayedCard.jsx:158 | genres of one meta-genre share a badge colour |
| RecentlyPlayed.PopRockBadge | src/components/RecentlyPlayedCard.jsx:158 | a "pop rock" track wears the rock gradient |
| RecentlyPlayed.FailedGradientsLeaveBadgeBare | src/components/RecentlyPlayedCard.jsx:91-158 | after a failed gradient request the badge is shown unpainted |
| Home.FeaturedShown | src/pages/home.jsx:52-54 | at most three featured playlists, most tracks first, none left out with more tracks than one shown |
| Home.AllShown | src/pages/home.jsx:53-55 | every playlist, most tracks first |
| Home.InitialView | src/pages/home.jsx:24-34 | the page starts from the cached track and time, without animation, with the cache as it was |
| Home.ShowTrack | src/pages/home.jsx:57-63 | showing a track writes it and its time to the cache |
| Home.PollTrack | src/pages/home.jsx:124-146 | as written: a playing track that differs from the one captured when the interval was set up is displayed, stamped with the poll's time, animated and cached; otherwise nothing changes |
| Home.PollRestampsAsWritten | src/pages/home.jsx:69-79 | once a dashboard load has replaced the displayed track, every poll reporting that same track stamps and animates it again |
| Home.PollTrackCorrected | src/pages/home.jsx:130-140 | compared with the track displayed now, a poll changes the view exactly when a different track is playing, and the cache keeps mirroring the view |
| Home.PollAgreesWhileUnchanged | src/pages/home.jsx:132 | while the displayed track is still the captured one, the poll as written and the corrected poll agree |
| Home.PollSettles | src/pages/home.jsx:130-140 | the corrected poll settles: the same answer a second time changes nothing |
| Home.DashboardUser | src/pages/home.jsx:46-50 | the user record holds only the name, picture and analysis |
| Home.LoadDashboard | src/pages/home.jsx:41-67 | no user id or a failure changes nothing; a success sets the user, the two lists and the latest track |
| Home.DashboardDropsUserFields | src/pages/home.jsx:46-50 | after a dashboard load the user has lost its id and important playlists |
| Home.DashboardKeepsCache | src/pages/home.jsx:57-63 | the cache keeps mirroring the view across dashboard loads |
| Home.GenreSource | src/pages/home.jsx:98-122 | a held analysis is kept; the user's analysis is used first; otherwise it is fetched |
| Home.GenreSourceSettles | src/pages/home.jsx:99 | once an analysis is held it is never replaced or requested again |
| Home.FetchGenreMapAsWritten | src/pages/home.jsx:82-93 | the map never changes |
| Home.FetchGenreMap | src/pages/home.jsx:84-89 | the keys are exactly the response's lower-cased keys |
| Home.GenreMapNeverLoads | src/pages/home.jsx:84-89 | for any non-empty response the map stays empty as written, while the intended map holds every key |
| Home.FetchedMapIsLower | src/pages/home.jsx:86-88 | keys and values of the intended map are lower case |
| Home.RefreshSession | src/pages/home.jsx:148-159 | a failed refresh clears storage and goes to "/"; a success changes nothing |
| Home.Heading | src/pages/home.jsx:208 | the user's name or "Sgt. Pepper", never empty |
| Home.HandleAsWritten | src/pages/home.jsx:220 | without a user id the handle reads "@undefined" |
| Home.Handle | src/pages/home.jsx:220 | the handle is "@" followed by the user id, or "@" alone |
| Home.HandleAfterDashboard | src/pages/home.jsx:46-50 | after any dashboard load the written handle reads "@undefined" and the intended one "@" |
| PublicProfile.InitialPage | src/pages/public.jsx:12-13 | no profile and an empty map |
| PublicProfile.Load | src/pages/public.jsx:15-33 | the page changes only when both requests succeed |
| PublicProfile.Heading | src/pages/public.jsx:45 | the display name, else "/u/" and the id |
| PublicProfile.Render | src/pages/public.jsx:37-55 | loading exactly until a profile is set; then the heading, and the recent card exactly when the profile has a `last_played_track`, with the unwrapped value as its `track` |
| PublicProfile.LoadingUntilBothArrive | src/pages/public.jsx:15-37 | the page stays loading exactly when one of the requests fails |
| PublicProfile.HeadingNeverEmpty | src/pages/public.jsx:45 | the heading is never empty and names the address when nameless |
| PublicProfile.TrackUnwrapped | src/pages/public.jsx:53 | the value passed as the card's `track` is the inner track when wrapped, else the field itself |
| UserContext.ResolveUserId | src/context/UserContext.jsx:9-19 | a non-empty URL id wins and is stored; otherwise the stored id is used; other storage keys are untouched |
| UserContext.UrlIdPersists | src/context/UserContext.jsx:14-18 | an id that came in the URL is found again on a later start without it |
| UserContext.LoadUser | src/context/UserContext.jsx:21-43 | loading always ends; a request is made exactly with a user id; a failure clears the user; an empty answer keeps it |
| UserContext.UserPresentIff | src/context/UserContext.jsx:21-43 | from the start a user is present exactly when an id was known and `/me` answered with a body |
| UserContext.ImportantPlaylists | src/context/UserContext.jsx:45 | the user's important playlists, or none |
| ClassLists.ReplaceInGroup | src/context/ThemeContext.jsx:77-78 | exactly one class of the group remains, the chosen one; other classes are untouched |
| ClassLists.Add | src/context/ThemeContext.jsx:94 | afterwards the classes are the earlier ones plus the new one, still without repeats |
| ClassLists.FromString | src/context/ThemeContext.jsx:86 | the classes read from a class string are exactly its non-empty space-separated pieces, each once |
| ClassLists.FromStringJoin | src/components/settings/ThemePickerModal.jsx:74-77 | joining well-formed classes with spaces and splitting them again gives the same set of classes |
| ThemeContext.InitialState | src/context/ThemeContext.jsx:13-17 | stored values, "light" for a missing theme, empty customisations otherwise |
| ThemeContext.ToggleTheme | src/context/ThemeContext.jsx:110 | the result is light exactly when the theme was dark, dark otherwise |
| ThemeContext.ToggleTwice | src/context/ThemeContext.jsx:110 | between light and dark, toggling twice is no change |
| ThemeContext.SurpriseTheme | src/context/ThemeContext.jsx:111-114 | the surprise is always one of the six themes |
| ThemeContext.SurpriseSixths | src/context/ThemeContext.jsx:113 | each theme is drawn from its own sixth of the random range |
| ThemeContext.PublicRouteMissed | src/context/ThemeContext.jsx:21 | no "/u/" path counts as public as written, every one does as intended, and no other route is public |
| ThemeContext.PublicProfileStillSaves | src/context/ThemeContext.jsx:21-46 | on a "/u/" profile page with a signed-in viewer, the guard as written loads the viewer's saved theme and sends a save; the corrected guard does neither |
| ThemeContext.ShownTheme | src/context/ThemeContext.jsx:78 | the preview, when set, else the theme |
| ThemeContext.ThemeEffect | src/context/ThemeContext.jsx:75-82 | the root keeps exactly one theme class, the one shown; the theme is stored; a save is sent exactly when the guard as written passes: a user id and a path not starting with "/user" |
| ThemeContext.BackgroundEffect | src/context/ThemeContext.jsx:84-90 | a non-empty background replaces the body's classes and is stored, with a save exactly under the guard as written; an empty one changes nothing |
| ThemeContext.FontEffect | src/context/ThemeContext.jsx:92-98 | a non-empty font is added to the earlier classes and stored, with a save exactly under the guard as written; an empty one changes nothing |
| ThemeContext.TextColorEffect | src/context/ThemeContext.jsx:100-107 | a non-empty colour replaces the text-colour classes and is stored, with a save exactly under the guard as written; an empty one changes nothing |
| ThemeContext.OneTextColor | src/context/ThemeContext.jsx:100-107 | afterwards the body holds exactly one text-colour class |
| ThemeContext.LoadUserTheme | src/context/ThemeContext.jsx:24-42 | only non-empty saved fields are applied, and only with a user id and a path not starting with "/user", which includes the "/u/" profile pages |
| ThemeContext.LoadKeepsThemeNonEmpty | src/context/ThemeContext.jsx:32 | a server load never empties the theme |
| ThemePickerModal.HighlightedPresets | src/components/settings/ThemePickerModal.jsx:48 | exactly the presets equal to the current theme are highlighted |
| ThemePickerModal.AtMostOneHighlighted | src/components/settings/ThemePickerModal.jsx:7-48 | one preset is highlighted when the theme is a preset, none otherwise |
| ThemePickerModal.PresetClickAsWritten | src/components/settings/ThemePickerModal.jsx:17-46 | only the theme changes; storage and the open modal stay |
| ThemePickerModal.PresetClick | src/components/settings/ThemePickerModal.jsx:37-46 | the theme is set, the customisations and their storage are cleared, the modal closes |
| ThemePickerModal.PresetKeepsCustomisations | src/components/settings/ThemePickerModal.jsx:37-46 | as written a custom background and the open modal survive a preset click; as intended both are cleared |
| ThemePickerModal.SurpriseClick | src/components/settings/ThemePickerModal.jsx:56-60 | a preset is chosen and the modal closes |
| ThemePickerModal.BackgroundClick | src/components/settings/ThemePickerModal.jsx:73-79 | the chosen class is stored; the root is untouched |
| ThemePickerModal.BackgroundClickClasses | src/components/settings/ThemePickerModal.jsx:74-78 | the body keeps exactly its classes not starting with "bg-" and gains the chosen ones |
| ThemePickerModal.FontClick | src/components/settings/ThemePickerModal.jsx:93-97 | exactly one font class remains, the chosen one; it is stored |
| ThemePickerModal.TextColorClick | src/components/settings/ThemePickerModal.jsx:110-114 | exactly one text-colour class remains, the chosen one; it is stored |
| ThemePickerModal.TextColorClickMatchesEffect | src/components/settings/ThemePickerModal.jsx:110-114 | the click and the context's effect leave the same body classes |
| AppTheme.DarkClass | src/App.jsx:15-31 | "dark" is present exactly when saved as dark, or not saved as light with a dark system preference; no other class changes |
| AppTheme.SavedLightWins | src/App.jsx:21-22 | a saved "light" wins over a dark system preference |
| AppTheme.DarkClassIdempotent | src/App.jsx:15-31 | running the start-up rule twice is running it once |

## Left out

- Rendering, animation, timers and intervals are left out. The 30-second polls
  and the 5-minute session refresh are single calls. The 500/600/1000 ms
  resets of the animation and spinner flags are not modelled.
- `console` logging, `alert`, `window.confirm`, and navigation after logout or
  submission are left out. Logout is the cleared storage plus the target path.
- Deleting an account (`home.jsx` `deleteAccount`) is left out. It is one
  request followed by the logout already modelled.
- The home page's loading spinner is left out, and so is the profile picture
  fallback `user?.profile_picture || ""`. Both are plain display choices.
- `convertToWebP` and the image editor's internals are left out, because they
  run on canvas and file APIs. The editor's Save and Cancel callbacks are
  modelled.
- `toLowerCase` is an ASCII fold. Full Unicode case mapping is not modelled.
- Regular expressions are modelled only for the eight clean-up patterns of
  `cleanTrackName`, by a small matcher. `\s` and `trim` use JavaScript's
  white-space set: space, tab to carriage return, no-break space, the
  Unicode space separators, the line and paragraph separators, and the byte
  order mark.
- `localeCompare` is an abstract order, the parameter `collate`.
- `JSON.stringify` equality of tracks is structural equality of the model's
  values.
- `Math.round` and `toFixed(1)` display strings are not modelled. The bar
  percentages are exact reals.
- `GENRE_MAP` and the customisation tables (`backgrounds`, `fonts`,
  `textColors`) come from modules that are not part of this model. They are
  parameters.
- Both `GenreBarList` components import `getMetaGenreGradient` from
  `constants/metaGenres.js`, which exports only `metaGenreColors`,
  `getMetaGenreColor` and `isMetaGenre`. The bar background is therefore not
  modelled: the bars carry their name and percentage only.
- An in-flight gradient request is not shared between callers. Concurrency and
  the ordering of promises are not modelled: each request settles before the
  next step.
- `classList.add("")` throws a DOMException. The class operations therefore
  require non-empty classes.
- GenreIntro's `setCanProceed(true)` is unconditional, so it has no model
  beyond the fact that the step can always proceed.
- `isPublicView` reads the path once, when the context is created. The model
  takes the path as a parameter of each effect.
- The response shapes are taken as given. For example, `res.items` in the
  importer is an array; a response missing it fails like any other request.
- GenreRanking.RankMeta: ties between equal weights are ordered by
  `Array.prototype.sort`'s stability, as in the model. The contract states
  the ranking only up to weight order, not which of two equal entries is kept.
- GenreRanking.RankSub: the same holds for ties among sub-genres.
- TrackPatterns.CleanTrackName: the general contract says only that the result
  is trimmed and not longer. Exact results are proved for names without the
  keywords and for the single suffix, not for every remaster spelling.
- PlaylistImporter.Init: requires `selected_playlists` to be present, because
  the source calls `.map` on it and throws otherwise.
- MetaGenres.GetMetaGenreColor: names are assumed not to be properties of
  `Object.prototype`. A name such as "constructor" would find an inherited
  function in the table and return it.
- MetaGenres.ColorFollowsMembership: the same assumption; for "constructor"
  the lookup and the membership test would disagree.
- MetaGenreUtils.GetMetaGenreColor: the same assumption as for the
  constants registry.
- MetaGenreUtils.ColorFollowsMembership: the same assumption.
- ParentGenre.GetParentGenre, BarLists.SubParent and
  GenreRanking.GetColorForGenre index the genre map with a name in the same
  way (`getParentGenre.js:6`, `ui/SubGenreBarList.jsx:12`,
  `MusicTaste.jsx:61`). The model's maps hold only the keys given, so
  inherited properties such as `__proto__` are not modelled.
- Wrappers.Interpolated: JSON `null` and a missing field are both `None`
  and both print "undefined". JavaScript prints a `null` as "null", so a
  `null` id would read "@null" on the home page and "/u/null" on the public
  page. The model does not tell the two apart.
- The recent-track card declares no props. On the public page it loads and
  shows the signed-in viewer's own track, and the `track` value written at
  `public.jsx:53` is ignored. The model records that value and whether the
  card is rendered (`PublicProfile.Render`), not the card's own loading.
- `MusicTaste.jsx:40` keeps a sub-genre only when its name is not a
  meta-genre and its parent is not the sub-genre itself. It does not check
  that the parent is a meta-genre. The model follows that filter
  (`GenreRanking.KeptSubs`, `GenreRanking.SubViewExcludesMetaAndSelfParent`).
- `MusicTaste.jsx:79` passes no genre map to `SubGenreBarList`. The bars then
  all take the `other` parent (`BarLists.SubBarsWithoutMapShareColor`).
- `FeaturedPicker` loads its selection from `playlist_id` but matches
  playlists by `id`. The two agree for playlists passed through
  `normalizePlaylist`. The model keeps both fields apart and claims nothing
  about mixed data.

## Findings

| source | as written | input that shows it | evidently intended | confidence | as-written member | corrected member |
|---|---|---|---|---|---|---|
| src/pages/home.jsx:84-89 | `apiGet` already returns the parsed body, and `res.json()` is then called on that object. The call throws, so the catch leaves the genre map empty | any `/genre-map` response with at least one entry | build the map from the parsed body, as `public.jsx:23-27` does | not executed | Home.FetchGenreMapAsWritten (shown by Home.GenreMapNeverLoads) | Home.FetchGenreMap |
| src/components/OnboardingSteps.jsx:117-126 | the search filters the list currently shown, so each search starts from the previous result | playlists "rock" and "jazz": search "rock", then clear the box; "jazz" does not come back | filter the full eligible list on every keystroke | not executed | OnboardingSteps.SearchAsWritten (shown by OnboardingSteps.SearchAsWrittenNeverWidens) | OnboardingSteps.SearchCorrected (with OnboardingSteps.ClearedSearchRestoresAll) |
| src/context/ThemeContext.jsx:21 | the public view is detected by the prefix "/user", but the public profile route is "/u/:user_id" (`App.jsx:42`). The guard at lines 25 and 46 therefore lets a signed-in viewer load and save themes on someone else's profile | path "/u/abc" with a signed-in viewer: the viewer's saved theme is loaded and every theme change is posted | test the prefix "/u/" | not executed | ThemeContext.SaveAllowed with ThemeContext.IsPublicViewAsWritten (shown by ThemeContext.PublicProfileStillSaves) | ThemeContext.SaveAllowedCorrected with ThemeContext.IsPublicView (shown by ThemeContext.PublicRouteMissed) |
| src/components/settings/ThemePickerModal.jsx:17-46 | the component takes only `theme`, `setTheme` and `surpriseTheme` from the context, and then calls `setBackground`. That call is a ReferenceError, so the reset, the storage removals and `onClose` never run | any preset click while a custom background is set | reset the three customisations, remove them from storage, and close | not executed | ThemePickerModal.PresetClickAsWritten (shown by ThemePickerModal.PresetKeepsCustomisations) | ThemePickerModal.PresetClick |
| src/pages/home.jsx:220 | `"@" + user?.user_id \|\| ""` concatenates first, so a missing id prints "@undefined" | any page after a dashboard load, whose user record has no `user_id` | `"@" + (user?.user_id \|\| "")` | not executed | Home.HandleAsWritten (shown by Home.HandleAfterDashboard) | Home.Handle |
| src/pages/home.jsx:69-79 | the 30-second interval is set up once per user id, so `loadNowPlaying` keeps comparing with the track of that first render (line 132) | a dashboard load that displays track `t`, followed by polls that keep reporting `t`: every poll stamps `t` again and restarts the animation | compare with the track displayed now | not executed | Home.PollTrack (shown by Home.PollRestampsAsWritten) | Home.PollTrackCorrected (with Home.PollSettles) |

=== FILE: bar_lists.dfy ===
/** Proportional-bar arithmetic of the four bar-list components:
    `src/components/ui/GenreBarList.jsx` and `src/components/music/GenreBarList.jsx`
    (identical arithmetic), `src/components/ui/SubGenreBarList.jsx` and
    `src/components/music/SubGenreBarList.jsx`. Percentages are exact reals;
    their display formatting is not modelled.
 */
module BarLists {
  import opened Wrappers
  import opened Strings
  import opened Seqs

  // ---------------------------------------------------------------------------
  // Shared arithmetic
  // ---------------------------------------------------------------------------

  /** `reduce((sum, v) => sum + v, 0) || 1`: a zero sum becomes 1. */
  function TotalOrOne(sum: real): (t: real)
    ensures t != 0.0
    ensures sum != 0.0 ==> t == sum
  {
    if sum == 0.0 then 1.0 else sum
  }

  /** `(value / total) * 100`. */
  function Percent(value: real, total: real): real
    requires total != 0.0
  {
    value / total * 100.0
  }

  /** Percentages of a list of values against one total. */
  function Percents(values: seq<real>, total: real): (r: seq<real>)
    requires total != 0.0
    ensures |r| == |values|
    ensures forall i :: 0 <= i < |values| ==> r[i] == Percent(values[i], total)
  {
    if values == [] then [] else [Percent(values[0], total)] + Percents(values[1..], total)
  }

  /** The percentages add up to the share of the total that the values make. */
  lemma {:induction false} SumPercents(values: seq<real>, total: real)
    requires total != 0.0
    ensures Sum(Percents(values, total)) == Sum(values) / total * 100.0
  {
    if values != [] {
      SumPercents(values[1..], total);
      assert Percents(values, total)[1..] == Percents(values[1..], total);
    }
  }

  /** Against their own non-zero sum, percentages add up to exactly 100. */
  lemma PercentsOfOwnSum(values: seq<real>)
    requires Sum(values) != 0.0
    ensures Sum(Percents(values, TotalOrOne(Sum(values)))) == 100.0
  {
    SumPercents(values, Sum(values));
    assert Sum(values) / Sum(values) == 1.0;
  }

  /** Non-negative values against their positive sum give percentages in
      [0, 100]. */
  lemma PercentsInRange(values: seq<real>)
    requires forall i :: 0 <= i < |values| ==> values[i] >= 0.0
    requires Sum(values) > 0.0
    ensures forall i :: 0 <= i < |values| ==> 0.0 <= Percents(values, Sum(values))[i] <= 100.0
  {
    SumNonNegative(values);
    forall i | 0 <= i < |values| ensures 0.0 <= Percent(values[i], Sum(values)) <= 100.0 {
      DivAtMostOne(values[i], Sum(values));
    }
  }

  lemma DivAtMostOne(a: real, b: real)
    requires 0.0 <= a <= b && b > 0.0
    ensures 0.0 <= a / b * 100.0 <= 100.0
  {
    assert a / b <= 1.0;
  }

  /** All-zero values: the total falls back to 1 and every percentage is 0. */
  lemma AllZeroGivesZeroPercents(values: seq<real>)
    requires forall i :: 0 <= i < |values| ==> values[i] == 0.0
    ensures Sum(values) == 0.0
    ensures forall i :: 0 <= i < |values| ==> Percents(values, TotalOrOne(Sum(values)))[i] == 0.0
  {
    SumZeroIff(values);
  }

  // ---------------------------------------------------------------------------
  // GenreBarList (ui and music variants)
  // ---------------------------------------------------------------------------

  /** A JavaScript value in the `value` field: a finite number, or anything
      else (`NaN`, an infinity, a non-number). */
  datatype Num = Finite(v: real) | NonFinite

  datatype BarEntry = BarEntry(name: string, value: Num)

  datatype Bar = Bar(name: string, percent: real)

  function PercentOfBar(b: Bar): real { b.percent }

  /** What the component renders: the placeholder, or the bars in order. */
  datatype BarView = Placeholder | Bars(bars: seq<Bar>)

  predicate IsFiniteEntry(e: BarEntry) {
    e.value.Finite?
  }

  /** The finite entries, in input order: a subsequence of the data holding
      every finite entry (`FiniteEntriesCounts` adds: as often as the data
      does). */
  function FiniteEntries(data: seq<BarEntry>): (r: seq<BarEntry>)
    ensures forall i :: 0 <= i < |r| ==> r[i].value.Finite?
    ensures forall i :: 0 <= i < |data| && data[i].value.Finite? ==> data[i] in r
    ensures forall x :: x in r ==> x in data
    ensures IsSubsequence(r, data)
  {
    if data == [] then []
    else
      var rest := FiniteEntries(data[1..]);
      if IsFiniteEntry(data[0]) then
        var r := [data[0]] + rest;
        assert r[1..] == rest;
        r
      else rest
  }

  /** Each finite entry is kept as often as it occurs, and nothing else is. */
  lemma {:induction false} FiniteEntriesCounts(data: seq<BarEntry>)
    ensures forall x :: multiset(FiniteEntries(data))[x] == if x.value.Finite? then multiset(data)[x] else 0
  {
    if data != [] {
      FiniteEntriesCounts(data[1..]);
      assert data == [data[0]] + data[1..];
      FiniteEntriesCons(data[0], data[1..]);
    }
  }

  /** The reducer's running sum, where non-finite entries count 0. */
  function FiniteSum(data: seq<BarEntry>): real {
    if data == [] then 0.0
    else (if data[0].value.Finite? then data[0].value.v else 0.0) + FiniteSum(data[1..])
  }

  function Values(entries: seq<BarEntry>): (r: seq<real>)
    requires forall i :: 0 <= i < |entries| ==> entries[i].value.Finite?
    ensures |r| == |entries|
    ensures forall i :: 0 <= i < |entries| ==> r[i] == entries[i].value.v
  {
    if entries == [] then [] else [entries[0].value.v] + Values(entries[1..])
  }

  /** Skipping the non-finite entries leaves the sum unchanged. */
  lemma {:induction false} FiniteSumIsSumOfFinite(data: seq<BarEntry>)
    ensures FiniteSum(data) == Sum(Values(FiniteEntries(data)))
  {
    if data != [] {
      FiniteSumIsSumOfFinite(data[1..]);
      if data[0].value.Finite? {
        assert FiniteEntries(data) == [data[0]] + FiniteEntries(data[1..]);
        assert Values(FiniteEntries(data))[1..] == Values(FiniteEntries(data[1..]));
      } else {
        assert FiniteEntries(data) == FiniteEntries(data[1..]);
      }
    }
  }

  function BarsOf(entries: seq<BarEntry>, total: real): (r: seq<Bar>)
    requires total != 0.0
    requires forall i :: 0 <= i < |entries| ==> entries[i].value.Finite?
    ensures |r| == |entries|
    ensures forall i :: 0 <= i < |r| ==> r[i] == Bar(entries[i].name, Percent(entries[i].value.v, total))
  {
    if entries == [] then []
    else [Bar(entries[0].name, Percent(entries[0].value.v, total))] + BarsOf(entries[1..], total)
  }

  /** One bar per finite entry, in input order: the component's `map`, where a
      non-finite value renders `null`. */
  function RenderBars(data: seq<BarEntry>, total: real): (r: seq<Bar>)
    requires total != 0.0
    ensures |r| == |FiniteEntries(data)|
    ensures forall i :: 0 <= i < |r| ==>
      r[i] == Bar(FiniteEntries(data)[i].name, Percent(FiniteEntries(data)[i].value.v, total))
  {
    BarsOf(FiniteEntries(data), total)
  }

  /** `GenreBarList({ data })`: a non-array (`None`) or empty list renders the
      placeholder; otherwise one bar per finite entry, against the finite sum
      or 1 when that sum is 0. */
  function GenreBarList(data: Option<seq<BarEntry>>): (view: BarView)
    ensures view.Placeholder? <==> data.None? || data.value == []
    ensures view.Bars? ==> view.bars == RenderBars(data.value, TotalOrOne(FiniteSum(data.value)))
  {
    if data.None? || data.value == [] then Placeholder
    else Bars(RenderBars(data.value, TotalOrOne(FiniteSum(data.value))))
  }


  lemma RenderedPercents(data: seq<BarEntry>, total: real)
    requires total != 0.0
    ensures Map(RenderBars(data, total), PercentOfBar) == Percents(Values(FiniteEntries(data)), total)
  {
  }

  /** With non-negative finite values and a positive sum, the rendered
      percentages add up to 100, and each lies in [0, 100]. */
  lemma GenreBarsSumTo100(data: seq<BarEntry>)
    requires data != []
    requires forall i :: 0 <= i < |data| && data[i].value.Finite? ==> data[i].value.v >= 0.0
    requires FiniteSum(data) > 0.0
    ensures var view := GenreBarList(Some(data));
      view.Bars? && Sum(Map(view.bars, PercentOfBar)) == 100.0
      && forall i :: 0 <= i < |view.bars| ==> 0.0 <= view.bars[i].percent <= 100.0
  {
    var values := Values(FiniteEntries(data));
    FiniteSumIsSumOfFinite(data);
    RenderedPercents(data, FiniteSum(data));
    PercentsOfOwnSum(values);
    forall i | 0 <= i < |values| ensures values[i] >= 0.0 {
      assert FiniteEntries(data)[i] in FiniteEntries(data);
    }
    PercentsInRange(values);
  }

  /** When every finite value is zero, the total is 1 (no division by zero)
      and every bar is at 0 percent. */
  lemma GenreBarsAllZero(data: seq<BarEntry>)
    requires data != []
    requires forall i :: 0 <= i < |data| && data[i].value.Finite? ==> data[i].value.v == 0.0
    ensures var view := GenreBarList(Some(data));
      view.Bars? && forall i :: 0 <= i < |view.bars| ==> view.bars[i].percent == 0.0
  {
    var values := Values(FiniteEntries(data));
    forall i | 0 <= i < |values| ensures values[i] == 0.0 {
      assert FiniteEntries(data)[i] in FiniteEntries(data);
    }
    AllZeroGivesZeroPercents(values);
    FiniteSumIsSumOfFinite(data);
    RenderedPercents(data, 1.0);
  }

  /** A non-finite entry changes nothing: inserting one anywhere in a
      non-empty list leaves the rendered bars as they were. */
  lemma {:induction false} NonFiniteSkipped(a: seq<BarEntry>, b: seq<BarEntry>, name: string)
    requires a + b != []
    ensures GenreBarList(Some(a + [BarEntry(name, NonFinite)] + b)) == GenreBarList(Some(a + b))
  {
    FiniteSumInsert(a, b, BarEntry(name, NonFinite));
    FiniteEntriesInsert(a, b, BarEntry(name, NonFinite));
  }

  lemma {:induction false} FiniteSumInsert(a: seq<BarEntry>, b: seq<BarEntry>, e: BarEntry)
    requires e.value.NonFinite?
    ensures FiniteSum(a + [e] + b) == FiniteSum(a + b)
  {
    if a == [] {
      assert a + [e] + b == [e] + b;
      assert ([e] + b)[1..] == b;
      assert FiniteSum([e] + b) == 0.0 + FiniteSum(b);
      assert a + b == b;
    } else {
      FiniteSumInsert(a[1..], b, e);
      assert (a + [e] + b)[1..] == a[1..] + [e] + b;
      assert (a + b)[1..] == a[1..] + b;
    }
  }

  lemma FiniteEntriesInsert(a: seq<BarEntry>, b: seq<BarEntry>, e: BarEntry)
    requires e.value.NonFinite?
    ensures FiniteEntries(a + [e] + b) == FiniteEntries(a + b)
  {
    assert a + [e] + b == a + ([e] + b);
    FiniteEntriesAppend(a, [e] + b);
    FiniteEntriesCons(e, b);
    FiniteEntriesAppend(a, b);
  }

  /** `FiniteEntries` distributes over concatenation. */
  lemma {:induction false} FiniteEntriesAppend(a: seq<BarEntry>, b: seq<BarEntry>)
    ensures FiniteEntries(a + b) == FiniteEntries(a) + FiniteEntries(b)
  {
    if a == [] {
      assert a + b == b;
    } else {
      var x, tail := a[0], a[1..];
      var pre := if x.value.Finite? then [x] else [];
      calc {
        FiniteEntries(a + b);
        { assert a + b == [x] + (tail + b); }
        FiniteEntries([x] + (tail + b));
        { FiniteEntriesCons(x, tail + b); }
        pre + FiniteEntries(tail + b);
        { FiniteEntriesAppend(tail, b); }
        pre + (FiniteEntries(tail) + FiniteEntries(b));
        (pre + FiniteEntries(tail)) + FiniteEntries(b);
        { FiniteEntriesCons(x, tail); assert a == [x] + tail; }
        FiniteEntries(a) + FiniteEntries(b);
      }
    }
  }

  /** One step of `FiniteEntries`. */
  lemma FiniteEntriesCons(x: BarEntry, s: seq<BarEntry>)
    ensures FiniteEntries([x] + s) == (if x.value.Finite? then [x] else []) + FiniteEntries(s)
  {
    assert ([x] + s)[1..] == s;
  }

  // ---------------------------------------------------------------------------
  // SubGenreBarList (ui variant)
  // ---------------------------------------------------------------------------

  datatype SubEntry = SubEntry(name: string, value: real)

  datatype SubBar = SubBar(name: string, parent: string, percent: real, color: string)

  const DefaultSubColor: string := "#d4af37"

  function ValueOfSub(e: SubEntry): real { e.value }

  function PercentOfSubBar(b: SubBar): real { b.percent }


  /** `genreMap?.[lower] || "other"`. */
  function SubParent(genreMap: Option<map<string, string>>, name: string): (r: string)
    ensures r != ""
    ensures genreMap.Some? && ToLower(name) in genreMap.value && genreMap.value[ToLower(name)] != ""
      ==> r == genreMap.value[ToLower(name)]
    ensures !(genreMap.Some? && ToLower(name) in genreMap.value && genreMap.value[ToLower(name)] != "")
      ==> r == "other"
  {
    var lower := ToLower(name);
    if genreMap.Some? && lower in genreMap.value && genreMap.value[lower] != "" then genreMap.value[lower]
    else "other"
  }

  /** `getColorForGenre?.(parent) || "#d4af37"`; the callback's result is a
      string, `""` being falsy. */
  function SubColor(getColor: Option<string -> string>, parent: string): (r: string)
    ensures r != ""
    ensures getColor.None? ==> r == DefaultSubColor
    ensures getColor.Some? && getColor.value(parent) != "" ==> r == getColor.value(parent)
  {
    if getColor.Some? && getColor.value(parent) != "" then getColor.value(parent) else DefaultSubColor
  }

  function SubBars(data: seq<SubEntry>, genreMap: Option<map<string, string>>,
                   getColor: Option<string -> string>, total: real): (r: seq<SubBar>)
    requires total != 0.0
    ensures |r| == |data|
    ensures forall i :: 0 <= i < |data| ==>
      r[i].name == data[i].name && r[i].percent == Percent(data[i].value, total)
      && r[i].parent == SubParent(genreMap, data[i].name)
      && r[i].color == SubColor(getColor, r[i].parent)
  {
    if data == [] then []
    else
      var parent := SubParent(genreMap, data[0].name);
      [SubBar(data[0].name, parent, Percent(data[0].value, total), SubColor(getColor, parent))]
      + SubBars(data[1..], genreMap, getColor, total)
  }

  /** `SubGenreBarList({ data, getColorForGenre, genreMap })`: one bar per
      entry, none skipped, against the plain sum (no finiteness check) or 1. */
  function SubGenreBarList(data: seq<SubEntry>, getColor: Option<string -> string>,
                           genreMap: Option<map<string, string>>): (r: seq<SubBar>)
    ensures |r| == |data|
    ensures forall i :: 0 <= i < |data| ==>
      r[i].name == data[i].name
      && r[i].percent == Percent(data[i].value, TotalOrOne(Sum(Map(data, ValueOfSub))))
      && r[i].parent == SubParent(genreMap, data[i].name)
      && r[i].color == SubColor(getColor, r[i].parent)
  {
    SubBars(data, genreMap, getColor, TotalOrOne(Sum(Map(data, ValueOfSub))))
  }


  /** With a non-zero sum the sub-genre percentages add up to 100. */
  lemma SubBarsSumTo100(data: seq<SubEntry>, getColor: Option<string -> string>,
                        genreMap: Option<map<string, string>>)
    requires Sum(Map(data, ValueOfSub)) != 0.0
    ensures Sum(Map(SubGenreBarList(data, getColor, genreMap), PercentOfSubBar)) == 100.0
  {
    var values := Map(data, ValueOfSub);
    assert Map(SubGenreBarList(data, getColor, genreMap), PercentOfSubBar) == Percents(values, Sum(values));
    PercentsOfOwnSum(values);
  }

  /** Without a genre map every bar's parent is `other`, so every bar gets the
      colour the callback gives `other`, whatever the sub-genre. */
  lemma SubBarsWithoutMapShareColor(data: seq<SubEntry>, getColor: Option<string -> string>)
    ensures var bars := SubGenreBarList(data, getColor, None);
      forall i :: 0 <= i < |bars| ==> bars[i].parent == "other" && bars[i].color == SubColor(getColor, "other")
  {
  }

  // ---------------------------------------------------------------------------
  // SubGenreBarList (music variant)
  // ---------------------------------------------------------------------------

  datatype GradientEntry = GradientEntry(name: string, value: real, gradient: Option<string>)

  datatype GradientBar = GradientBar(name: string, percent: real, gradient: string)

  const DefaultGradient: string := "linear-gradient(to right, #666, #999)"

  function ValueOfGradient(e: GradientEntry): real { e.value }

  function PercentOfGradientBar(b: GradientBar): real { b.percent }


  function GradientBars(data: seq<GradientEntry>, total: real): (r: seq<GradientBar>)
    requires total != 0.0
    ensures |r| == |data|
    ensures forall i :: 0 <= i < |data| ==>
      r[i].name == data[i].name && r[i].percent == Percent(data[i].value, total)
      && r[i].gradient == OrDefault(data[i].gradient, DefaultGradient)
  {
    if data == [] then []
    else
      var bar := GradientBar(data[0].name, Percent(data[0].value, total), OrDefault(data[0].gradient, DefaultGradient));
      [bar] + GradientBars(data[1..], total)
  }

  /** The music variant: one bar per entry, with the entry's name, its share
      of the plain sum (or of 1), and its own gradient or the grey default. */
  function MusicSubGenreBarList(data: seq<GradientEntry>): (r: seq<GradientBar>)
    ensures |r| == |data|
    ensures forall i :: 0 <= i < |r| ==>
      r[i].name == data[i].name && r[i].percent == Percent(data[i].value, TotalOrOne(Sum(Map(data, ValueOfGradient))))
    ensures forall i :: 0 <= i < |r| ==> r[i].gradient != ""
    ensures forall i :: 0 <= i < |r| ==> Truthy(data[i].gradient) ==> r[i].gradient == data[i].gradient.value
    ensures forall i :: 0 <= i < |r| ==> !Truthy(data[i].gradient) ==> r[i].gradient == DefaultGradient
  {
    GradientBars(data, TotalOrOne(Sum(Map(data, ValueOfGradient))))
  }


  /** With a non-zero sum the music variant's percentages add up to 100. */
  lemma MusicSubBarsSumTo100(data: seq<GradientEntry>)
    requires Sum(Map(data, ValueOfGradient)) != 0.0
    ensures Sum(Map(MusicSubGenreBarList(data), PercentOfGradientBar)) == 100.0
  {
    var values := Map(data, ValueOfGradient);
    assert Map(MusicSubGenreBarList(data), PercentOfGradientBar) == Percents(values, Sum(values));
    PercentsOfOwnSum(values);
  }
}

=== FILE: cookie.dfy ===
/** `src/utils/cookie.js`: the `sinatra_user_id` row of the cookie string
    (rows separated by "; ", as in the cookie header of section 5.4 of
    RFC 6265) and the value read from it.
 */
module Cookie {
  import opened Wrappers
  import opened Strings

  const UserCookiePrefix: string := "sinatra_user_id="

  /** `rows.find(row => row.startsWith(prefix))`: the first matching row. */
  function FindRow(rows: seq<string>, prefix: string): (r: Option<string>)
    ensures r.None? <==> forall i :: 0 <= i < |rows| ==> !StartsWith(rows[i], prefix)
    ensures r.Some? ==> exists i :: (0 <= i < |rows| && rows[i] == r.value && StartsWith(rows[i], prefix)
      && forall j :: 0 <= j < i ==> !StartsWith(rows[j], prefix))
  {
    if rows == [] then None
    else if StartsWith(rows[0], prefix) then Some(rows[0])
    else
      var r := FindRow(rows[1..], prefix);
      assert forall i :: 1 <= i < |rows| ==> rows[i] == rows[1..][i - 1];
      if r.Some? then
        var i :| 0 <= i < |rows[1..]| && rows[1..][i] == r.value && StartsWith(rows[1..][i], prefix)
          && forall j :: 0 <= j < i ==> !StartsWith(rows[1..][j], prefix);
        assert rows[i + 1] == r.value;
        r
      else r
  }

  /** `cookie`: the row of `document.cookie` holding the user id, if any. */
  function UserCookieRow(documentCookie: string): (r: Option<string>)
    ensures r.Some? ==> StartsWith(r.value, UserCookiePrefix)
  {
    FindRow(Split(documentCookie, "; "), UserCookiePrefix)
  }

  /** `getUserCookie()`: `cookie.split("=").pop()`, the text after the row's
      last "=". Without a row, `cookie` is `undefined` and the call throws;
      that is `None`. */
  function GetUserCookie(row: Option<string>): (r: Option<string>)
    ensures row.None? <==> r.None?
    ensures r.Some? ==> |r.value| <= |row.value| && row.value[|row.value| - |r.value|..] == r.value
    ensures r.Some? ==> '=' !in r.value
  {
    if row.None? then None
    else
      var parts := Split(row.value, "=");
      var last := parts[|parts| - 1];
      SplitLastIsSuffix(row.value, "=");
      SplitPiecesAvoidSeparator(row.value, "=");
      assert '=' !in last by {
        forall j | 0 <= j < |last| ensures last[j] != '=' {
          assert !OccursAt(last, "=", j);
          assert last[j..j + 1] == [last[j]];
        }
      }
      Some(last)
  }

  /** When the row has an "=", the value read is preceded by one: it is the
      text after the last "=". */
  lemma ValueFollowsLastEquals(row: string)
    requires '=' in row
    ensures var v := GetUserCookie(Some(row)).value;
      |v| < |row| && row[|row| - |v| - 1] == '='
  {
    CharFoundSplits(row, '=');
    SplitLastAfterSeparator(row, "=");
    var parts := Split(row, "=");
    var v := parts[|parts| - 1];
    assert GetUserCookie(Some(row)).value == v;
    assert row[|row| - |v| - 1..|row| - |v|] == "=";
    assert row[|row| - |v| - 1] == row[|row| - |v| - 1..|row| - |v|][0];
  }

  /** A value without "=" is read back exactly; the bare row
      "sinatra_user_id=" reads as the empty string. */
  lemma ValueRoundTrip(v: string)
    requires '=' !in v
    ensures GetUserCookie(Some(UserCookiePrefix + v)) == Some(v)
  {
    var row := UserCookiePrefix + v;
    var n := |UserCookiePrefix| - 1;
    assert OccursAt(row, "=", n) by {
      assert row[n..n + 1] == "=";
    }
    forall j | 0 <= j < n ensures !OccursAt(row, "=", j) {
      assert row[j] == UserCookiePrefix[j];
      assert row[j..j + 1] == [row[j]];
    }
    assert IndexOf(row, "=") == Some(n);
    assert row[n + 1..] == v;
    NoCharNoIndex(v, '=');
    assert Split(v, "=") == [v];
    SplitUnfold(row, "=", n);
  }

  lemma BareRowIsEmpty()
    ensures GetUserCookie(Some(UserCookiePrefix)) == Some("")
  {
    ValueRoundTrip("");
    assert UserCookiePrefix + "" == UserCookiePrefix;
  }

  /** A value holding "=" yields only its final segment. */
  lemma ValueWithEqualsTruncated(a: string, b: string)
    requires '=' !in b
    ensures GetUserCookie(Some(UserCookiePrefix + a + "=" + b)) == Some(b)
  {
    var row := UserCookiePrefix + a + "=" + b;
    ValueFollowsLastEquals(row);
    var v := GetUserCookie(Some(row)).value;
    assert row[|row| - |b| - 1] == '=';
    assert row[|row| - |b|..] == b;
  }

  /** A cookie holding only the user row yields that row and its value. */
  lemma SoleRowFound(v: string)
    requires ';' !in v && '=' !in v
    ensures UserCookieRow(UserCookiePrefix + v) == Some(UserCookiePrefix + v)
    ensures GetUserCookie(UserCookieRow(UserCookiePrefix + v)) == Some(v)
  {
    var c := UserCookiePrefix + v;
    assert ';' !in c by {
      forall j | 0 <= j < |c| ensures c[j] != ';' {
        if j >= |UserCookiePrefix| {
          assert c[j] == v[j - |UserCookiePrefix|];
        }
      }
    }
    NoSemicolonNoRow(c);
    assert StartsWith(c, UserCookiePrefix) by {
      assert c[..|UserCookiePrefix|] == UserCookiePrefix;
    }
    ValueRoundTrip(v);
  }

  /** Text without ';' holds no "; " and is a single row. */
  lemma NoSemicolonNoRow(s: string)
    requires ';' !in s
    ensures Split(s, "; ") == [s]
  {
    forall j ensures !OccursAt(s, "; ", j) {
      if 0 <= j && j + 2 <= |s| {
        assert s[j..j + 2][0] == s[j];
      }
    }
  }
}

=== FILE: featured.dfy ===
/** `src/components/settings/EditFeatured.jsx`: the settings modal that picks
    exactly three featured playlists.
 */
module EditFeatured {
  import opened Wrappers
  import opened Seqs
  import opened Selection

  const FeaturedCount: nat := 3

  /** `featured.map(p => p.id || p.playlist_id)`: the selection loaded from the
      dashboard. */
  function InitialSelection(featured: seq<Item>): (r: seq<Key>)
    ensures |r| == |featured|
    ensures forall i :: 0 <= i < |r| ==> r[i] == OrElse(featured[i].id, featured[i].playlist_id)
  {
    if featured == [] then []
    else [OrElse(featured[0].id, featured[0].playlist_id)] + InitialSelection(featured[1..])
  }

  /** `handleToggle(id)`: the capped toggle with a cap of three. */
  function HandleToggle(sel: seq<Key>, id: Key): (r: seq<Key>)
    ensures id in sel ==> id !in r
    ensures id in sel ==> IsSubsequence(r, sel) && forall y :: y in sel && y != id ==> y in r
    ensures id !in sel && |sel| < FeaturedCount ==> r == sel + [id]
    ensures id !in sel && |sel| >= FeaturedCount ==> r == sel
    ensures NoDup(sel) && |sel| <= FeaturedCount ==> NoDup(r) && |r| <= FeaturedCount
  {
    ToggleCappedInvariant(sel, id, FeaturedCount);
    ToggleCapped(sel, id, FeaturedCount)
  }

  /** The Save button is enabled iff exactly three are selected. */
  predicate CanSave(sel: seq<Key>) {
    |sel| == FeaturedCount
  }

  /** From an empty selection three distinct clicks enable Save, and a fourth
      distinct playlist is then refused; clicking a selected one frees a slot. */
  lemma ThreeClicksEnableSave(a: Key, b: Key, c: Key, d: Key)
    requires a != b && b != c && a != c && d != a && d != b && d != c
    ensures var s := HandleToggle(HandleToggle(HandleToggle([], a), b), c);
      CanSave(s) && HandleToggle(s, d) == s && !CanSave(HandleToggle(s, b))
  {
    var s := HandleToggle(HandleToggle(HandleToggle([], a), b), c);
    assert s == [a, b, c];
    assert |HandleToggle(s, b)| <= 2 by {
      RemoveAllLength(s, b);
    }
  }

  /** The modal's state: the listed playlists, the selected ids, the search
      text, and whether the loader is shown. */
  datatype ModalState = ModalState(all: seq<Item>, selected: seq<Key>, search: string, loading: bool)

  /** The `/dashboard` fields read: `playlists.all` and `playlists.featured`. */
  datatype Dashboard = Dashboard(all: seq<Item>, featured: seq<Item>)

  /** The load effect. Nothing happens while the modal is closed. The
      `/all-playlists` answer is listed first; the `/dashboard` request is
      chained inside it, and its answer then replaces the list and sets the
      selection. The loader stops once the first request settles. */
  function Load(st: ModalState, isOpen: bool, allResp: FetchOutcome<seq<Item>>, dashResp: FetchOutcome<Dashboard>): (r: ModalState)
    ensures !isOpen ==> r == st
    ensures isOpen ==> !r.loading && r.search == st.search
    ensures isOpen && allResp.FetchFailed? ==> r.all == st.all && r.selected == st.selected
    ensures isOpen && allResp.Fetched? && dashResp.FetchFailed? ==> r.all == allResp.data && r.selected == st.selected
    ensures isOpen && allResp.Fetched? && dashResp.Fetched? ==>
      r.all == dashResp.data.all && r.selected == InitialSelection(dashResp.data.featured)
  {
    if !isOpen then st
    else if allResp.FetchFailed? then st.(loading := false)
    else if dashResp.FetchFailed? then st.(all := allResp.data, loading := false)
    else st.(all := dashResp.data.all, selected := InitialSelection(dashResp.data.featured), loading := false)
  }

  /** A dashboard with three featured playlists loads a selection that can be
      saved at once. */
  lemma ThreeFeaturedLoadSavable(st: ModalState, all: seq<Item>, d: Dashboard)
    requires |d.featured| == FeaturedCount
    ensures CanSave(Load(st, true, Fetched(all), Fetched(d)).selected)
  {
  }

  /** The grid: the listed playlists whose name contains the search text,
      ignoring case, in list order. */
  function Shown(st: ModalState): (r: seq<Item>)
    ensures IsSubsequence(r, st.all)
    ensures forall p :: p in r <==> p in st.all && Matches(p.name, st.search)
  {
    Search(st.all, st.search)
  }

  /** The `/update-featured` body: the user id and the selected ids. */
  datatype SaveBody = SaveBody(user_id: Option<string>, playlist_ids: seq<Key>)

  /** Save is disabled unless exactly three are selected; otherwise it posts
      the selection as it stands. */
  function Save(st: ModalState, userId: Option<string>): (r: Option<SaveBody>)
    ensures r.Some? <==> CanSave(st.selected)
    ensures r.Some? ==> r.value.user_id == userId && r.value.playlist_ids == st.selected
  {
    if CanSave(st.selected) then Some(SaveBody(userId, st.selected)) else None
  }
}

/** `src/components/steps/FeaturedPicker.jsx`: the onboarding step that picks
    three featured playlists among the imported ones.
 */
module FeaturedPicker {
  import opened Wrappers
  import opened Seqs
  import opened Selection

  datatype PickerState = PickerState(selected: seq<Key>, search: string, sortDesc: bool)

  function PlaylistIds(items: seq<Item>): (r: seq<Key>)
    ensures |r| == |items|
    ensures forall i :: 0 <= i < |r| ==> r[i] == items[i].playlist_id
  {
    if items == [] then [] else [items[0].playlist_id] + PlaylistIds(items[1..])
  }

  /** The step's initial state: the featured playlists' `playlist_id`s, no
      search text, descending order. */
  function Init(onboard: OnboardData): (st: PickerState)
    ensures |st.selected| == |onboard.featured_playlists|
    ensures forall i :: 0 <= i < |st.selected| ==> st.selected[i] == onboard.featured_playlists[i].playlist_id
    ensures st.search == "" && st.sortDesc
  {
    PickerState(PlaylistIds(onboard.featured_playlists), "", true)
  }

  /** `onboardData.selected_playlists || []`. */
  function Imported(onboard: OnboardData): seq<Item> {
    onboard.selected_playlists.GetOr([])
  }

  /** The selection effect: `featured_playlists` becomes the imported playlists
      whose `id` is selected, in imported order; nothing else changes; the
      wizard may proceed iff exactly three ids are selected. */
  function ApplySelection(onboard: OnboardData, selected: seq<Key>): (r: (OnboardData, bool))
    ensures r.0.selected_playlists == onboard.selected_playlists
    ensures r.0.display_name == onboard.display_name
    ensures IsSubsequence(r.0.featured_playlists, Imported(onboard))
    ensures forall p :: p in r.0.featured_playlists <==> p in Imported(onboard) && p.id in selected
    ensures r.1 <==> |selected| == 3
  {
    (onboard.(featured_playlists := SelectedById(Imported(onboard), selected)), |selected| == 3)
  }

  /** `toggleSelect(id)`: the capped toggle with a cap of three. */
  function ToggleSelect(st: PickerState, id: Key): (r: PickerState)
    ensures r.search == st.search && r.sortDesc == st.sortDesc
    ensures id in st.selected ==> id !in r.selected
    ensures id in st.selected ==>
      IsSubsequence(r.selected, st.selected) && forall y :: y in st.selected && y != id ==> y in r.selected
    ensures id !in st.selected && |st.selected| < 3 ==> r.selected == st.selected + [id]
    ensures id !in st.selected && |st.selected| >= 3 ==> r.selected == st.selected
    ensures NoDup(st.selected) && |st.selected| <= 3 ==> NoDup(r.selected) && |r.selected| <= 3
  {
    ToggleCappedInvariant(st.selected, id, 3);
    st.(selected := ToggleCapped(st.selected, id, 3))
  }

  /** `toggleSort()`: only the direction flag changes. */
  function ToggleSort(st: PickerState): (r: PickerState)
    ensures r.selected == st.selected && r.search == st.search
    ensures r.sortDesc != st.sortDesc
  {
    st.(sortDesc := !st.sortDesc)
  }

  lemma ToggleSortTwice(st: PickerState)
    ensures ToggleSort(ToggleSort(st)) == st
  {
  }

  /** The grid: the imported playlists matching the search text, sorted by
      track count, descending iff `sortDesc`. */
  function Shown(onboard: OnboardData, st: PickerState): (r: seq<Item>)
    ensures multiset(r) == multiset(Search(Imported(onboard), st.search))
    ensures forall p :: p in r <==> p in Imported(onboard) && Matches(p.name, st.search)
    ensures st.sortDesc ==> SortedDescBy(r, TracksKey)
    ensures !st.sortDesc ==> SortedBy(r, TracksKey)
  {
    var found := Search(Imported(onboard), st.search);
    var r := if st.sortDesc then ByTracksDesc(found) else ByTracksAsc(found);
    assert forall p :: p in r <==> p in multiset(found);
    r
  }
}

=== FILE: genre_map.dfy ===
/** The genre map as the home and public pages hold it: the `/genre-map`
    response's entries with keys and values lower-cased, gathered with
    `Object.fromEntries`. `Object.entries` order is the order of the input
    sequence.
 */
module GenreMaps {
  import opened Strings

  /** `Object.fromEntries(entries)`: a later entry with the same key
      overwrites an earlier one. */
  function FromEntries<V>(es: seq<(string, V)>): (m: map<string, V>)
    ensures forall k :: k in m <==> exists i :: 0 <= i < |es| && es[i].0 == k
    decreases |es|
  {
    if es == [] then map[]
    else
      var init := FromEntries(es[..|es| - 1]);
      var last := es[|es| - 1];
      assert forall i :: 0 <= i < |es| - 1 ==> es[..|es| - 1][i] == es[i];
      init[last.0 := last.1]
  }

  /** The value kept for a key is the one of the last entry carrying it. */
  lemma {:induction false} LastEntryWins<V>(es: seq<(string, V)>, i: nat)
    requires i < |es|
    requires forall j :: i < j < |es| ==> es[j].0 != es[i].0
    ensures es[i].0 in FromEntries(es) && FromEntries(es)[es[i].0] == es[i].1
    decreases |es|
  {
    if i < |es| - 1 {
      var init := es[..|es| - 1];
      assert forall j :: i < j < |init| ==> init[j] == es[j];
      LastEntryWins(init, i);
    }
  }

  /** `[k.toLowerCase(), v.toLowerCase()]` for every entry. */
  function LowerEntries(es: seq<(string, string)>): (r: seq<(string, string)>)
    ensures |r| == |es|
    ensures forall i :: 0 <= i < |es| ==> r[i] == (ToLower(es[i].0), ToLower(es[i].1))
  {
    seq(|es|, i requires 0 <= i < |es| => (ToLower(es[i].0), ToLower(es[i].1)))
  }

  /** The normalised genre map of a `/genre-map` response. */
  function NormalizeGenreMap(es: seq<(string, string)>): (m: map<string, string>)
    ensures forall k :: k in m <==> exists i :: 0 <= i < |es| && ToLower(es[i].0) == k
  {
    var lowered := LowerEntries(es);
    FromEntries(lowered)
  }

  /** Both the keys and the values of the normalised map are lower case. */
  lemma {:induction false} NormalizedIsLower(es: seq<(string, string)>)
    ensures forall k :: k in NormalizeGenreMap(es) ==> IsLower(k) && IsLower(NormalizeGenreMap(es)[k])
  {
    var lowered := LowerEntries(es);
    forall i | 0 <= i < |lowered| ensures IsLower(lowered[i].0) && IsLower(lowered[i].1) {
      ToLowerIsLower(es[i].0);
      ToLowerIsLower(es[i].1);
    }
    ValuesFromEntries(lowered);
  }

  /** Every value of `FromEntries` is the value of some entry with its key. */
  lemma {:induction false} ValuesFromEntries(es: seq<(string, string)>)
    ensures forall k :: k in FromEntries(es) ==> exists i :: 0 <= i < |es| && es[i] == (k, FromEntries(es)[k])
    decreases |es|
  {
    if es != [] {
      var init := es[..|es| - 1];
      ValuesFromEntries(init);
      forall k | k in FromEntries(es) ensures exists i :: 0 <= i < |es| && es[i] == (k, FromEntries(es)[k]) {
        if k == es[|es| - 1].0 {
          assert es[|es| - 1] == (k, FromEntries(es)[k]);
        } else {
          var i :| 0 <= i < |init| && init[i] == (k, FromEntries(init)[k]);
          assert es[i] == init[i];
        }
      }
    }
  }

  /** Two spellings of a genre that differ only in letter case land on one key,
      and the later entry's parent wins. */
  lemma CaseVariantsMerge(a: string, b: string, pa: string, pb: string)
    requires ToLower(a) == ToLower(b)
    ensures NormalizeGenreMap([(a, pa), (b, pb)]) == map[ToLower(a) := ToLower(pb)]
  {
    LowerPair(a, pa, b, pb);
    SameKeyTwice(ToLower(a), ToLower(pa), ToLower(b), ToLower(pb));
  }

  lemma LowerPair(a: string, pa: string, b: string, pb: string)
    ensures LowerEntries([(a, pa), (b, pb)]) == [(ToLower(a), ToLower(pa)), (ToLower(b), ToLower(pb))]
  {
  }

  lemma SameKeyTwice<V>(k1: string, v1: V, k2: string, v2: V)
    requires k1 == k2
    ensures FromEntries([(k1, v1), (k2, v2)]) == map[k1 := v2]
  {
    assert [(k1, v1), (k2, v2)][..1] == [(k1, v1)];
    assert [(k1, v1)][..0] == [];
  }
}

=== FILE: genre_ranking.dfy ===
/** Genre aggregation of `src/components/ui/MusicTaste.jsx` and
    `src/components/steps/GenreIntro.jsx`: weight maps, taken as their
    `Object.entries` sequence, turned into ranked top-N lists.
 */
module GenreRanking {
  import opened Wrappers
  import opened Strings
  import opened Seqs
  import MetaGenres
  import ParentGenre

  /** One `[name, weight]` entry of a genre-weight map. */
  datatype Entry = Entry(name: string, value: real)

  function ValueOf(e: Entry): real {
    e.value
  }

  function Names(s: seq<Entry>): (r: seq<string>)
    ensures |r| == |s|
    ensures forall i :: 0 <= i < |s| ==> r[i] == s[i].name
  {
    if s == [] then [] else [s[0].name] + Names(s[1..])
  }

  // ---------------------------------------------------------------------------
  // Rounding to one decimal
  // ---------------------------------------------------------------------------

  /** `Math.round(w * 10) / 10`: `Math.round` rounds halves up, i.e. it is
      `floor(x + 1/2)`. */
  function Round1(w: real): real {
    ((10.0 * w + 0.5).Floor as real) / 10.0
  }

  /** Rounding never moves a weight by more than half a tenth. */
  lemma Round1Close(w: real)
    ensures w - 0.05 < Round1(w) <= w + 0.05
  {
  }

  /** Rounding preserves the order of weights (ties may appear, never swaps). */
  lemma Round1Monotone(a: real, b: real)
    requires a <= b
    ensures Round1(a) <= Round1(b)
  {
    FloorMonotone(10.0 * a + 0.5, 10.0 * b + 0.5);
  }

  lemma FloorMonotone(x: real, y: real)
    requires x <= y
    ensures x.Floor <= y.Floor
  {
  }

  /** A weight already rounded to a tenth is unchanged by rounding again. */
  lemma Round1Idempotent(w: real)
    ensures Round1(Round1(w)) == Round1(w)
  {
    var k := (10.0 * w + 0.5).Floor;
    assert Round1(w) == k as real / 10.0;
    assert 10.0 * (k as real / 10.0) + 0.5 == k as real + 0.5;
    FloorOfHalf(k);
  }

  lemma FloorOfHalf(k: int)
    ensures (k as real + 0.5).Floor == k
  {
  }

  function RoundEntry(e: Entry): Entry {
    Entry(e.name, Round1(e.value))
  }

  function RoundAll(s: seq<Entry>): (r: seq<Entry>)
    ensures |r| == |s|
    ensures forall i :: 0 <= i < |s| ==> r[i] == RoundEntry(s[i])
  {
    if s == [] then [] else [RoundEntry(s[0])] + RoundAll(s[1..])
  }

  /** Rounding every weight keeps multiplicities: a sub-multiset of the
      entries rounds to a sub-multiset of the rounded entries. */
  lemma RoundAllMono(a: seq<Entry>, b: seq<Entry>)
    requires multiset(a) <= multiset(b)
    ensures multiset(RoundAll(a)) <= multiset(RoundAll(b))
  {
    assert RoundAll(a) == Map(a, RoundEntry);
    assert RoundAll(b) == Map(b, RoundEntry);
    MapMultisetMono(a, b, RoundEntry);
  }

  function NameOf(e: Entry): string {
    e.name
  }

  /** Taking names keeps multiplicities in the same way. */
  lemma NamesMono(a: seq<Entry>, b: seq<Entry>)
    requires multiset(a) <= multiset(b)
    ensures multiset(Names(a)) <= multiset(Names(b))
  {
    assert Names(a) == Map(a, NameOf);
    assert Names(b) == Map(b, NameOf);
    MapMultisetMono(a, b, NameOf);
  }

  lemma RoundAllSorted(s: seq<Entry>)
    requires SortedDescBy(s, ValueOf)
    ensures SortedDescBy(RoundAll(s), ValueOf)
  {
    var r := RoundAll(s);
    forall i, j | 0 <= i < j < |r| ensures ValueOf(r[i]) >= ValueOf(r[j]) {
      Round1Monotone(s[j].value, s[i].value);
    }
  }

  // ---------------------------------------------------------------------------
  // MusicTaste: the meta view
  // ---------------------------------------------------------------------------

  /** The meta-genre ranking: the five heaviest entries, heaviest first, each
      weight rounded to a tenth and each name unchanged. */
  function RankMeta(h: seq<Entry>): (r: seq<Entry>)
    ensures |r| == Min(5, |h|)
    ensures SortedDescBy(r, ValueOf)
    ensures forall i :: 0 <= i < |r| ==> exists k :: 0 <= k < |h| && r[i] == RoundEntry(h[k])
    ensures forall k :: 0 <= k < |h| ==>
      RoundEntry(h[k]) in r || forall j :: 0 <= j < |r| ==> Round1(h[k].value) <= r[j].value
    ensures multiset(r) <= multiset(RoundAll(h))
    ensures exists top :: IsTopBy(top, h, ValueOf, 5) && r == RoundAll(top)
  {
    var top := TopBy(h, ValueOf, 5);
    TopByIsTop(h, ValueOf, 5);
    RoundAllMono(top, h);
    RoundAllSorted(top);
    RoundedFromInput(h, top);
    RoundedIsTop(h, top);
    RoundAll(top)
  }

  /** The meta-genre effect: without `highest` the previous list stays. An
      empty `highest` object is truthy and does replace the list. */
  function TopMeta(prev: seq<Entry>, highest: Option<seq<Entry>>): (r: seq<Entry>)
    ensures highest.None? ==> r == prev
    ensures highest.Some? ==> r == RankMeta(highest.value)
    ensures highest == Some([]) ==> r == []
  {
    if highest.None? then prev else RankMeta(highest.value)
  }

  lemma RoundedFromInput(h: seq<Entry>, top: seq<Entry>)
    requires multiset(top) <= multiset(h)
    ensures forall i :: 0 <= i < |top| ==> exists k :: 0 <= k < |h| && RoundAll(top)[i] == RoundEntry(h[k])
  {
    forall i | 0 <= i < |top|
      ensures exists k :: 0 <= k < |h| && RoundAll(top)[i] == RoundEntry(h[k])
    {
      assert top[i] in multiset(top);
      var k :| 0 <= k < |h| && h[k] == top[i];
      assert RoundAll(top)[i] == RoundEntry(h[k]);
    }
  }

  lemma RoundedIsTop(h: seq<Entry>, top: seq<Entry>)
    requires forall i :: 0 <= i < |h| ==>
      h[i] in multiset(top) || forall j :: 0 <= j < |top| ==> ValueOf(h[i]) <= ValueOf(top[j])
    ensures forall k :: 0 <= k < |h| ==>
      RoundEntry(h[k]) in RoundAll(top)
      || forall j :: 0 <= j < |top| ==> Round1(h[k].value) <= RoundAll(top)[j].value
  {
    var r := RoundAll(top);
    forall k | 0 <= k < |h|
      ensures RoundEntry(h[k]) in r || forall j :: 0 <= j < |r| ==> Round1(h[k].value) <= r[j].value
    {
      if h[k] in multiset(top) {
        var m :| 0 <= m < |top| && top[m] == h[k];
        assert r[m] == RoundEntry(h[k]);
      } else {
        forall j | 0 <= j < |r| ensures Round1(h[k].value) <= r[j].value {
          assert ValueOf(h[k]) <= ValueOf(top[j]);
          Round1Monotone(h[k].value, top[j].value);
        }
      }
    }
  }

  // ---------------------------------------------------------------------------
  // MusicTaste: the sub-genre view
  // ---------------------------------------------------------------------------

  /** The sub-genre filter: the lower-cased name has a truthy parent in the
      genre map, the parent is not the name itself, and the name is not a
      meta-genre. */
  predicate KeepSub(genreMap: map<string, string>, name: string) {
    var lower := ToLower(name);
    lower in genreMap && genreMap[lower] != "" && genreMap[lower] != lower
    && !MetaGenres.IsMetaGenre(Some(lower))
  }

  function KeptSubs(genreMap: map<string, string>, subs: seq<Entry>): (r: seq<Entry>)
    ensures forall i :: 0 <= i < |r| ==> KeepSub(genreMap, r[i].name)
    ensures forall i :: 0 <= i < |subs| && KeepSub(genreMap, subs[i].name) ==> subs[i] in r
    ensures multiset(r) <= multiset(subs)
    ensures IsSubsequence(r, subs)
  {
    Filter(subs, (e: Entry) => KeepSub(genreMap, e.name))
  }

  /** The sub-genre ranking: the five heaviest kept entries, heaviest first,
      with names and weights as given. */
  function RankSub(genreMap: map<string, string>, subs: seq<Entry>): (r: seq<Entry>)
    ensures |r| == Min(5, |KeptSubs(genreMap, subs)|)
    ensures SortedDescBy(r, ValueOf)
    ensures forall i :: 0 <= i < |r| ==> r[i] in subs && KeepSub(genreMap, r[i].name)
    ensures forall k :: 0 <= k < |subs| && KeepSub(genreMap, subs[k].name) ==>
      subs[k] in r || forall j :: 0 <= j < |r| ==> subs[k].value <= r[j].value
    ensures multiset(r) <= multiset(KeptSubs(genreMap, subs))
  {
    var r := TopBy(KeptSubs(genreMap, subs), ValueOf, 5);
    TopOfKept(genreMap, subs, r);
    r
  }

  lemma TopOfKept(genreMap: map<string, string>, subs: seq<Entry>, r: seq<Entry>)
    requires r == TopBy(KeptSubs(genreMap, subs), ValueOf, 5)
    ensures forall i :: 0 <= i < |r| ==> r[i] in subs && KeepSub(genreMap, r[i].name)
    ensures forall k :: 0 <= k < |subs| && KeepSub(genreMap, subs[k].name) ==>
      subs[k] in r || forall j :: 0 <= j < |r| ==> subs[k].value <= r[j].value
  {
    var kept := KeptSubs(genreMap, subs);
    KeptAreFromInput(genreMap, subs, r);
    KeptTop(genreMap, subs, kept, r);
  }

  lemma KeptAreFromInput(genreMap: map<string, string>, subs: seq<Entry>, r: seq<Entry>)
    requires multiset(r) <= multiset(KeptSubs(genreMap, subs))
    ensures forall i :: 0 <= i < |r| ==> r[i] in subs && KeepSub(genreMap, r[i].name)
  {
    var kept := KeptSubs(genreMap, subs);
    forall i | 0 <= i < |r| ensures r[i] in subs && KeepSub(genreMap, r[i].name) {
      assert r[i] in multiset(r);
      assert r[i] in multiset(kept);
      var m :| 0 <= m < |kept| && kept[m] == r[i];
    }
  }

  lemma KeptTop(genreMap: map<string, string>, subs: seq<Entry>, kept: seq<Entry>, r: seq<Entry>)
    requires forall i :: 0 <= i < |subs| && KeepSub(genreMap, subs[i].name) ==> subs[i] in kept
    requires forall i :: 0 <= i < |kept| ==>
      kept[i] in multiset(r) || forall j :: 0 <= j < |r| ==> ValueOf(kept[i]) <= ValueOf(r[j])
    ensures forall k :: 0 <= k < |subs| && KeepSub(genreMap, subs[k].name) ==>
      subs[k] in r || forall j :: 0 <= j < |r| ==> subs[k].value <= r[j].value
  {
    forall k | 0 <= k < |subs| && KeepSub(genreMap, subs[k].name)
      ensures subs[k] in r || forall j :: 0 <= j < |r| ==> subs[k].value <= r[j].value
    {
      var m :| 0 <= m < |kept| && kept[m] == subs[k];
      if kept[m] in multiset(r) {
        assert kept[m] in r;
      } else {
        forall j | 0 <= j < |r| ensures subs[k].value <= r[j].value {
          assert ValueOf(kept[m]) <= ValueOf(r[j]);
        }
      }
    }
  }

  /** The sub-genre effect: without `sub_genres`, or with an empty genre map,
      the previous list stays. */
  function TopSub(prev: seq<Entry>, subs: Option<seq<Entry>>, genreMap: map<string, string>): (r: seq<Entry>)
    ensures subs.None? || |genreMap| == 0 ==> r == prev
    ensures subs.Some? && |genreMap| > 0 ==> r == RankSub(genreMap, subs.value)
  {
    if subs.None? || |genreMap| == 0 then prev else RankSub(genreMap, subs.value)
  }

  /** A meta-genre never appears in the sub view, nor does a genre that is its
      own parent. */
  lemma SubViewExcludesMetaAndSelfParent(prev: seq<Entry>, subs: seq<Entry>, genreMap: map<string, string>)
    requires |genreMap| > 0
    ensures forall i :: 0 <= i < |TopSub(prev, Some(subs), genreMap)| ==>
      var lower := ToLower(TopSub(prev, Some(subs), genreMap)[i].name);
      !MetaGenres.IsMetaGenre(Some(lower)) && lower in genreMap && genreMap[lower] != lower
  {
  }

  // ---------------------------------------------------------------------------
  // MusicTaste: swipe step and bar colour
  // ---------------------------------------------------------------------------

  /** Swipe left: `Math.min(step + 1, 1)`. */
  function SwipeLeft(step: int): (r: int)
    ensures r <= 1
    ensures step <= 0 ==> r == step + 1
    ensures 0 <= step ==> r == 1
  {
    Min(step + 1, 1)
  }

  /** Swipe right: `Math.max(step - 1, 0)`. */
  function SwipeRight(step: int): (r: int)
    ensures r >= 0
    ensures step >= 1 ==> r == step - 1
    ensures step <= 1 ==> r == 0
  {
    if step - 1 >= 0 then step - 1 else 0
  }

  /** The gestures that move the view: the two swipes, and a click on the
      first or the second dot, which sets the step to 0 or 1. */
  datatype Gesture = SwipedLeft | SwipedRight | DotClicked(second: bool)

  function Apply(step: int, g: Gesture): int {
    match g
    case SwipedLeft => SwipeLeft(step)
    case SwipedRight => SwipeRight(step)
    case DotClicked(second) => if second then 1 else 0
  }

  /** The step after a sequence of gestures. */
  function Steps(start: int, gs: seq<Gesture>): int {
    if gs == [] then start
    else Apply(Steps(start, gs[..|gs| - 1]), gs[|gs| - 1])
  }

  /** The view step starts at 0 and every swipe or dot click keeps it in
      {0, 1}. */
  lemma {:induction false} StepStaysInRange(gs: seq<Gesture>)
    ensures var s := Steps(0, gs); s == 0 || s == 1
  {
    if gs != [] {
      StepStaysInRange(gs[..|gs| - 1]);
    }
  }

  /** What the card shows: a loading line when the current list is empty,
      the meta-genre bars at step 0, the sub-genre bars otherwise. */
  datatype TasteView = LoadingGenres | MetaChart(meta: seq<Entry>) | SubChart(subs: seq<Entry>)

  function CurrentView(step: int, meta: seq<Entry>, subs: seq<Entry>): (v: TasteView)
    ensures v.LoadingGenres? <==> (if step == 0 then meta else subs) == []
    ensures v.MetaChart? ==> step == 0 && v.meta == meta
    ensures v.SubChart? ==> step != 0 && v.subs == subs
  {
    var current := if step == 0 then meta else subs;
    if current == [] then LoadingGenres
    else if step == 0 then MetaChart(meta)
    else SubChart(subs)
  }

  /** With both lists filled, whatever the gestures, the card shows one of the
      two charts, and a click on the second dot always shows the sub-genres. */
  lemma GesturesPickAChart(gs: seq<Gesture>, meta: seq<Entry>, subs: seq<Entry>)
    requires meta != [] && subs != []
    ensures var v := CurrentView(Steps(0, gs), meta, subs);
      v == MetaChart(meta) || v == SubChart(subs)
    ensures CurrentView(Steps(0, gs + [DotClicked(true)]), meta, subs) == SubChart(subs)
  {
    assert (gs + [DotClicked(true)])[..|gs|] == gs;
  }

  /** `getColorForGenre(subGenre)`: the colour of the sub-genre's parent, where
      an absent sub-genre looks up the key `"undefined"` (the string a missing
      property key becomes). */
  function GetColorForGenre(genreMap: map<string, string>, subGenre: Option<string>): (r: string)
    ensures r in MetaGenres.Colors.Values
    ensures subGenre.Some? ==>
      r == MetaGenres.GetMetaGenreColor(Some(ParentGenre.GetParentGenre(genreMap, subGenre.value)))
  {
    var key := if subGenre.Some? then ToLower(subGenre.value) else "undefined";
    var parent := if key in genreMap && genreMap[key] != "" then genreMap[key] else "other";
    MetaGenres.GetMetaGenreColor(Some(parent))
  }

  /** A sub-genre without a parent, and a missing sub-genre when the map has no
      `"undefined"` key, get the `other` colour. */
  lemma ColorWithoutParent(genreMap: map<string, string>, subGenre: Option<string>)
    requires subGenre.Some? ==> ToLower(subGenre.value) !in genreMap
    requires subGenre.None? ==> "undefined" !in genreMap
    ensures GetColorForGenre(genreMap, subGenre) == MetaGenres.OtherColor
  {
    assert ToLower("other") == "other";
  }

  // ---------------------------------------------------------------------------
  // GenreIntro
  // ---------------------------------------------------------------------------

  /** `Object.entries(genres?.highest || {})` sorted by weight, top three names. */
  function IntroMetaNames(highest: Option<seq<Entry>>): (r: seq<string>)
    ensures |r| == Min(3, |highest.GetOr([])|)
    ensures forall i :: 0 <= i < |r| ==> exists k :: 0 <= k < |highest.GetOr([])| && highest.GetOr([])[k].name == r[i]
    ensures multiset(r) <= multiset(Names(highest.GetOr([])))
    ensures exists top :: IsTopBy(top, highest.GetOr([]), ValueOf, 3) && r == Names(top)
  {
    var top := TopBy(highest.GetOr([]), ValueOf, 3);
    TopByIsTop(highest.GetOr([]), ValueOf, 3);
    NamesMono(top, highest.GetOr([]));
    forall i | 0 <= i < |top| ensures top[i] in highest.GetOr([]) {
      assert top[i] in multiset(top);
    }
    Names(top)
  }

  /** The same for `sub_genres`, top five, with no meta-genre filtering. */
  function IntroSubNames(subs: Option<seq<Entry>>): (r: seq<string>)
    ensures |r| == Min(5, |subs.GetOr([])|)
    ensures forall i :: 0 <= i < |r| ==> exists k :: 0 <= k < |subs.GetOr([])| && subs.GetOr([])[k].name == r[i]
    ensures multiset(r) <= multiset(Names(subs.GetOr([])))
    ensures exists top :: IsTopBy(top, subs.GetOr([]), ValueOf, 5) && r == Names(top)
  {
    var top := TopBy(subs.GetOr([]), ValueOf, 5);
    TopByIsTop(subs.GetOr([]), ValueOf, 5);
    NamesMono(top, subs.GetOr([]));
    forall i | 0 <= i < |top| ensures top[i] in subs.GetOr([]) {
      assert top[i] in multiset(top);
    }
    Names(top)
  }

  /** The onboarding snapshot and the profile chart agree: the three meta names
      of the snapshot are the first three names of the chart's meta view. */
  lemma IntroAgreesWithMusicTaste(prev: seq<Entry>, h: seq<Entry>)
    ensures IntroMetaNames(Some(h)) == Names(TopMeta(prev, Some(h)))[..Min(3, |h|)]
  {
    var top := TopBy(h, ValueOf, 5);
    TopByPrefix(h, ValueOf, 3, 5);
    assert RankMeta(h) == RoundAll(top);
    NamesIgnoreRounding(top, Min(3, |h|));
  }

  /** The snapshot's five sub names are the profile's sub view when the
      profile's filter keeps every entry: both rank the same way and differ
      only in what they filter out. */
  lemma IntroSubAgreesWithMusicTaste(prev: seq<Entry>, subs: seq<Entry>, genreMap: map<string, string>)
    requires |genreMap| > 0
    requires forall i :: 0 <= i < |subs| ==> KeepSub(genreMap, subs[i].name)
    ensures IntroSubNames(Some(subs)) == Names(TopSub(prev, Some(subs), genreMap))
  {
    FilterAll(subs, (e: Entry) => KeepSub(genreMap, e.name));
    assert KeptSubs(genreMap, subs) == subs;
  }

  /** Rounding keeps the names, so a prefix of the rounded list names the same
      entries. */
  lemma NamesIgnoreRounding(s: seq<Entry>, k: nat)
    requires k <= |s|
    ensures Names(RoundAll(s))[..k] == Names(s[..k])
  {
  }

  /** Unlike the profile's sub view, the snapshot lists meta-genres among the
      sub-genres. */
  lemma IntroSubKeepsMetaGenres(genreMap: map<string, string>)
    ensures IntroSubNames(Some([Entry("rock", 1.0)])) == ["rock"]
    ensures TopSub([], Some([Entry("rock", 1.0)]), genreMap["rock" := "pop"]) == []
  {
    assert ToLower("rock") == "rock";
    assert MetaGenres.IsMetaGenre(Some("rock"));
  }
}

=== FILE: genre_utils.dfy ===
/** `src/utils/genreUtils.js`: the first-match meta-genre classifier used for a
    track's genre badge, and the module-level cache in front of the
    meta-gradient request.
 */
module GenreUtils {
  import opened Wrappers
  import opened Strings

  /** The classifier's list, in priority order. */
  const KnownMetaGenres: seq<string> := [
    "rock", "pop", "r&b", "electronic", "hip hop", "hip-hop", "metal",
    "folk", "jazz", "reggae", "blues", "country", "new age", "classical",
    "easy listening", "latin", "religious", "vocal", "indie"
  ]

  /** `list.find(meta => lower.includes(meta))`, as a position, scanning from
      position `from`. */
  function FindContained(list: seq<string>, lower: string, from: nat): (r: Option<nat>)
    requires from <= |list|
    ensures r.Some? ==> from <= r.value < |list| && Contains(lower, list[r.value])
    ensures r.Some? ==> forall j :: from <= j < r.value ==> !Contains(lower, list[j])
    ensures r.None? ==> forall j :: from <= j < |list| ==> !Contains(lower, list[j])
    decreases |list| - from
  {
    if from == |list| then None
    else if Contains(lower, list[from]) then Some(from)
    else FindContained(list, lower, from + 1)
  }

  /** `getMetaGenre(genre)`: the first list entry, in list order, that occurs in
      the lower-cased genre; `"other"` when none does. The genre must be a
      string, since the source calls `toLowerCase` on it unguarded. */
  function GetMetaGenre(genre: string): (r: string)
    ensures r == "other" || r in KnownMetaGenres
    ensures r == "other" <==>
      forall j :: 0 <= j < |KnownMetaGenres| ==> !Contains(ToLower(genre), KnownMetaGenres[j])
    ensures r != "other" ==> exists i :: (0 <= i < |KnownMetaGenres| && KnownMetaGenres[i] == r
      && Contains(ToLower(genre), r)
      && (forall j :: 0 <= j < i ==> !Contains(ToLower(genre), KnownMetaGenres[j])))
  {
    var idx := FindContained(KnownMetaGenres, ToLower(genre), 0);
    if idx.Some? then KnownMetaGenres[idx.value] else "other"
  }

  /** Priority follows the list, not the position in the genre string:
      "pop rock" contains "pop" first, yet "rock" comes first in the list. */
  lemma PopRockIsRock()
    ensures GetMetaGenre("pop rock") == "rock"
  {
    ToLowerOfLower("pop rock");
    RockInPopRock();
    assert KnownMetaGenres[0] == "rock";
    assert FindContained(KnownMetaGenres, "pop rock", 0) == Some(0);
  }

  lemma RockInPopRock()
    ensures Contains("pop rock", "rock")
  {
    var s := "pop rock";
    assert s[4..8] == "rock";
    assert OccursAt(s, "rock", 4);
    ContainsIffOccurs(s, "rock");
  }

  // ---------------------------------------------------------------------------
  // getMetaGradients
  // ---------------------------------------------------------------------------

  /** Gradient table keyed by meta-genre, as the backend sends it. */
  type Gradients = map<string, string>

  /** One call's observable effect: what it resolves to, the cache afterwards,
      and whether it went to the network. */
  datatype GradientCall = GradientCall(result: Gradients, cache: Option<Gradients>, fetched: bool)

  /** `getMetaGradients()` given the module-level cache and what the request
      would produce if it were made. */
  function GetMetaGradients(cache: Option<Gradients>, outcome: FetchOutcome<Gradients>): (c: GradientCall)
    ensures cache.Some? ==> !c.fetched && c.result == cache.value && c.cache == cache
    ensures cache.None? ==> c.fetched
    ensures cache.None? && outcome.Fetched? ==> c.result == outcome.data && c.cache == Some(outcome.data)
    ensures cache.None? && outcome.FetchFailed? ==> c.result == map[] && c.cache.None?
  {
    if cache.Some? then GradientCall(cache.value, cache, false)
    else match outcome
      case Fetched(data) => GradientCall(data, Some(data), true)
      case FetchFailed => GradientCall(map[], None, true)
  }

  /** Once a request has succeeded, no later call fetches again, whatever the
      network would do, and every later call returns the first result. */
  lemma FetchOnceAfterSuccess(data: Gradients, later1: FetchOutcome<Gradients>, later2: FetchOutcome<Gradients>)
    ensures var first := GetMetaGradients(None, Fetched(data));
      var second := GetMetaGradients(first.cache, later1);
      var third := GetMetaGradients(second.cache, later2);
      !second.fetched && !third.fetched && second.result == data && third.result == data
  {
  }

  /** A failed request leaves the cache unset, so the next call fetches again. */
  lemma FailureRetries(later: FetchOutcome<Gradients>)
    ensures var first := GetMetaGradients(None, FetchFailed);
      var second := GetMetaGradients(first.cache, later);
      first.result == map[] && second.fetched
  {
  }
}

/** `src/utils/getParentGenre.js`: the parent meta-genre of a sub-genre. The
    table itself comes from a module that is not part of this model, so it is a
    parameter.
 */
module ParentGenre {
  import opened Strings

  /** `GENRE_MAP[genre.toLowerCase()] || "other"`. */
  function GetParentGenre(genreMap: map<string, string>, genre: string): (r: string)
    ensures r != ""
    ensures var k := ToLower(genre);
      if k in genreMap && genreMap[k] != "" then r == genreMap[k] else r == "other"
  {
    var k := ToLower(genre);
    if k in genreMap && genreMap[k] != "" then genreMap[k] else "other"
  }

  /** Case variants of the same genre have the same parent. */
  lemma CaseInsensitive(genreMap: map<string, string>, a: string, b: string)
    requires ToLower(a) == ToLower(b)
    ensures GetParentGenre(genreMap, a) == GetParentGenre(genreMap, b)
    ensures GetParentGenre(genreMap, a) == GetParentGenre(genreMap, ToLower(a))
  {
    ToLowerIsLower(a);
  }

  /** The result is always a value of the table or the `"other"` fallback. */
  lemma ResultIsParentOrOther(genreMap: map<string, string>, genre: string)
    ensures var r := GetParentGenre(genreMap, genre);
      r == "other" || r in genreMap.Values
  {
  }
}

=== FILE: home.dfy ===
/** `src/pages/home.jsx`: the signed-in dashboard. Modelled here are the
    dashboard load (featured top three, all playlists, user record, last
    track), the now-playing poll with its cache writes, the choice of where
    the genre analysis comes from, the genre-map fetch, the session refresh,
    and the handle under the name. Requests are outcome parameters, the clock
    is a millisecond timestamp, and storage is a map.
 */
module Home {
  import opened Wrappers
  import opened Seqs
  import opened Normalize
  import opened GenreMaps
  import opened UserContext
  import Strings
  import RecentlyPlayed

  type Track = RecentlyPlayed.Track

  // ---------------------------------------------------------------------------
  // Playlists
  // ---------------------------------------------------------------------------

  /** `p.track_count || 0`: a missing count ranks as zero. */
  function CountKey(p: Playlist): real {
    p.track_count.GetOr(0) as real
  }

  /** The featured cards: the three playlists with the most tracks, most first. */
  function FeaturedShown(featured: seq<Playlist>): (r: seq<Playlist>)
    ensures |r| == Min(3, |featured|)
    ensures SortedDescBy(r, CountKey)
    ensures multiset(r) <= multiset(featured)
    ensures forall i :: 0 <= i < |featured| ==>
      featured[i] in multiset(r) || forall j :: 0 <= j < |r| ==> CountKey(featured[i]) <= CountKey(r[j])
  {
    TopBy(featured, CountKey, 3)
  }

  /** The "See All" list: every playlist, most tracks first. */
  function AllShown(all: seq<Playlist>): (r: seq<Playlist>)
    ensures multiset(r) == multiset(all)
    ensures SortedDescBy(r, CountKey)
  {
    SortDescBy(all, CountKey)
  }

  // ---------------------------------------------------------------------------
  // The displayed track and its cache
  // ---------------------------------------------------------------------------

  /** The two storage entries `last_played_track` and `last_played_updated_at`. */
  datatype TrackCache = TrackCache(track: Option<Track>, updatedAt: Option<int>)

  datatype TrackView = TrackView(track: Option<Track>, lastUpdated: Option<int>, animate: bool, cache: TrackCache)

  /** The page starts from whatever the cache holds, without animation. */
  function InitialView(cache: TrackCache): (v: TrackView)
    ensures v.track == cache.track && v.lastUpdated == cache.updatedAt
    ensures v.cache == cache && !v.animate
    ensures CacheMirrorsView(v)
  {
    TrackView(cache.track, cache.updatedAt, false, cache)
  }

  /** The cache holds exactly what is displayed. */
  predicate CacheMirrorsView(v: TrackView) {
    v.cache == TrackCache(v.track, v.lastUpdated)
  }

  /** Displaying `t` at `now` also writes both cache entries. */
  function ShowTrack(v: TrackView, t: Track, now: int, animate: bool): (r: TrackView)
    ensures r.track == Some(t) && r.lastUpdated == Some(now)
    ensures CacheMirrorsView(r)
  {
    TrackView(Some(t), Some(now), animate, TrackCache(Some(t), Some(now)))
  }

  /** `loadNowPlaying()` as the 30-second interval runs it: `resp` carries
      `data.playback?.track`. The interval is set up once per user id, so it
      keeps calling the closure of the render that set it up, and the track it
      compares with is `captured`, the one displayed back then, not the one
      displayed now. A track that differs from `captured` is displayed,
      animated and cached again on every poll. */
  function PollTrack(v: TrackView, captured: Option<Track>, resp: FetchOutcome<Option<Track>>, now: int): (r: TrackView)
    ensures resp.Fetched? && resp.data.Some? && resp.data != captured ==>
      r.track == resp.data && r.lastUpdated == Some(now) && r.animate
    ensures !(resp.Fetched? && resp.data.Some? && resp.data != captured) ==> r == v
    ensures CacheMirrorsView(v) ==> CacheMirrorsView(r)
  {
    if resp.FetchFailed? || resp.data.None? || resp.data == captured then v
    else ShowTrack(v, resp.data.value, now, true)
  }

  /** As written the poll never settles once the dashboard has replaced the
      cached track: the dashboard's track `t` differs from the captured one,
      so every poll that reports `t` stamps it again with the poll's time and
      animates it, although `t` is already displayed. */
  lemma PollRestampsAsWritten<G>(userId: Option<string>, st: HomeState<G>, d: Dashboard<G>, t: Track,
                                 now: int, poll1: int, poll2: int)
    requires Truthy(userId) && d.lastPlayed == Some(t) && st.view.track != Some(t)
    ensures var shown := LoadDashboard(userId, st, Fetched(d), now).view;
      var captured := st.view.track;
      var first := PollTrack(shown, captured, Fetched(Some(t)), poll1);
      var second := PollTrack(first, captured, Fetched(Some(t)), poll2);
      shown.track == Some(t) && first.lastUpdated == Some(poll1) && first.animate
      && second.lastUpdated == Some(poll2) && second.animate
  {
  }

  /** The poll as evidently intended: it compares with the track displayed
      now, so it changes the view exactly when a different track plays. */
  function PollTrackCorrected(v: TrackView, resp: FetchOutcome<Option<Track>>, now: int): (r: TrackView)
    ensures resp.Fetched? && resp.data.Some? && resp.data != v.track ==>
      r.track == resp.data && r.lastUpdated == Some(now) && r.animate
    ensures r.track != v.track <==> resp.Fetched? && resp.data.Some? && resp.data != v.track
    ensures r.track == v.track ==> r == v
    ensures CacheMirrorsView(v) ==> CacheMirrorsView(r)
  {
    if resp.FetchFailed? || resp.data.None? || resp.data == v.track then v
    else ShowTrack(v, resp.data.value, now, true)
  }

  /** The two polls agree as long as the displayed track is still the one the
      interval captured. */
  lemma PollAgreesWhileUnchanged(v: TrackView, resp: FetchOutcome<Option<Track>>, now: int)
    ensures PollTrack(v, v.track, resp, now) == PollTrackCorrected(v, resp, now)
  {
  }

  /** The corrected poll settles: polling the same answer again changes
      nothing, because the second poll sees the track just displayed. */
  lemma PollSettles(v: TrackView, resp: FetchOutcome<Option<Track>>, now: int, later: int)
    ensures PollTrackCorrected(PollTrackCorrected(v, resp, now), resp, later) == PollTrackCorrected(v, resp, now)
  {
  }

  // ---------------------------------------------------------------------------
  // The dashboard
  // ---------------------------------------------------------------------------

  /** The `/dashboard` response fields read: `json.user`, the two playlist
      lists, and `json.last_played_track?.track`. */
  datatype Dashboard<G> = Dashboard(
    display_name: Option<string>,
    profile_picture: Option<string>,
    genre_analysis: Option<G>,
    featured: seq<Playlist>,
    all: seq<Playlist>,
    lastPlayed: Option<Track>)

  datatype HomeState<G> = HomeState(user: Option<User<G>>, featured: seq<Playlist>, all: seq<Playlist>, view: TrackView)

  /** The record `setUser` receives: only the three listed fields. */
  function DashboardUser<G>(d: Dashboard<G>): (u: User<G>)
    ensures u.data.display_name == d.display_name && u.data.profile_picture == d.profile_picture
    ensures u.genreAnalysis == d.genre_analysis
    ensures u.data.user_id.None? && u.data.important_playlists.None?
  {
    User(MeData(None, d.display_name, d.profile_picture, None, None), d.genre_analysis)
  }

  /** `loadDashboard()`: nothing without a user id or when the request fails. */
  function LoadDashboard<G>(userId: Option<string>, st: HomeState<G>, resp: FetchOutcome<Dashboard<G>>, now: int): (r: HomeState<G>)
    ensures !Truthy(userId) || resp.FetchFailed? ==> r == st
    ensures Truthy(userId) && resp.Fetched? ==>
      r.user == Some(DashboardUser(resp.data))
      && r.featured == FeaturedShown(resp.data.featured)
      && r.all == AllShown(resp.data.all)
    ensures Truthy(userId) && resp.Fetched? && resp.data.lastPlayed.Some? ==>
      r.view == ShowTrack(st.view, resp.data.lastPlayed.value, now, st.view.animate)
    ensures Truthy(userId) && resp.Fetched? && resp.data.lastPlayed.None? ==> r.view == st.view
  {
    if !Truthy(userId) || resp.FetchFailed? then st
    else
      var d := resp.data;
      var view := if d.lastPlayed.Some? then ShowTrack(st.view, d.lastPlayed.value, now, st.view.animate) else st.view;
      HomeState(Some(DashboardUser(d)), FeaturedShown(d.featured), AllShown(d.all), view)
  }

  /** After a dashboard load the user record has lost its `user_id` and its
      important playlists, which the context's load had kept. */
  lemma DashboardDropsUserFields<G>(userId: Option<string>, st: HomeState<G>, d: Dashboard<G>, now: int)
    requires Truthy(userId)
    ensures var r := LoadDashboard(userId, st, Fetched(d), now);
      r.user.Some? && r.user.value.data.user_id.None? && ImportantPlaylists(r.user) == []
  {
  }

  /** The cache keeps mirroring the view across dashboard loads. */
  lemma DashboardKeepsCache<G>(userId: Option<string>, st: HomeState<G>, resp: FetchOutcome<Dashboard<G>>, now: int)
    requires CacheMirrorsView(st.view)
    ensures CacheMirrorsView(LoadDashboard(userId, st, resp, now).view)
  {
  }

  // ---------------------------------------------------------------------------
  // Genre analysis source
  // ---------------------------------------------------------------------------

  /** Where the genre analysis comes from: nothing happens without a user id
      or once it is set; otherwise the user record's `genreAnalysis` is used
      when present, and only then is `/genres` fetched. `fetched` is that
      request. Returns the new analysis and whether the request was made. */
  function GenreSource<G>(userId: Option<string>, user: Option<User<G>>, current: Option<G>,
                          fetched: FetchOutcome<Option<G>>): (r: (Option<G>, bool))
    ensures !Truthy(userId) || current.Some? ==> r == (current, false)
    ensures Truthy(userId) && current.None? && user.Some? && user.value.genreAnalysis.Some? ==>
      r == (user.value.genreAnalysis, false)
    ensures r.1 <==> Truthy(userId) && current.None? && !(user.Some? && user.value.genreAnalysis.Some?)
    ensures r.1 && fetched.Fetched? ==> r.0 == fetched.data
    ensures r.1 && fetched.FetchFailed? ==> r.0 == current
  {
    if !Truthy(userId) || current.Some? then (current, false)
    else if user.Some? && user.value.genreAnalysis.Some? then (user.value.genreAnalysis, false)
    else if fetched.FetchFailed? then (current, true)
    else (fetched.data, true)
  }

  /** Once an analysis is held it is never replaced or re-requested. */
  lemma GenreSourceSettles<G>(userId: Option<string>, user: Option<User<G>>, g: G, fetched: FetchOutcome<Option<G>>)
    ensures GenreSource(userId, user, Some(g), fetched) == (Some(g), false)
  {
  }

  // ---------------------------------------------------------------------------
  // Genre map
  // ---------------------------------------------------------------------------

  /** The genre-map fetch as written. `apiGet` already returns the parsed
      body, a plain object with no `json` method, so `res.json()` throws; the
      error is caught and the map keeps its previous value, whatever the
      server sent. */
  function FetchGenreMapAsWritten(prev: map<string, string>, resp: FetchOutcome<seq<(string, string)>>): (m: map<string, string>)
    ensures m == prev
  {
    prev
  }

  /** The genre-map fetch as evidently intended: the parsed body's entries,
      normalised; a failed request keeps the previous map. */
  function FetchGenreMap(prev: map<string, string>, resp: FetchOutcome<seq<(string, string)>>): (m: map<string, string>)
    ensures resp.FetchFailed? ==> m == prev
    ensures resp.Fetched? ==> forall k :: k in m <==> exists i :: 0 <= i < |resp.data| && Strings.ToLower(resp.data[i].0) == k
  {
    if resp.FetchFailed? then prev else NormalizeGenreMap(resp.data)
  }

  /** As written the home page's genre map stays empty whatever non-empty
      table the server sends; the intended fetch holds every lower-cased
      genre of it. */
  lemma GenreMapNeverLoads(es: seq<(string, string)>)
    requires |es| > 0
    ensures FetchGenreMapAsWritten(map[], Fetched(es)) == map[]
    ensures forall i :: 0 <= i < |es| ==> Strings.ToLower(es[i].0) in FetchGenreMap(map[], Fetched(es))
    ensures FetchGenreMap(map[], Fetched(es)) != map[]
  {
    assert Strings.ToLower(es[0].0) in FetchGenreMap(map[], Fetched(es));
  }

  /** Both keys and values of the intended map are lower case. */
  lemma FetchedMapIsLower(prev: map<string, string>, es: seq<(string, string)>)
    ensures var m := FetchGenreMap(prev, Fetched(es));
      forall k :: k in m ==> Strings.IsLower(k) && Strings.IsLower(m[k])
  {
    NormalizedIsLower(es);
  }

  // ---------------------------------------------------------------------------
  // Session refresh and the header
  // ---------------------------------------------------------------------------

  /** `refreshSession()`: a failed refresh logs out, clearing storage and
      sending the browser to "/"; a successful one changes nothing. */
  function RefreshSession<T>(storage: Storage, resp: FetchOutcome<T>): (r: (Storage, Option<string>))
    ensures resp.FetchFailed? <==> r.1.Some?
    ensures resp.FetchFailed? ==> r == (map[], Some("/"))
    ensures resp.Fetched? ==> r.0 == storage
  {
    if resp.FetchFailed? then (map[], Some("/")) else (storage, None)
  }

  /** The heading: `user?.display_name || "Sgt. Pepper"`. */
  function Heading<G>(user: Option<User<G>>): (r: string)
    ensures r != ""
    ensures user.Some? && Truthy(user.value.data.display_name) ==> r == user.value.data.display_name.value
  {
    OrDefault(if user.Some? then user.value.data.display_name else None, "Sgt. Pepper")
  }

  /** The handle under the name as written, `"@" + user?.user_id || ""`:
      `+` binds tighter than `||`, so a missing id prints "@undefined". */
  function HandleAsWritten<G>(user: Option<User<G>>): (r: string)
    ensures user.Some? && user.value.data.user_id.Some? ==> r == "@" + user.value.data.user_id.value
    ensures user.None? || user.value.data.user_id.None? ==> r == "@undefined"
  {
    "@" + Interpolated(if user.Some? then user.value.data.user_id else None)
  }

  /** The handle as evidently intended, `"@" + (user?.user_id || "")`. */
  function Handle<G>(user: Option<User<G>>): (r: string)
    ensures |r| >= 1 && r[0] == '@'
    ensures user.Some? && Truthy(user.value.data.user_id) ==> r[1..] == user.value.data.user_id.value
    ensures !(user.Some? && Truthy(user.value.data.user_id)) ==> r == "@"
  {
    "@" + OrDefault(if user.Some? then user.value.data.user_id else None, "")
  }

  /** After any successful dashboard load the written handle reads
      "@undefined", while the intended one reads "@". */
  lemma HandleAfterDashboard<G>(userId: Option<string>, st: HomeState<G>, d: Dashboard<G>, now: int)
    requires Truthy(userId)
    ensures var user := LoadDashboard(userId, st, Fetched(d), now).user;
      HandleAsWritten(user) == "@undefined" && Handle(user) == "@"
  {
  }
}

=== FILE: importer.dfy ===
/** `src/components/steps/PlaylistImporter.jsx`: the onboarding step that
    chooses which playlists to import.
 */
module PlaylistImporter {
  import opened Wrappers
  import opened Seqs
  import opened Selection
  import FeaturedPicker

  datatype ImporterState = ImporterState(
    playlists: seq<Item>, selectedIds: seq<Key>, sortDesc: bool, search: string)

  /** The initial state: the already chosen playlists' `playlist_id`s, an empty
      list, descending order. The source maps over `selected_playlists`
      without a guard, so the field must be present. */
  function Init(onboard: OnboardData): (st: ImporterState)
    requires onboard.selected_playlists.Some?
    ensures st.playlists == [] && st.sortDesc && st.search == ""
    ensures |st.selectedIds| == |onboard.selected_playlists.value|
    ensures forall i :: 0 <= i < |st.selectedIds| ==>
      st.selectedIds[i] == onboard.selected_playlists.value[i].playlist_id
  {
    ImporterState([], FeaturedPicker.PlaylistIds(onboard.selected_playlists.value), true, "")
  }

  /** The fetch effect: the listed items sorted by track count, descending; a
      failed request changes nothing. */
  function Fetch(st: ImporterState, outcome: FetchOutcome<seq<Item>>): (r: ImporterState)
    ensures outcome.FetchFailed? ==> r == st
    ensures outcome.Fetched? ==> multiset(r.playlists) == multiset(outcome.data)
    ensures outcome.Fetched? ==> SortedDescBy(r.playlists, TracksKey)
    ensures r.selectedIds == st.selectedIds && r.sortDesc == st.sortDesc && r.search == st.search
  {
    if outcome.FetchFailed? then st else st.(playlists := ByTracksDesc(outcome.data))
  }

  /** The selection effect: `selected_playlists` becomes the listed playlists
      whose `id` is selected, in list order; the wizard may proceed iff at
      least three of them exist. */
  function ApplySelection(onboard: OnboardData, st: ImporterState): (r: (OnboardData, bool))
    ensures r.0.featured_playlists == onboard.featured_playlists
    ensures r.0.display_name == onboard.display_name
    ensures r.0.selected_playlists.Some?
    ensures IsSubsequence(r.0.selected_playlists.value, st.playlists)
    ensures forall p :: p in r.0.selected_playlists.value <==> p in st.playlists && p.id in st.selectedIds
    ensures r.1 <==> |r.0.selected_playlists.value| >= 3
  {
    var chosen := SelectedById(st.playlists, st.selectedIds);
    (onboard.(selected_playlists := Some(chosen)), |chosen| >= 3)
  }

  /** `toggleSelect(id)`: flips the id's membership, nothing else. */
  function ToggleSelect(st: ImporterState, id: Key): (r: ImporterState)
    ensures r.playlists == st.playlists && r.sortDesc == st.sortDesc && r.search == st.search
    ensures id in r.selectedIds <==> id !in st.selectedIds
    ensures forall y :: y in st.selectedIds && y != id ==> y in r.selectedIds
    ensures forall y :: y in r.selectedIds && y != id ==> y in st.selectedIds
  {
    st.(selectedIds := Toggle(st.selectedIds, id))
  }

  /** `toggleAll()`: clears the selection when it has as many ids as there are
      playlists, otherwise selects every playlist's id in list order. */
  function ToggleAllSelected(st: ImporterState): (r: ImporterState)
    ensures r.playlists == st.playlists
    ensures |st.selectedIds| == |st.playlists| ==> r.selectedIds == []
    ensures |st.selectedIds| != |st.playlists| ==>
      |r.selectedIds| == |st.playlists| && forall i :: 0 <= i < |st.playlists| ==> r.selectedIds[i] == st.playlists[i].id
  {
    st.(selectedIds := ToggleAll(st.selectedIds, Ids(st.playlists)))
  }

  /** After select-all, the next toggle-all clears. */
  lemma ToggleAllTwiceClears(st: ImporterState)
    requires |st.selectedIds| != |st.playlists|
    ensures ToggleAllSelected(ToggleAllSelected(st)).selectedIds == []
  {
  }

  /** `toggleSort()`: flips the flag and re-sorts by the flag's value before the
      flip, so the new order matches the new flag. */
  function ToggleSort(st: ImporterState): (r: ImporterState)
    ensures r.sortDesc == !st.sortDesc
    ensures multiset(r.playlists) == multiset(st.playlists)
    ensures r.selectedIds == st.selectedIds && r.search == st.search
  {
    var sorted := if st.sortDesc then ByTracksAsc(st.playlists) else ByTracksDesc(st.playlists);
    st.(sortDesc := !st.sortDesc, playlists := sorted)
  }

  /** The list is ordered as the flag says. */
  ghost predicate OrderMatchesFlag(st: ImporterState) {
    (st.sortDesc ==> SortedDescBy(st.playlists, TracksKey))
    && (!st.sortDesc ==> SortedBy(st.playlists, TracksKey))
  }

  /** The order matches the flag initially, after the fetch (which happens with
      the initial descending flag), and after every sort toggle, selection
      change and select-all. */
  lemma OrderMatchesFlagInvariant(st: ImporterState, outcome: FetchOutcome<seq<Item>>, id: Key)
    ensures st.playlists == [] ==> OrderMatchesFlag(st)
    ensures st.sortDesc ==> OrderMatchesFlag(Fetch(st, outcome)) || outcome.FetchFailed?
    ensures OrderMatchesFlag(ToggleSort(st))
    ensures OrderMatchesFlag(st) ==> OrderMatchesFlag(ToggleSelect(st, id))
    ensures OrderMatchesFlag(st) ==> OrderMatchesFlag(ToggleAllSelected(st))
  {
  }

  /** The grid: the playlists matching the search text, in list order. */
  function Filtered(st: ImporterState): (r: seq<Item>)
    ensures IsSubsequence(r, st.playlists)
    ensures forall p :: p in r <==> p in st.playlists && Matches(p.name, st.search)
  {
    Search(st.playlists, st.search)
  }
}

/** `src/components/settings/EditPlaylists.jsx`: the settings modal that adds
    playlists not yet imported, or removes imported ones.
 */
module EditPlaylists {
  import opened Wrappers
  import opened Seqs
  import opened Selection

  datatype Tab = Add | Remove

  datatype ModalState = ModalState(tab: Tab, spotify: seq<Item>, imported: seq<Item>, selectedIds: seq<Key>)

  /** `p.playlist_id || p.id`: how an imported playlist is identified. */
  function ImportKey(p: Item): Key {
    OrElse(p.playlist_id, p.id)
  }

  /** `p.id || p.playlist_id`: how a tile is identified. */
  function TileKey(p: Item): Key {
    OrElse(p.id, p.playlist_id)
  }

  function ImportKeys(imported: seq<Item>): (r: seq<Key>)
    ensures |r| == |imported|
    ensures forall i :: 0 <= i < |r| ==> r[i] == ImportKey(imported[i])
  {
    if imported == [] then [] else [ImportKey(imported[0])] + ImportKeys(imported[1..])
  }

  /** The Spotify playlists whose `id` is not an imported key, in their order. */
  function Unimported(spotify: seq<Item>, imported: seq<Item>): (r: seq<Item>)
    ensures IsSubsequence(r, spotify)
    ensures forall p :: p in r <==> p in spotify && p.id !in ImportKeys(imported)
  {
    var keys := ImportKeys(imported);
    Filter(spotify, (p: Item) => p.id !in keys)
  }

  /** Opening the modal clears the selection. */
  function Open(st: ModalState): (r: ModalState)
    ensures r.selectedIds == []
    ensures r.tab == st.tab && r.spotify == st.spotify && r.imported == st.imported
  {
    st.(selectedIds := [])
  }

  /** The load effect. A non-array `items` or `playlists.all` (`None`) counts
      as empty. On success the imported list is replaced, and on the add tab
      the Spotify list becomes the unimported playlists; a failure empties
      both lists. */
  function Load(st: ModalState, outcome: FetchOutcome<(Option<seq<Item>>, Option<seq<Item>>)>): (r: ModalState)
    ensures r.tab == st.tab && r.selectedIds == st.selectedIds
    ensures outcome.FetchFailed? ==> r.spotify == [] && r.imported == []
    ensures outcome.Fetched? ==> r.imported == outcome.data.1.GetOr([])
    ensures outcome.Fetched? && st.tab == Add ==>
      r.spotify == Unimported(outcome.data.0.GetOr([]), outcome.data.1.GetOr([]))
    ensures outcome.Fetched? && st.tab == Remove ==> r.spotify == st.spotify
  {
    match outcome
    case FetchFailed => st.(spotify := [], imported := [])
    case Fetched((items, all)) =>
      var spotify := items.GetOr([]);
      var imported := all.GetOr([]);
      if st.tab == Add then st.(imported := imported, spotify := Unimported(spotify, imported))
      else st.(imported := imported)
  }

  /** A tab button sets the tab. The load effect is keyed on the tab, so it
      runs only when the tab actually changes: then the selection is cleared
      and both lists are fetched again. Clicking the active tab changes
      nothing and sends no request. */
  function SwitchTab(st: ModalState, tab: Tab, outcome: FetchOutcome<(Option<seq<Item>>, Option<seq<Item>>)>): (r: ModalState)
    ensures r.tab == tab
    ensures tab == st.tab ==> r == st
    ensures tab != st.tab ==> r.selectedIds == []
    ensures tab != st.tab && outcome.FetchFailed? ==> r.spotify == [] && r.imported == []
    ensures tab != st.tab && outcome.Fetched? ==> r.imported == outcome.data.1.GetOr([])
  {
    if tab == st.tab then st else Load(Open(st.(tab := tab)), outcome)
  }

  /** The tiles: the Spotify list on the add tab, the imported list on the
      remove tab. */
  function Listed(st: ModalState): (r: seq<Item>)
    ensures st.tab == Add ==> r == st.spotify
    ensures st.tab == Remove ==> r == st.imported
  {
    if st.tab == Add then st.spotify else st.imported
  }

  /** After switching from the remove tab to the add tab, every tile is a
      Spotify playlist that is not imported yet, and none is selected; on the
      add tab already, the click keeps the tiles and the selection. */
  lemma AddTabListsOnlyNew(st: ModalState, items: seq<Item>, all: seq<Item>)
    ensures var r := SwitchTab(st, Add, Fetched((Some(items), Some(all))));
      st.tab == Remove ==> r.selectedIds == [] && forall p :: p in Listed(r) ==> p in items && p.id !in ImportKeys(all)
    ensures st.tab == Add ==> SwitchTab(st, Add, Fetched((Some(items), Some(all)))) == st
  {
  }

  /** A tile click flips the tile key's membership. */
  function Click(st: ModalState, p: Item): (r: ModalState)
    ensures TileKey(p) in r.selectedIds <==> TileKey(p) !in st.selectedIds
    ensures r.tab == st.tab && r.spotify == st.spotify && r.imported == st.imported
  {
    st.(selectedIds := Toggle(st.selectedIds, TileKey(p)))
  }

  /** What Save sends: on the add tab the listed Spotify playlists whose `id`
      is selected; on the remove tab the imported playlists whose import key is
      selected; both in list order. */
  function SavePayload(st: ModalState): (r: seq<Item>)
    ensures st.tab == Add ==> IsSubsequence(r, st.spotify)
    ensures st.tab == Add ==> forall p :: p in r <==> p in st.spotify && p.id in st.selectedIds
    ensures st.tab == Remove ==> IsSubsequence(r, st.imported)
    ensures st.tab == Remove ==> forall p :: p in r <==> p in st.imported && ImportKey(p) in st.selectedIds
  {
    if st.tab == Add then SelectedById(st.spotify, st.selectedIds)
    else Filter(st.imported, (p: Item) => ImportKey(p) in st.selectedIds)
  }

  /** After a successful load on the add tab, saving never re-sends a playlist
      that is already imported. */
  lemma AddNeverReimports(st: ModalState, items: Option<seq<Item>>, all: Option<seq<Item>>)
    requires st.tab == Add
    ensures var loaded := Load(st, Fetched((items, all)));
      forall p :: p in SavePayload(loaded) ==> p.id !in ImportKeys(loaded.imported)
  {
  }
}

=== FILE: meta_genres.dfy ===
/** The meta-genre registry of `src/constants/metaGenres.js`: a fixed table of
    ten canonical genre names and their colours, a case-insensitive colour
    lookup that falls back to the `other` colour, and a membership test.
 */
module MetaGenres {
  import opened Wrappers
  import opened Strings

  /** The table's keys in declaration order (what `Object.keys` yields). */
  const Keys: seq<string> :=
    ["rock", "pop", "r&b", "electronic", "hip-hop", "metal", "folk", "jazz", "reggae", "other"]

  const OtherColor: string := "#000080"

  const Colors: map<string, string> := map[
    "rock" := "#ff6f61",
    "pop" := "#90D5FF",
    "r&b" := "#88b04b",
    "electronic" := "#009688",
    "hip-hop" := "#f7cac9",
    "metal" := "#505050",
    "folk" := "#8d5524",
    "jazz" := "#6b5b95",
    "reggae" := "#33cc99",
    "other" := OtherColor
  ]

  /** `name?.toLowerCase()`: the lower-cased name, absent for null/undefined. */
  function LowerKey(name: Option<string>): Option<string> {
    if name.Some? then Some(ToLower(name.value)) else None
  }

  /** `getMetaGenreColor(name)`: the colour of the lower-cased name, or the
      `other` colour when the name is absent or not a key. */
  function GetMetaGenreColor(name: Option<string>): (r: string)
    ensures r != ""
    ensures r in Colors.Values
  {
    var key := LowerKey(name);
    if key.Some? && key.value in Colors && Colors[key.value] != "" then Colors[key.value]
    else Colors["other"]
  }

  /** `isMetaGenre(name)`: the lower-cased name is one of the table's keys. */
  function IsMetaGenre(name: Option<string>): (b: bool)
    ensures b ==> name.Some?
    ensures b <==> name.Some? && ToLower(name.value) in Colors
  {
    KeysAreTableKeys();
    var key := LowerKey(name);
    key.Some? && key.value in Keys
  }

  /** The key list and the table describe the same ten names. */
  lemma KeysAreTableKeys()
    ensures |Keys| == 10
    ensures forall k :: k in Keys <==> k in Colors
  {
  }

  /** The colour lookup and the membership test agree: a meta-genre gets its own
      table colour, anything else (absent names included) gets the `other`
      colour. */
  lemma ColorFollowsMembership(name: Option<string>)
    ensures IsMetaGenre(name) ==> GetMetaGenreColor(name) == Colors[ToLower(name.value)]
    ensures !IsMetaGenre(name) ==> GetMetaGenreColor(name) == OtherColor
  {
    KeysAreTableKeys();
  }

  /** Lookup and membership ignore case: a name and its lower-cased form are
      treated alike. */
  lemma CaseInsensitive(s: string)
    ensures GetMetaGenreColor(Some(s)) == GetMetaGenreColor(Some(ToLower(s)))
    ensures IsMetaGenre(Some(s)) == IsMetaGenre(Some(ToLower(s)))
  {
    ToLowerIsLower(s);
  }

  /** Absent names are not meta-genres and get the `other` colour. */
  lemma AbsentName()
    ensures !IsMetaGenre(None)
    ensures GetMetaGenreColor(None) == "#000080"
  {
  }

  /** Only the hyphenated spelling is a meta-genre; `Rock` is one by case folding. */
  lemma HipHopSpelling()
    ensures !IsMetaGenre(Some("hip hop"))
    ensures IsMetaGenre(Some("hip-hop"))
    ensures IsMetaGenre(Some("Rock"))
  {
    SpacedHipHop();
    HyphenatedHipHop();
    CapitalRock();
  }

  lemma SpacedHipHop()
    ensures !IsMetaGenre(Some("hip hop"))
  {
    ToLowerOfLower("hip hop");
  }

  lemma HyphenatedHipHop()
    ensures IsMetaGenre(Some("hip-hop"))
  {
    ToLowerOfLower("hip-hop");
  }

  lemma CapitalRock()
    ensures IsMetaGenre(Some("Rock"))
  {
    CapitalLowered("Rock", "rock");
  }
}

/** The older registry variant of `src/utils/metaGenres.js`: same ten keys, but
    the table's own `other` colour is grey while the fallback for unknown names
    is the literal navy `#000080`.
 */
module MetaGenreUtils {
  import opened Wrappers
  import opened Strings
  import MetaGenres

  const FallbackColor: string := "#000080"

  const Colors: map<string, string> := MetaGenres.Colors["other" := "#9e9e9e"]

  /** `getMetaGenreColor(name)` of this variant. */
  function GetMetaGenreColor(name: Option<string>): (r: string)
    ensures r != ""
    ensures r in Colors.Values || r == FallbackColor
  {
    var key := MetaGenres.LowerKey(name);
    if key.Some? && key.value in Colors && Colors[key.value] != "" then Colors[key.value]
    else FallbackColor
  }

  /** `isMetaGenre(name)` of this variant: membership among the same ten keys. */
  function IsMetaGenre(name: Option<string>): (b: bool)
    ensures b ==> name.Some?
    ensures b <==> name.Some? && ToLower(name.value) in MetaGenres.Keys
  {
    MetaGenres.KeysAreTableKeys();
    var key := MetaGenres.LowerKey(name);
    key.Some? && key.value in Colors.Keys
  }

  /** Both registry variants classify every name identically. */
  lemma SameMembershipAsConstants(name: Option<string>)
    ensures IsMetaGenre(name) == MetaGenres.IsMetaGenre(name)
  {
    MetaGenres.KeysAreTableKeys();
  }

  /** Meta-genres get their table colour; every other name, and an absent one,
      gets the navy fallback. */
  lemma ColorFollowsMembership(name: Option<string>)
    ensures IsMetaGenre(name) ==> GetMetaGenreColor(name) == Colors[ToLower(name.value)]
    ensures !IsMetaGenre(name) ==> GetMetaGenreColor(name) == FallbackColor
  {
  }

  /** Unlike the constants variant, `other` itself is grey while unknown names
      are navy, so the two lookups disagree on them. */
  lemma OtherDiffersFromFallback(unknown: Option<string>)
    requires unknown.Some? ==> ToLower(unknown.value) !in MetaGenres.Keys
    ensures GetMetaGenreColor(Some("other")) == "#9e9e9e"
    ensures GetMetaGenreColor(Some("Other")) == "#9e9e9e"
    ensures GetMetaGenreColor(unknown) == "#000080"
    ensures MetaGenres.GetMetaGenreColor(unknown) == "#000080"
    ensures MetaGenres.GetMetaGenreColor(Some("other")) == "#000080"
  {
    OtherIsGrey();
    MetaGenres.KeysAreTableKeys();
  }

  lemma OtherIsGrey()
    ensures GetMetaGenreColor(Some("other")) == "#9e9e9e"
    ensures GetMetaGenreColor(Some("Other")) == "#9e9e9e"
  {
    ToLowerOfLower("other");
    CapitalLowered("Other", "other");
  }

  /** Lookup and membership ignore case. */
  lemma CaseInsensitive(s: string)
    ensures GetMetaGenreColor(Some(s)) == GetMetaGenreColor(Some(ToLower(s)))
    ensures IsMetaGenre(Some(s)) == IsMetaGenre(Some(ToLower(s)))
  {
    ToLowerIsLower(s);
  }
}

=== FILE: normalize.dfy ===
/** `src/utils/normalize.js`: `normalizePlaylist` reconciles the two id
    fields, resolves a numeric track count and fills in the public URL.
 */
module Normalize {
  import opened Wrappers
  import opened Strings

  /** The `tracks` field as it may arrive: a number, an object that may carry
      a numeric `total`, or anything else (missing, `null`, a string). */
  datatype TracksField = TracksNumber(n: int) | TracksObject(total: Option<int>) | TracksOther

  /** A playlist record with the fields `normalizePlaylist` reads, plus the
      ones it only carries over (`name`, `image`). */
  datatype Playlist = Playlist(
    id: Option<string>,
    playlist_id: Option<string>,
    name: Option<string>,
    image: Option<string>,
    tracks: TracksField,
    track_count: Option<int>,
    external_url: Option<string>)

  const SpotifyPlaylistPrefix: string := "https://open.spotify.com/playlist/"

  /** `typeof tracks === "number" ? tracks : typeof track_count === "number"
      ? track_count : tracks?.total ?? 0`. */
  function ResolveTracks(tracks: TracksField, trackCount: Option<int>): (n: int)
    ensures tracks.TracksNumber? ==> n == tracks.n
    ensures !tracks.TracksNumber? && trackCount.Some? ==> n == trackCount.value
    ensures !tracks.TracksNumber? && trackCount.None? && tracks.TracksObject? && tracks.total.Some?
      ==> n == tracks.total.value
    ensures !tracks.TracksNumber? && trackCount.None? && !(tracks.TracksObject? && tracks.total.Some?)
      ==> n == 0
  {
    if tracks.TracksNumber? then tracks.n
    else if trackCount.Some? then trackCount.value
    else TotalOrZero(tracks)
  }

  /** `tracks?.total ?? 0`. */
  function TotalOrZero(tracks: TracksField): int {
    match tracks
    case TracksObject(Some(t)) => t
    case _ => 0
  }

  /** `normalizePlaylist(pl)`. */
  function NormalizePlaylist(pl: Playlist): (r: Playlist)
    ensures r.id == r.playlist_id == OrElse(pl.id, pl.playlist_id)
    ensures r.tracks == TracksNumber(ResolveTracks(pl.tracks, pl.track_count))
    ensures Truthy(pl.external_url) ==> r.external_url == pl.external_url
    ensures !Truthy(pl.external_url) ==>
      r.external_url == Some(SpotifyPlaylistPrefix + OrDefault(OrElse(pl.id, pl.playlist_id), ""))
    ensures r.name == pl.name && r.image == pl.image && r.track_count == pl.track_count
  {
    var id := OrElse(pl.id, pl.playlist_id);
    var url := if Truthy(pl.external_url) then pl.external_url
               else Some(SpotifyPlaylistPrefix + OrDefault(id, ""));
    pl.(id := id, playlist_id := id,
        tracks := TracksNumber(ResolveTracks(pl.tracks, pl.track_count)),
        external_url := url)
  }

  /** Normalising twice is normalising once: the track count is numeric after
      one pass, the two ids agree, and the URL is non-empty. */
  lemma NormalizeIdempotent(pl: Playlist)
    ensures NormalizePlaylist(NormalizePlaylist(pl)) == NormalizePlaylist(pl)
  {
    var once := NormalizePlaylist(pl);
    assert Truthy(once.external_url);
  }

  /** The URL always names the playlist page; when it is built, it ends with the
      resolved id (nothing when there is no id). */
  lemma UrlNamesPlaylist(pl: Playlist)
    ensures Truthy(NormalizePlaylist(pl).external_url)
    ensures !Truthy(pl.external_url) && Truthy(pl.id) ==>
      NormalizePlaylist(pl).external_url == Some(SpotifyPlaylistPrefix + pl.id.value)
    ensures !Truthy(pl.external_url) && !Truthy(pl.id) && !Truthy(pl.playlist_id) ==>
      NormalizePlaylist(pl).external_url == Some(SpotifyPlaylistPrefix)
    ensures !Truthy(pl.external_url) ==> StartsWith(NormalizePlaylist(pl).external_url.value, SpotifyPlaylistPrefix)
  {
    var r := NormalizePlaylist(pl);
    if !Truthy(pl.external_url) {
      var suffix := OrDefault(OrElse(pl.id, pl.playlist_id), "");
      assert r.external_url == Some(SpotifyPlaylistPrefix + suffix);
      assert (SpotifyPlaylistPrefix + suffix)[..|SpotifyPlaylistPrefix|] == SpotifyPlaylistPrefix;
      if !Truthy(pl.id) && !Truthy(pl.playlist_id) {
        assert suffix == "";
        assert SpotifyPlaylistPrefix + "" == SpotifyPlaylistPrefix;
      }
    }
  }

  /** A truthy `id` wins over `playlist_id`; a falsy one falls through to it. */
  lemma IdPreference(pl: Playlist)
    ensures Truthy(pl.id) ==> NormalizePlaylist(pl).id == pl.id
    ensures !Truthy(pl.id) ==> NormalizePlaylist(pl).id == pl.playlist_id
  {
  }
}

=== FILE: onboarding.dfy ===
/** `src/components/OnboardingSteps.jsx`: the three-step onboarding wizard
    (pick public playlists, confirm the name, confirm the picture) with its
    playlist grid, search box and sort menu.
 */
module OnboardingSteps {
  import opened Wrappers
  import opened Strings
  import opened Seqs
  import opened Selection

  /** Playlists with fewer tracks are never offered. */
  const MinTracks: int := 5

  const ChoosePlaylistsAlert: string := "Choose the playlists you'd like to be public."
  const EnterNameAlert: string := "Please enter your name."

  datatype WizardState = WizardState(
    step: nat,
    playlists: seq<Item>,
    selectedIds: seq<Key>,
    name: Option<string>,
    changeName: bool,
    profilePic: Option<string>,
    uploadedPic: Option<string>)

  /** The body posted when the wizard completes. */
  datatype Submission = Submission(playlist_ids: seq<Key>, display_name: Option<string>, profile_picture: Option<string>)

  /** What a press of Next did besides changing the step. */
  datatype NextEffect =
    | Alerted(message: string)
    | Threw                     // `name.trim()` on a missing name
    | Advanced
    | Submitted(payload: Submission)

  predicate Eligible(p: Item) {
    p.tracks >= MinTracks
  }

  /** The loaded grid: `items.filter(p => p.tracks >= 5)`. */
  function EligiblePlaylists(items: seq<Item>): (r: seq<Item>)
    ensures forall p :: p in r <==> p in items && p.tracks >= MinTracks
    ensures IsSubsequence(r, items)
  {
    Filter(items, Eligible)
  }

  /** `handleNext()`. */
  function HandleNext(st: WizardState): (r: (WizardState, NextEffect))
    ensures st.step == 0 && st.selectedIds == [] ==> r == (st, Alerted(ChoosePlaylistsAlert))
    ensures st.step == 1 && st.changeName && st.name.None? ==> r == (st, Threw)
    ensures st.step == 1 && st.changeName && st.name.Some? && Trim(st.name.value) == "" ==>
      r == (st, Alerted(EnterNameAlert))
    ensures st.step == 2 ==>
      r.1 == Submitted(Submission(st.selectedIds, st.name, OrElse(st.uploadedPic, st.profilePic)))
    ensures r.1.Advanced? || r.1.Submitted? <==> r.0 == st.(step := st.step + 1)
    ensures r.1.Alerted? || r.1.Threw? ==> r.0 == st
  {
    if st.step == 0 && st.selectedIds == [] then (st, Alerted(ChoosePlaylistsAlert))
    else if st.step == 1 && st.changeName && st.name.None? then (st, Threw)
    else if st.step == 1 && st.changeName && Trim(st.name.value) == "" then (st, Alerted(EnterNameAlert))
    else if st.step == 2 then
      (st.(step := 3), Submitted(Submission(st.selectedIds, st.name, OrElse(st.uploadedPic, st.profilePic))))
    else (st.(step := st.step + 1), Advanced)
  }

  /** Next moves forward by exactly one step unless it is blocked, and is
      blocked only at step 0 with nothing selected or at step 1 when a new name
      was asked for and is missing or blank. */
  lemma NextBlockedOnlyWhen(st: WizardState)
    ensures HandleNext(st).0.step == st.step || HandleNext(st).0.step == st.step + 1
    ensures HandleNext(st).0.step == st.step <==>
      (st.step == 0 && st.selectedIds == [])
      || (st.step == 1 && st.changeName && (st.name.None? || Trim(st.name.value) == ""))
  {
  }

  /** The `/me` fields read by the wizard. */
  datatype Me = Me(display_name: Option<string>, profile_picture: Option<string>)

  /** The load effect: nothing without a user id; the `/me` answer sets the
      name and the picture, then the `/playlists` answer sets the grid to the
      eligible playlists. A failed request stops the chain. */
  function LoadWizard(st: WizardState, userId: Option<string>, me: FetchOutcome<Me>, playlists: FetchOutcome<seq<Item>>): (r: WizardState)
    ensures !Truthy(userId) || me.FetchFailed? ==> r == st
    ensures Truthy(userId) && me.Fetched? ==>
      r.name == me.data.display_name && r.profilePic == me.data.profile_picture
      && r.step == st.step && r.selectedIds == st.selectedIds && r.uploadedPic == st.uploadedPic
    ensures Truthy(userId) && me.Fetched? && playlists.FetchFailed? ==> r.playlists == st.playlists
    ensures Truthy(userId) && me.Fetched? && playlists.Fetched? ==> r.playlists == EligiblePlaylists(playlists.data)
  {
    if !Truthy(userId) || me.FetchFailed? then st
    else
      var named := st.(name := me.data.display_name, profilePic := me.data.profile_picture);
      if playlists.FetchFailed? then named else named.(playlists := EligiblePlaylists(playlists.data))
  }

  /** Every playlist in the grid has enough tracks. */
  predicate GridEligible(st: WizardState) {
    forall p :: p in st.playlists ==> Eligible(p)
  }

  /** The grid holds only eligible playlists after a load, and searching and
      sorting never bring in another. */
  lemma GridStaysEligible(st: WizardState, userId: Option<string>, me: FetchOutcome<Me>, items: seq<Item>,
                          text: string, option: SortOption, collate: string -> real)
    requires GridEligible(st)
    ensures GridEligible(LoadWizard(st, userId, me, Fetched(items)))
    ensures GridEligible(st.(playlists := SearchAsWritten(st.playlists, text, collate)))
    ensures GridEligible(st.(playlists := SortShown(st.playlists, option, collate)))
  {
    var sorted := SortShown(st.playlists, option, collate);
    forall p | p in sorted ensures Eligible(p) {
      assert p in multiset(st.playlists);
    }
  }

  /** The picture editor's Save: the uploaded picture becomes the picture. */
  function SavePicture(st: WizardState, url: string): (r: WizardState)
    ensures r.uploadedPic == Some(url) && r.profilePic == Some(url)
    ensures r.step == st.step && r.selectedIds == st.selectedIds && r.name == st.name
  {
    st.(uploadedPic := Some(url), profilePic := Some(url))
  }

  /** The picture editor's Cancel: the upload is dropped and the user's own
      picture, or none, is restored. */
  function CancelPicture(st: WizardState, userPic: Option<string>): (r: WizardState)
    ensures r.uploadedPic.None?
    ensures r.profilePic == Some(OrDefault(userPic, ""))
    ensures r.step == st.step && r.selectedIds == st.selectedIds && r.name == st.name
  {
    st.(uploadedPic := None, profilePic := Some(OrDefault(userPic, "")))
  }

  /** At the picture step, Next submits the picture last saved in the editor,
      or after a cancel the user's own picture. */
  lemma PictureChoiceSubmitted(st: WizardState, url: string, userPic: Option<string>)
    requires st.step == 2
    ensures HandleNext(SavePicture(st, url)).1 == Submitted(Submission(st.selectedIds, st.name, Some(url)))
    ensures HandleNext(CancelPicture(st, userPic)).1 == Submitted(Submission(st.selectedIds, st.name, Some(OrDefault(userPic, ""))))
  {
  }

  /** The step-0 Next button is enabled only with at least three selected. */
  predicate NextEnabled(st: WizardState) {
    |st.selectedIds| >= 3
  }

  /** With the button enabled, step 0 always advances. */
  lemma EnabledNextAdvances(st: WizardState)
    requires st.step == 0 && NextEnabled(st)
    ensures HandleNext(st).0.step == 1 && HandleNext(st).1 == Advanced
  {
  }

  /** A grid tile click flips the playlist's id. */
  function ClickTile(st: WizardState, p: Item): (r: WizardState)
    ensures p.id in r.selectedIds <==> p.id !in st.selectedIds
    ensures r.playlists == st.playlists && r.step == st.step
  {
    st.(selectedIds := Toggle(st.selectedIds, p.id))
  }

  // ---------------------------------------------------------------------------
  // Search and sort; `localeCompare` is an abstract order `collate`
  // ---------------------------------------------------------------------------

  function NameKey(collate: string -> real): Item -> real {
    (p: Item) => collate(p.name)
  }

  /** The search box as written: it sorts and filters the list currently
      shown, so each search starts from the result of the previous one. */
  function SearchAsWritten(shown: seq<Item>, text: string, collate: string -> real): (r: seq<Item>)
    ensures multiset(r) <= multiset(shown)
    ensures forall p :: p in r <==> p in shown && Matches(p.name, text)
    ensures SortedBy(r, NameKey(collate))
  {
    var sorted := SortBy(shown, NameKey(collate));
    forall x ensures x in Filter(sorted, Matcher(text)) <==> x in shown && Matches(x.name, text) {
      FilterMembers(sorted, Matcher(text), x);
      assert x in sorted <==> x in multiset(shown);
    }
    FilterKeepsSorted(sorted, Matcher(text), NameKey(collate));
    Filter(sorted, Matcher(text))
  }

  function Matcher(text: string): Item -> bool {
    (p: Item) => Matches(p.name, text)
  }

  /** A playlist hidden by one search is never shown again, whatever is
      typed next: with names "rock" and "jazz", searching "rock" and then
      clearing the box leaves "jazz" out. */
  lemma SearchAsWrittenNeverWidens(collate: string -> real)
    ensures var rock := Item(Some("1"), None, "rock", 10);
      var jazz := Item(Some("2"), None, "jazz", 10);
      var afterClear := SearchAsWritten(SearchAsWritten([rock, jazz], "rock", collate), "", collate);
      jazz in [rock, jazz] && jazz !in afterClear
  {
    var rock := Item(Some("1"), None, "rock", 10);
    var jazz := Item(Some("2"), None, "jazz", 10);
    var first := SearchAsWritten([rock, jazz], "rock", collate);
    JazzDoesNotMatchRock();
    assert jazz !in first;
  }

  /** The search box as evidently intended: the same sort and filter, applied
      to the full eligible list rather than to the previous result, so the
      result depends only on the text typed. */
  function SearchCorrected(eligible: seq<Item>, text: string, collate: string -> real): (r: seq<Item>)
    ensures multiset(r) <= multiset(eligible)
    ensures forall p :: p in r <==> p in eligible && Matches(p.name, text)
    ensures SortedBy(r, NameKey(collate))
  {
    SearchAsWritten(eligible, text, collate)
  }

  /** Clearing the search box brings back every eligible playlist, whatever
      was searched before. */
  lemma ClearedSearchRestoresAll(eligible: seq<Item>, collate: string -> real)
    ensures multiset(SearchCorrected(eligible, "", collate)) == multiset(eligible)
  {
    var sorted := SortBy(eligible, NameKey(collate));
    forall i | 0 <= i < |sorted| ensures Matches(sorted[i].name, "") {
      ContainsEmpty(ToLower(sorted[i].name));
    }
    FilterAll(sorted, Matcher(""));
  }

  lemma JazzDoesNotMatchRock()
    ensures !Matches("jazz", "rock")
  {
    assert ToLower("jazz") == "jazz";
    assert ToLower("rock") == "rock";
    MissingCharNotContained("jazz", "rock", 0);
  }

  /** Filtering a sorted list keeps it sorted. */
  lemma {:induction false} FilterKeepsSorted<T>(s: seq<T>, p: T -> bool, key: T -> real)
    requires SortedBy(s, key)
    ensures SortedBy(Filter(s, p), key)
  {
    if s != [] {
      FilterKeepsSorted(s[1..], p, key);
      var rest := Filter(s[1..], p);
      if p(s[0]) {
        forall j | 0 <= j < |rest| ensures key(s[0]) <= key(rest[j]) {
          assert rest[j] in s[1..];
        }
      }
    }
  }

  /** The four entries of the sort menu, `"name:asc"` to `"tracks:desc"`. */
  datatype SortOption = NameAsc | NameDesc | TracksAsc | TracksDesc

  /** The sort menu: the list reordered by name or track count. */
  function SortShown(shown: seq<Item>, option: SortOption, collate: string -> real): (r: seq<Item>)
    ensures multiset(r) == multiset(shown)
    ensures option == NameAsc ==> SortedBy(r, NameKey(collate))
    ensures option == NameDesc ==> SortedDescBy(r, NameKey(collate))
    ensures option == TracksAsc ==> SortedBy(r, TracksKey)
    ensures option == TracksDesc ==> SortedDescBy(r, TracksKey)
  {
    match option
    case NameAsc => SortBy(shown, NameKey(collate))
    case NameDesc => SortDescBy(shown, NameKey(collate))
    case TracksAsc => ByTracksAsc(shown)
    case TracksDesc => ByTracksDesc(shown)
  }
}

/** `src/components/steps/NameEditor.jsx`: the wizard step that confirms or
    changes the display name.
 */
module NameEditor {
  import opened Wrappers
  import opened Strings
  import opened Selection

  /** `onboardData.display_name || user?.display_name || ""`; `userName` is
      absent when there is no user or the user has no name. */
  function InitialName(onboardName: Option<string>, userName: Option<string>): (r: string)
    ensures Truthy(onboardName) ==> r == onboardName.value
    ensures !Truthy(onboardName) && Truthy(userName) ==> r == userName.value
    ensures !Truthy(onboardName) && !Truthy(userName) ==> r == ""
  {
    OrDefault(OrElse(onboardName, userName), "")
  }

  /** The wizard may proceed iff the trimmed name is non-empty. */
  function CanProceed(name: string): (b: bool)
    ensures b <==> exists k :: 0 <= k < |name| && !IsSpace(name[k])
  {
    TrimEmptyIff(name);
    Trim(name) != ""
  }

  /** `handleChange`: the field and the wizard record take the same new
      value; nothing else in the record changes. */
  function HandleChange(onboard: OnboardData, newName: string): (r: (string, OnboardData))
    ensures r.0 == newName && r.1.display_name == Some(newName)
    ensures r.1.selected_playlists == onboard.selected_playlists
    ensures r.1.featured_playlists == onboard.featured_playlists
  {
    (newName, onboard.(display_name := Some(newName)))
  }

  /** A non-empty name typed here is what the step shows when it is opened
      again. */
  lemma ChangeThenReopen(onboard: OnboardData, newName: string, userName: Option<string>)
    requires newName != ""
    ensures InitialName(HandleChange(onboard, newName).1.display_name, userName) == newName
  {
  }

  /** The heading: the user's name, or `"friend"`. */
  function Heading(userName: Option<string>): (r: string)
    ensures r != ""
    ensures Truthy(userName) ==> r == userName.value
  {
    OrDefault(userName, "friend")
  }
}

=== FILE: public.dfy ===
/** `src/pages/public.jsx`: a user's public profile page. It loads the
    profile and the genre map together and shows a loading view until the
    profile is set.
 */
module PublicProfile {
  import opened Wrappers
  import opened GenreMaps
  import RecentlyPlayed

  /** The profile fields read. `last_played_track` is kept as the card's
      payload shape: the field itself and its own nested `track`. */
  datatype Profile = Profile(
    user_id: Option<string>,
    display_name: Option<string>,
    last_played_track: RecentlyPlayed.RecentPayload)

  datatype PageState = PageState(profile: Option<Profile>, genreMap: map<string, string>)

  function InitialPage(): (st: PageState)
    ensures st.profile.None? && st.genreMap == map[]
  {
    PageState(None, map[])
  }

  /** `load()`: both requests run together; the page changes only when both
      succeed. */
  function Load(st: PageState, profile: FetchOutcome<Profile>, genreMap: FetchOutcome<seq<(string, string)>>): (r: PageState)
    ensures profile.Fetched? && genreMap.Fetched? ==>
      r.profile == Some(profile.data) && r.genreMap == NormalizeGenreMap(genreMap.data)
    ensures profile.FetchFailed? || genreMap.FetchFailed? ==> r == st
  {
    if profile.Fetched? && genreMap.Fetched? then PageState(Some(profile.data), NormalizeGenreMap(genreMap.data))
    else st
  }

  /** What the page renders. `cardTrack` is the value written as the recent
      card's `track` attribute, and the card is rendered exactly when it is
      present. The card component declares no props: it loads and shows the
      viewer's own track, so this value decides only whether the card
      appears, not what it shows. */
  datatype View =
    | Loading
    | Shown(heading: string, cardTrack: Option<RecentlyPlayed.Track>)

  /** The heading: the display name, or `/u/<user_id>`. */
  function Heading(p: Profile): (r: string)
    ensures Truthy(p.display_name) ==> r == p.display_name.value
    ensures !Truthy(p.display_name) ==> r == "/u/" + Interpolated(p.user_id)
  {
    OrDefault(p.display_name, "/u/" + Interpolated(p.user_id))
  }

  /** The page: loading until a profile is set; then the heading and, when the
      profile has a `last_played_track`, the card with
      `last_played_track?.track || last_played_track` as its `track` value. */
  function Render(st: PageState): (v: View)
    ensures st.profile.None? <==> v.Loading?
    ensures st.profile.Some? ==> v.heading == Heading(st.profile.value)
    ensures st.profile.Some? ==> v.cardTrack == RecentlyPlayed.UnwrapRecent(st.profile.value.last_played_track)
    ensures st.profile.Some? ==> (v.cardTrack.Some? <==> st.profile.value.last_played_track.track.Some?)
  {
    if st.profile.None? then Loading
    else Shown(Heading(st.profile.value), RecentlyPlayed.UnwrapRecent(st.profile.value.last_played_track))
  }

  /** A failed load leaves the page loading; a successful one shows it. */
  lemma LoadingUntilBothArrive(profile: FetchOutcome<Profile>, genreMap: FetchOutcome<seq<(string, string)>>)
    ensures Render(Load(InitialPage(), profile, genreMap)).Loading? <==> profile.FetchFailed? || genreMap.FetchFailed?
  {
  }

  /** A nameless profile is headed by its address, and the heading is never
      empty. */
  lemma HeadingNeverEmpty(p: Profile)
    ensures Heading(p) != ""
    ensures !Truthy(p.display_name) && p.user_id.Some? ==> Heading(p) == "/u/" + p.user_id.value
  {
  }

  /** The value passed as the card's `track` is the inner track when the field
      wraps one, else the field itself. */
  lemma TrackUnwrapped(p: Profile, outer: RecentlyPlayed.Track, inner: RecentlyPlayed.Track)
    ensures Render(PageState(Some(p.(last_played_track := RecentlyPlayed.RecentPayload(Some(outer), Some(inner)))), map[])).cardTrack == Some(inner)
    ensures Render(PageState(Some(p.(last_played_track := RecentlyPlayed.RecentPayload(Some(outer), None))), map[])).cardTrack == Some(outer)
  {
  }
}

=== FILE: recently_played.dfy ===
/** `src/components/RecentlyPlayedCard.jsx`: the track-name clean-up, the
    freshness label, and the decisions of the initial fetch and the refresh.
    Requests are outcome parameters; the clock is a millisecond timestamp
    parameter.
 */
module TrackPatterns {
  import opened Wrappers
  import opened Strings

  // ---------------------------------------------------------------------------
  // A matcher for the eight clean-up patterns
  // ---------------------------------------------------------------------------

  /** One element of a case-insensitive pattern. Literals are stored
      lower-case. */
  datatype Atom =
    | Spaces                              // \s*
    | DashChar                            // [-–]
    | FourDigits                          // \d{4}
    | Lit(word: string)                   // the word itself
    | Optional(word: string)              // (word)?
    | OptionalEither(a: string, b: string) // (a|b)?

  type Pattern = seq<Atom>

  /** `word` occurs at `i`, ignoring the case of ASCII letters (the `i` flag). */
  predicate LitAt(text: string, word: string, i: nat) {
    i + |word| <= |text| && forall k :: 0 <= k < |word| ==> LowerChar(text[i + k]) == word[k]
  }

  /** Where one atom ends when it starts at `i`; atoms are greedy. */
  function MatchAtom(text: string, a: Atom, i: nat): (r: Option<nat>)
    requires i <= |text|
    ensures r.Some? ==> i <= r.value <= |text|
  {
    match a
    case Spaces => Some(i + LeadingSpaces(text[i..]))
    case DashChar => if i < |text| && (text[i] == '-' || text[i] == '–') then Some(i + 1) else None
    case FourDigits =>
      if i + 4 <= |text| && IsDigit(text[i]) && IsDigit(text[i + 1]) && IsDigit(text[i + 2]) && IsDigit(text[i + 3])
      then Some(i + 4) else None
    case Lit(w) => if LitAt(text, w, i) then Some(i + |w|) else None
    case Optional(w) => if LitAt(text, w, i) then Some(i + |w|) else Some(i)
    case OptionalEither(x, y) =>
      if LitAt(text, x, i) then Some(i + |x|) else if LitAt(text, y, i) then Some(i + |y|) else Some(i)
  }

  /** Where the whole pattern ends when it starts at `i`. Every `\s*` in the
      patterns is followed by an atom that cannot start with white space, and
      every optional group by one that fails on the group's first character,
      so greedy matching finds exactly the regular expression's match. */
  function MatchFrom(text: string, pat: Pattern, i: nat): (r: Option<nat>)
    requires i <= |text|
    ensures r.Some? ==> i <= r.value <= |text|
    decreases |pat|
  {
    if pat == [] then Some(i)
    else
      var j := MatchAtom(text, pat[0], i);
      if j.None? then None else MatchFrom(text, pat[1..], j.value)
  }

  /** The leftmost match at or after `from`, as start and end. */
  function FindMatch(text: string, pat: Pattern, from: nat): (r: Option<(nat, nat)>)
    requires from <= |text|
    ensures r.Some? ==> from <= r.value.0 <= r.value.1 <= |text| && MatchFrom(text, pat, r.value.0) == Some(r.value.1)
    ensures r.Some? ==> forall j :: from <= j < r.value.0 ==> MatchFrom(text, pat, j).None?
    ensures r.None? ==> forall j :: from <= j <= |text| ==> MatchFrom(text, pat, j).None?
    decreases |text| - from
  {
    var m := MatchFrom(text, pat, from);
    if m.Some? then Some((from, m.value))
    else if from == |text| then None
    else FindMatch(text, pat, from + 1)
  }

  /** `text.replace(pattern, '')` with a non-global pattern: only the leftmost
      match is removed. */
  function ReplaceFirst(text: string, pat: Pattern): (r: string)
    ensures FindMatch(text, pat, 0).None? ==> r == text
    ensures FindMatch(text, pat, 0).Some? ==>
      var (s, e) := FindMatch(text, pat, 0).value;
      r == text[..s] + text[e..]
    ensures |r| <= |text|
  {
    var m := FindMatch(text, pat, 0);
    if m.None? then text else text[..m.value.0] + text[m.value.1..]
  }

  lemma FindMatchSkips(text: string, pat: Pattern, from: nat)
    requires from < |text| && MatchFrom(text, pat, from).None?
    ensures FindMatch(text, pat, from) == FindMatch(text, pat, from + 1)
  {
  }

  lemma FindMatchHere(text: string, pat: Pattern, from: nat, end: nat)
    requires from <= |text| && MatchFrom(text, pat, from) == Some(end)
    ensures FindMatch(text, pat, from) == Some((from, end))
  {
  }

  lemma ReplaceFirstCuts(text: string, pat: Pattern, start: nat, end: nat)
    requires FindMatch(text, pat, 0) == Some((start, end))
    ensures start <= end <= |text| && ReplaceFirst(text, pat) == text[..start] + text[end..]
  {
  }

  const P1: Pattern := [Spaces, DashChar, Spaces, FourDigits, Spaces, Lit("remaster"), Optional("ed")]
  const P2: Pattern := [Spaces, DashChar, Spaces, Lit("remaster"), Optional("ed"), Optional(" version")]
  const P3: Pattern := [Spaces, Lit("("), Spaces, FourDigits, Spaces, Lit("remaster"), Spaces, Lit(")")]
  const P4: Pattern := [Spaces, Lit("("), Spaces, Lit("remaster"), Optional("ed"), Spaces, Lit(")")]
  const P5: Pattern := [Spaces, Lit("["), Spaces, FourDigits, Spaces, Lit("remaster"), Spaces, Lit("]")]
  const P6: Pattern := [Spaces, DashChar, Spaces, Lit("single"), OptionalEither(" version", " edit")]
  const P7: Pattern := [Spaces, Lit("("), Spaces, Lit("single"), OptionalEither(" version", " edit"), Spaces, Lit(")")]
  const P8: Pattern := [Spaces, DashChar, Spaces, Lit("single;"), Spaces, FourDigits, Spaces, Lit("remaster")]

  /** The eight removals, in the order `cleanTrackName` chains them. */
  function RemoveSuffixes(name: string): (r: string)
    ensures |r| <= |name|
  {
    var s1 := ReplaceFirst(name, P1);
    var s2 := ReplaceFirst(s1, P2);
    var s3 := ReplaceFirst(s2, P3);
    var s4 := ReplaceFirst(s3, P4);
    var s5 := ReplaceFirst(s4, P5);
    var s6 := ReplaceFirst(s5, P6);
    var s7 := ReplaceFirst(s6, P7);
    ReplaceFirst(s7, P8)
  }

  /** `cleanTrackName(name)`: the eight removals, then `trim`. */
  function CleanTrackName(name: string): (r: string)
    ensures IsTrimmed(r)
    ensures |r| <= |name|
  {
    var removed := RemoveSuffixes(name);
    var r := Trim(removed);
    assert |r| <= |removed|;
    r
  }

  // ---------------------------------------------------------------------------
  // Names without the keywords are only trimmed
  // ---------------------------------------------------------------------------

  /** A match of a pattern containing the literal `w` puts `w`, case-folded,
      into the text. */
  lemma {:induction false} MatchShowsLiteral(text: string, pat: Pattern, i: nat, w: string)
    requires i <= |text| && MatchFrom(text, pat, i).Some? && Lit(w) in pat
    ensures Contains(ToLower(text), w)
  {
    var j := MatchAtom(text, pat[0], i);
    if pat[0] == Lit(w) {
      var t := ToLower(text);
      assert t[i..i + |w|] == w;
      assert OccursAt(t, w, i);
      ContainsIffOccurs(t, w);
    } else {
      assert Lit(w) in pat[1..];
      MatchShowsLiteral(text, pat[1..], j.value, w);
    }
  }

  predicate KeywordFree(name: string) {
    !Contains(ToLower(name), "remaster") && !Contains(ToLower(name), "single")
  }

  /** A pattern demanding a word the text lacks leaves the text alone. */
  lemma AbsentLiteralNoMatch(text: string, pat: Pattern, w: string)
    requires Lit(w) in pat && !Contains(ToLower(text), w)
    ensures ReplaceFirst(text, pat) == text
  {
    var m := FindMatch(text, pat, 0);
    if m.Some? {
      MatchShowsLiteral(text, pat, m.value.0, w);
    }
  }

  /** Text without "remaster" passes the six patterns that demand it. */
  lemma RemasterPatternsSkip(text: string)
    requires !Contains(ToLower(text), "remaster")
    ensures ReplaceFirst(text, P1) == text && ReplaceFirst(text, P2) == text
    ensures ReplaceFirst(text, P3) == text && ReplaceFirst(text, P4) == text
    ensures ReplaceFirst(text, P5) == text && ReplaceFirst(text, P8) == text
  {
    assert P1[5] == Lit("remaster") && P2[3] == Lit("remaster") && P3[5] == Lit("remaster");
    assert P4[3] == Lit("remaster") && P5[5] == Lit("remaster") && P8[7] == Lit("remaster");
    AbsentLiteralNoMatch(text, P1, "remaster");
    AbsentLiteralNoMatch(text, P2, "remaster");
    AbsentLiteralNoMatch(text, P3, "remaster");
    AbsentLiteralNoMatch(text, P4, "remaster");
    AbsentLiteralNoMatch(text, P5, "remaster");
    AbsentLiteralNoMatch(text, P8, "remaster");
  }

  lemma SingleMatchedAfterA()
    ensures ReplaceFirst("A - Single", P6) == "A"
  {
    var t := "A - Single";
    SingleNoMatchAtStart();
    SingleMatchAfterA();
    FindMatchSkips(t, P6, 0);
    FindMatchHere(t, P6, 1, 10);
    ReplaceFirstCuts(t, P6, 1, 10);
    CutSingle();
  }

  lemma CutSingle()
    ensures "A - Single"[..1] + "A - Single"[10..] == "A"
  {
    var t := "A - Single";
    assert t[..1] == "A" && t[10..] == "";
  }

  lemma SingleNoMatchAtStart()
    ensures MatchFrom("A - Single", P6, 0).None?
  {
    var t := "A - Single";
    assert MatchAtom(t, Spaces, 0) == Some(0) by {
      assert !IsSpace(t[0..][0]);
    }
    assert MatchAtom(t, DashChar, 0).None?;
    assert P6[1..][0] == DashChar;
  }

  lemma SingleMatchAfterA()
    ensures MatchFrom("A - Single", P6, 1) == Some(10)
  {
    var t := "A - Single";
    DashAfterA();
    assert P6[0] == Spaces && P6[1..][0] == DashChar && P6[1..][1..][0] == Spaces;
    assert P6[1..][1..][1..] == P6[3..];
    SingleWordAt4();
  }

  lemma DashAfterA()
    ensures MatchAtom("A - Single", Spaces, 1) == Some(2)
    ensures MatchAtom("A - Single", DashChar, 2) == Some(3)
    ensures MatchAtom("A - Single", Spaces, 3) == Some(4)
  {
    var t := "A - Single";
    assert IsSpace(t[1..][0]) && !IsSpace(t[1..][1]);
    assert IsSpace(t[3..][0]) && !IsSpace(t[3..][1]);
  }

  lemma SingleWordAt4()
    ensures MatchFrom("A - Single", P6[3..], 4) == Some(10)
  {
    var t := "A - Single";
    var rest := P6[3..];
    assert rest == [Lit("single"), OptionalEither(" version", " edit")];
    assert LitAt(t, "single", 4);
    assert MatchAtom(t, rest[0], 4) == Some(10);
    assert MatchAtom(t, rest[1..][0], 10) == Some(10);
    assert rest[1..][1..] == [];
    assert MatchFrom(t, rest[1..][1..], 10) == Some(10);
    assert MatchFrom(t, rest[1..], 10) == Some(10);
  }

  lemma PlainADropsNothing()
    ensures ReplaceFirst("A", P7) == "A" && ReplaceFirst("A", P8) == "A"
    ensures Trim("A") == "A"
  {
    assert ToLower("A") == "a";
    MissingCharNotContained("a", "single", 0);
    MissingCharNotContained("a", "remaster", 0);
    RemasterPatternsSkip("A");
    SinglePatternsSkip("A");
    TrimOfTrimmed("A");
  }

  lemma SingleTitleSkipsRemasters()
    ensures var t := "A - Single";
      ReplaceFirst(t, P1) == t && ReplaceFirst(t, P2) == t && ReplaceFirst(t, P3) == t
      && ReplaceFirst(t, P4) == t && ReplaceFirst(t, P5) == t
  {
    SingleTitleLacksRemaster();
    RemasterPatternsSkip("A - Single");
  }

  lemma SingleTitleLacksRemaster()
    ensures !Contains(ToLower("A - Single"), "remaster")
  {
    var t := ToLower("A - Single");
    forall j | 0 <= j < |t| ensures t[j] != 'r' {
      assert t[j] == LowerChar("A - Single"[j]);
    }
    MissingCharNotContained(t, "remaster", 0);
  }

  /** The single suffix is removed: `"A - Single"` becomes `"A"`. */
  lemma SingleSuffixRemoved()
    ensures CleanTrackName("A - Single") == "A"
  {
    SingleTitleSkipsRemasters();
    SingleMatchedAfterA();
    PlainADropsNothing();
    SixthRemovalOnly("A - Single", "A");
  }

  /** A name mentioning neither "remaster" nor "single", in any case, comes
      back only trimmed: every pattern demands one of the two words. */
  lemma KeywordFreeNamesOnlyTrimmed(name: string)
    requires KeywordFree(name)
    ensures CleanTrackName(name) == Trim(name)
  {
    RemasterPatternsSkip(name);
    SinglePatternsSkip(name);
    RemoveSuffixesUnchanged(name);
  }

  /** Text without "single" passes the two patterns that demand it. */
  lemma SinglePatternsSkip(text: string)
    requires !Contains(ToLower(text), "single")
    ensures ReplaceFirst(text, P6) == text && ReplaceFirst(text, P7) == text
  {
    assert P6[3] == Lit("single") && P7[3] == Lit("single");
    AbsentLiteralNoMatch(text, P6, "single");
    AbsentLiteralNoMatch(text, P7, "single");
  }

  lemma SixthRemovalOnly(text: string, u: string)
    requires ReplaceFirst(text, P1) == text && ReplaceFirst(text, P2) == text
    requires ReplaceFirst(text, P3) == text && ReplaceFirst(text, P4) == text
    requires ReplaceFirst(text, P5) == text && ReplaceFirst(text, P6) == u
    requires ReplaceFirst(u, P7) == u && ReplaceFirst(u, P8) == u
    ensures RemoveSuffixes(text) == u
  {
  }

  lemma RemoveSuffixesUnchanged(text: string)
    requires ReplaceFirst(text, P1) == text && ReplaceFirst(text, P2) == text
    requires ReplaceFirst(text, P3) == text && ReplaceFirst(text, P4) == text
    requires ReplaceFirst(text, P5) == text && ReplaceFirst(text, P6) == text
    requires ReplaceFirst(text, P7) == text && ReplaceFirst(text, P8) == text
    ensures RemoveSuffixes(text) == text
  {
  }

  /** A trimmed name without the keywords is returned as it is. */
  lemma CleanNameIsIdentityOnPlainNames(name: string)
    requires KeywordFree(name) && IsTrimmed(name)
    ensures CleanTrackName(name) == name
  {
    KeywordFreeNamesOnlyTrimmed(name);
    TrimOfTrimmed(name);
  }
}

module RecentlyPlayed {
  import opened Wrappers
  import opened Strings
  import GenreUtils

  // ---------------------------------------------------------------------------
  // Freshness text
  // ---------------------------------------------------------------------------

  const MsPerMinute: int := 60000

  /** `getFreshnessLabel(date)` at time `now`, both in milliseconds; `None` is a
      missing date. `Math.floor` of the quotient is Dafny's division by a
      positive divisor. */
  function FreshnessLabel(date: Option<int>, now: int): (r: Option<string>)
    ensures date.None? <==> r.None?
    ensures date.Some? && now - date.value < MsPerMinute ==> r == Some("just now")
    ensures date.Some? && now - date.value >= MsPerMinute ==>
      r == Some(NatToString((now - date.value) / MsPerMinute) + "m ago")
  {
    if date.None? then None
    else
      var diffMin := (now - date.value) / MsPerMinute;
      if diffMin < 1 then Some("just now")
      else if diffMin == 1 then assert NatToString(1) + "m ago" == "1m ago"; Some("1m ago")
      else Some(NatToString(diffMin) + "m ago")
  }

  /** Reading a text back: the minutes it shows, 0 for "just now". */
  function LabelMinutes(text: string): nat {
    if text == "just now" || |text| < 5 then 0
    else
      var digits := text[..|text| - 5];
      if forall k :: 0 <= k < |digits| ==> IsDigit(digits[k]) then ParseNat(digits) else 0
  }

  /** The text shows the whole minutes elapsed: reading it back gives
      `floor(diff / 60000)`, and 0 for a date in the future or under a minute
      old. */
  lemma LabelShowsElapsedMinutes(date: int, now: int)
    ensures var text := FreshnessLabel(Some(date), now).value;
      LabelMinutes(text) == if now - date < MsPerMinute then 0 else (now - date) / MsPerMinute
  {
    var text := FreshnessLabel(Some(date), now).value;
    if now - date >= MsPerMinute {
      var n := (now - date) / MsPerMinute;
      var digits := NatToString(n);
      assert text == digits + "m ago";
      assert text[..|text| - 5] == digits;
      assert text != "just now" by {
        assert text[|text| - 1] == 'o';
      }
      ParseNatToString(n);
    }
  }

  /** Future dates read "just now". */
  lemma FutureIsJustNow(date: int, now: int)
    requires date > now
    ensures FreshnessLabel(Some(date), now) == Some("just now")
  {
  }

  // ---------------------------------------------------------------------------
  // Initial fetch and refresh
  // ---------------------------------------------------------------------------

  /** A track object; tracks are compared by their `id` field. */
  datatype Track = Track(id: Option<string>, name: string)

  datatype CardState = CardState(track: Option<Track>, lastUpdated: Option<int>, refreshing: bool)

  /** The `/check-recent` response: its `track`, and that track's own nested
      `track` field when it is a wrapper. */
  datatype RecentPayload = RecentPayload(track: Option<Track>, nested: Option<Track>)

  /** `recent.track?.track || recent.track`. */
  function UnwrapRecent(p: RecentPayload): (r: Option<Track>)
    ensures p.track.None? ==> r.None?
    ensures p.track.Some? && p.nested.Some? ==> r == p.nested
    ensures p.nested.None? ==> r == p.track
  {
    if p.track.Some? && p.nested.Some? then p.nested else p.track
  }

  /** `updateTrack(t)` at time `now`. */
  function UpdateTrack(st: CardState, t: Track, now: int): CardState {
    st.(track := Some(t), lastUpdated := Some(now))
  }

  /** `refresh()`: the state afterwards and whether `/update-playing` was
      posted. A failed request ends the refresh without change. */
  function Refresh(st: CardState, nowPlaying: FetchOutcome<Option<Track>>,
                   recent: FetchOutcome<RecentPayload>, now: int): (r: (CardState, bool))
    ensures !r.0.refreshing
    ensures r.1 <==> (nowPlaying.Fetched? && nowPlaying.data.Some? && recent.Fetched?
      && (UnwrapRecent(recent.data).None? || nowPlaying.data.value.id != UnwrapRecent(recent.data).value.id))
    ensures r.1 ==> r.0.track == nowPlaying.data && r.0.lastUpdated == Some(now)
    ensures !r.1 ==> r.0 == st.(refreshing := false)
  {
    var done := st.(refreshing := false);
    if nowPlaying.FetchFailed? || nowPlaying.data.None? || recent.FetchFailed? then (done, false)
    else
      var nowTrack := nowPlaying.data.value;
      var recentTrack := UnwrapRecent(recent.data);
      if recentTrack.None? || nowTrack.id != recentTrack.value.id then (UpdateTrack(done, nowTrack, now), true)
      else (done, false)
  }

  /** A refresh that sees the same track id as the stored recent one changes
      nothing, so repeated polls of an unchanged player are idle. */
  lemma RefreshIdleOnSameTrack(st: CardState, t: Track, stored: Track, now: int)
    requires t.id == stored.id
    ensures Refresh(st, Fetched(Some(t)), Fetched(RecentPayload(Some(stored), None)), now)
      == (st.(refreshing := false), false)
  {
  }

  /** `fetchInitial()`: the first track available among `/me`'s
      `last_played_track`, now-playing and recently-played; and whether
      `/update-playing` was posted. A failed request stops the chain. */
  function FetchInitial(st: CardState, me: FetchOutcome<Option<Track>>, nowPlaying: FetchOutcome<Option<Track>>,
                        recent: FetchOutcome<Option<Track>>, now: int): (r: (CardState, bool))
    ensures me.Fetched? && me.data.Some? ==> r == (UpdateTrack(st, me.data.value, now), false)
    ensures me.Fetched? && me.data.None? && nowPlaying.Fetched? && nowPlaying.data.Some? ==>
      r == (UpdateTrack(st, nowPlaying.data.value, now), true)
    ensures (me.Fetched? && me.data.None? && nowPlaying.Fetched? && nowPlaying.data.None?
      && recent.Fetched? && recent.data.Some?) ==> r == (UpdateTrack(st, recent.data.value, now), true)
    ensures r.1 ==> me.Fetched? && me.data.None?
    ensures r.0 != st ==> r.0.lastUpdated == Some(now)
    ensures me.FetchFailed? ==> r == (st, false)
  {
    if me.FetchFailed? then (st, false)
    else if me.data.Some? then (UpdateTrack(st, me.data.value, now), false)
    else if nowPlaying.FetchFailed? then (st, false)
    else if nowPlaying.data.Some? then (UpdateTrack(st, nowPlaying.data.value, now), true)
    else if recent.FetchFailed? then (st, false)
    else if recent.data.Some? then (UpdateTrack(st, recent.data.value, now), true)
    else (st, false)
  }

  // ---------------------------------------------------------------------------
  // Genre badge
  // ---------------------------------------------------------------------------

  /** The badge under the artist: its text and its `background` style, `None`
      when the gradient table has no entry for the meta-genre (`undefined`). */
  datatype Badge = Badge(text: string, background: Option<string>)

  /** The badge is shown only when the track lists a genre and the gradient
      table has arrived; it names the first genre and is painted with the
      gradient of that genre's meta-genre. */
  function GenreBadge(genres: Option<seq<string>>, gradients: Option<GenreUtils.Gradients>): (r: Option<Badge>)
    ensures r.Some? <==> genres.Some? && |genres.value| > 0 && gradients.Some?
    ensures r.Some? ==> r.value.text == genres.value[0]
    ensures r.Some? ==> (r.value.background.Some? <==> GenreUtils.GetMetaGenre(genres.value[0]) in gradients.value)
    ensures r.Some? && r.value.background.Some? ==> r.value.background.value in gradients.value.Values
  {
    if genres.Some? && |genres.value| > 0 && gradients.Some? then
      Some(Badge(genres.value[0], Lookup(gradients.value, GenreUtils.GetMetaGenre(genres.value[0]))))
    else None
  }

  /** Genres of one meta-genre share a badge colour; later genres in the list
      play no part. */
  lemma BadgeFollowsMetaGenre(g1: string, rest1: seq<string>, g2: string, rest2: seq<string>, gradients: GenreUtils.Gradients)
    requires GenreUtils.GetMetaGenre(g1) == GenreUtils.GetMetaGenre(g2)
    ensures GenreBadge(Some([g1] + rest1), Some(gradients)).value.background
         == GenreBadge(Some([g2] + rest2), Some(gradients)).value.background
  {
  }

  /** A "pop rock" track wears the rock gradient. */
  lemma PopRockBadge(gradients: GenreUtils.Gradients)
    ensures GenreBadge(Some(["pop rock"]), Some(gradients)).value.background == Lookup(gradients, "rock")
  {
    GenreUtils.PopRockIsRock();
  }

  /** A failed gradient request resolves to an empty table, which is still
      truthy: the badge is shown, unpainted. */
  lemma FailedGradientsLeaveBadgeBare(genres: seq<string>)
    requires |genres| > 0
    ensures var table := GenreUtils.GetMetaGradients(None, FetchFailed).result;
      GenreBadge(Some(genres), Some(table)) == Some(Badge(genres[0], None))
  {
  }
}

=== FILE: selection.dfy ===
/** Playlist selection building blocks shared by the settings modals and the
    onboarding steps: the playlist items the backend lists, id selections
    with and without a cap, select-all, search and sort.
 */
module Selection {
  import opened Wrappers
  import opened Strings
  import opened Seqs

  /** A playlist as the backend lists it. Either id field may be missing; the
      track count is a number. */
  datatype Item = Item(id: Option<string>, playlist_id: Option<string>, name: string, tracks: int)

  /** A selected id: the value of an `id` field, which may be missing. */
  type Key = Option<string>

  /** The onboarding wizard's shared record, with the fields the steps read
      and write. */
  datatype OnboardData = OnboardData(
    selected_playlists: Option<seq<Item>>,
    featured_playlists: seq<Item>,
    display_name: Option<string>)

  // ---------------------------------------------------------------------------
  // Toggles
  // ---------------------------------------------------------------------------

  /** `prev.includes(id) ? prev.filter(i => i !== id) : [...prev, id]`. */
  function Toggle<T(==)>(sel: seq<T>, id: T): (r: seq<T>)
    ensures id in r <==> id !in sel
    ensures forall y :: y in r && y != id ==> y in sel
    ensures forall y :: y in sel && y != id ==> y in r
    ensures id !in sel ==> r == sel + [id]
  {
    if id in sel then RemoveAll(sel, id) else sel + [id]
  }

  /** Toggling twice from unselected gives back the selection exactly;
      from selected it gives back the same set of ids. */
  lemma ToggleTwice<T>(sel: seq<T>, id: T)
    ensures id !in sel ==> Toggle(Toggle(sel, id), id) == sel
    ensures forall y :: y in Toggle(Toggle(sel, id), id) <==> y in sel
  {
    if id !in sel {
      RemoveAppended(sel, id);
    }
  }

  lemma {:induction false} RemoveAppended<T>(sel: seq<T>, id: T)
    requires id !in sel
    ensures RemoveAll(sel + [id], id) == sel
  {
    if sel == [] {
      assert [] + [id] == [id];
    } else {
      RemoveAppended(sel[1..], id);
      assert (sel + [id])[1..] == sel[1..] + [id];
    }
  }

  lemma ToggleNoDup<T>(sel: seq<T>, id: T)
    requires NoDup(sel)
    ensures NoDup(Toggle(sel, id))
  {
    if id in sel {
      RemoveAllNoDup(sel, id);
    }
  }

  /** The capped toggle of the featured pickers: a selected id is removed; an
      unselected one is appended only while fewer than `cap` are selected. */
  function ToggleCapped<T(==)>(sel: seq<T>, id: T, cap: nat): (r: seq<T>)
    ensures id in sel ==> id !in r
    ensures id in sel ==> forall y :: y in sel && y != id ==> y in r
    ensures id in sel ==> IsSubsequence(r, sel)
    ensures forall y :: y in r ==> y in sel || y == id
    ensures id !in sel && |sel| < cap ==> r == sel + [id]
    ensures id !in sel && |sel| >= cap ==> r == sel
  {
    if id in sel then RemoveAll(sel, id)
    else if |sel| < cap then sel + [id]
    else sel
  }

  /** The capped toggle keeps a duplicate-free selection duplicate-free and
      never lets it grow past the cap. */
  lemma ToggleCappedInvariant<T>(sel: seq<T>, id: T, cap: nat)
    ensures NoDup(sel) && |sel| <= cap ==>
      NoDup(ToggleCapped(sel, id, cap)) && |ToggleCapped(sel, id, cap)| <= cap
  {
    if id in sel && NoDup(sel) {
      RemoveAllNoDup(sel, id);
    }
  }

  /** Toggle-all: clear when every listed id count is matched, otherwise
      select every listed id in list order. */
  function ToggleAll<T>(sel: seq<T>, ids: seq<T>): (r: seq<T>)
    ensures |sel| == |ids| ==> r == []
    ensures |sel| != |ids| ==> r == ids
  {
    if |sel| == |ids| then [] else ids
  }

  // ---------------------------------------------------------------------------
  // Keys, filtering by selection, search and sort
  // ---------------------------------------------------------------------------

  function Ids(items: seq<Item>): (r: seq<Key>)
    ensures |r| == |items|
    ensures forall i :: 0 <= i < |items| ==> r[i] == items[i].id
  {
    if items == [] then [] else [items[0].id] + Ids(items[1..])
  }

  /** `items.filter(p => sel.includes(p.id))`. */
  function SelectedById(items: seq<Item>, sel: seq<Key>): (r: seq<Item>)
    ensures forall i :: 0 <= i < |r| ==> r[i].id in sel
    ensures forall i :: 0 <= i < |items| && items[i].id in sel ==> items[i] in r
    ensures forall x :: x in r ==> x in items
    ensures IsSubsequence(r, items)
  {
    Filter(items, (p: Item) => p.id in sel)
  }

  /** Case-insensitive substring match of a name against the search text. */
  predicate Matches(name: string, search: string) {
    Contains(ToLower(name), ToLower(search))
  }

  /** `items.filter(p => p.name.toLowerCase().includes(search.toLowerCase()))`. */
  function Search(items: seq<Item>, search: string): (r: seq<Item>)
    ensures forall i :: 0 <= i < |r| ==> Matches(r[i].name, search)
    ensures forall i :: 0 <= i < |items| && Matches(items[i].name, search) ==> items[i] in r
    ensures forall x :: x in r ==> x in items
    ensures IsSubsequence(r, items)
  {
    Filter(items, (p: Item) => Matches(p.name, search))
  }

  /** The empty search text shows everything. */
  lemma EmptySearchKeepsAll(items: seq<Item>)
    ensures Search(items, "") == items
  {
    forall i | 0 <= i < |items| ensures Matches(items[i].name, "") {
      ContainsEmpty(ToLower(items[i].name));
    }
    FilterAll(items, (p: Item) => Matches(p.name, ""));
  }

  function TracksKey(p: Item): real {
    p.tracks as real
  }

  /** `sort((a, b) => b.tracks - a.tracks)`. */
  function ByTracksDesc(items: seq<Item>): (r: seq<Item>)
    ensures multiset(r) == multiset(items)
    ensures SortedDescBy(r, TracksKey)
  {
    SortDescBy(items, TracksKey)
  }

  /** `sort((a, b) => a.tracks - b.tracks)`. */
  function ByTracksAsc(items: seq<Item>): (r: seq<Item>)
    ensures multiset(r) == multiset(items)
    ensures SortedBy(r, TracksKey)
  {
    SortBy(items, TracksKey)
  }
}

=== FILE: seqs.dfy ===
/** Sequence operations the application performs on JavaScript arrays:
    `filter`, `slice(0, n)`, `includes`, a numeric `reduce`, and the stable
    `Array.prototype.sort` with a numeric comparator.
 */
module Seqs {

  // ---------------------------------------------------------------------------
  // Subsequences and filter
  // ---------------------------------------------------------------------------

  /** `a` can be obtained from `b` by deleting elements: order is preserved. */
  ghost predicate IsSubsequence<T>(a: seq<T>, b: seq<T>)
    decreases |b|
  {
    a == [] ||
    (b != [] && ((a[0] == b[0] && IsSubsequence(a[1..], b[1..])) || IsSubsequence(a, b[1..])))
  }

  /** JavaScript `s.filter(p)`: the elements satisfying `p`, in their order. */
  function Filter<T>(s: seq<T>, p: T -> bool): (r: seq<T>)
    ensures |r| <= |s|
    ensures forall i :: 0 <= i < |r| ==> p(r[i])
    ensures forall i :: 0 <= i < |s| && p(s[i]) ==> s[i] in r
    ensures forall x :: x in r ==> x in s
    ensures multiset(r) <= multiset(s)
    ensures IsSubsequence(r, s)
  {
    if s == [] then []
    else
      var rest := Filter(s[1..], p);
      assert s == [s[0]] + s[1..];
      assert forall i :: 1 <= i < |s| ==> s[i] == s[1..][i - 1];
      if p(s[0]) then
        var r := [s[0]] + rest;
        assert r[1..] == rest;
        r
      else
        rest
  }

  /** Filtering keeps everything when every element passes. */
  lemma {:induction false} FilterAll<T>(s: seq<T>, p: T -> bool)
    requires forall i :: 0 <= i < |s| ==> p(s[i])
    ensures Filter(s, p) == s
  {
    if s != [] {
      FilterAll(s[1..], p);
    }
  }

  /** Membership in a filtered sequence, as one equivalence. */
  lemma FilterMembers<T>(s: seq<T>, p: T -> bool, x: T)
    ensures x in Filter(s, p) <==> x in s && p(x)
  {
    var r := Filter(s, p);
    if x in r {
      var i :| 0 <= i < |r| && r[i] == x;
    }
    if x in s && p(x) {
      var i :| 0 <= i < |s| && s[i] == x;
    }
  }

  // ---------------------------------------------------------------------------
  // map
  // ---------------------------------------------------------------------------

  /** JavaScript `s.map(f)`. */
  function Map<A, B>(s: seq<A>, f: A -> B): (r: seq<B>)
    ensures |r| == |s|
    ensures forall i :: 0 <= i < |s| ==> r[i] == f(s[i])
  {
    seq(|s|, i requires 0 <= i < |s| => f(s[i]))
  }

  lemma MapConcat<A, B>(x: seq<A>, y: seq<A>, f: A -> B)
    ensures Map(x + y, f) == Map(x, f) + Map(y, f)
  {
  }

  /** Deleting position `i` takes one copy of `s[i]` out of the multiset. */
  lemma DeleteAt<T>(s: seq<T>, i: nat)
    requires i < |s|
    ensures multiset(s) == multiset(s[..i] + s[i + 1..]) + multiset{s[i]}
  {
    assert s == s[..i] + [s[i]] + s[i + 1..];
  }

  lemma MultisetCancel<T>(a: multiset<T>, b: multiset<T>, x: T)
    requires a + multiset{x} <= b + multiset{x}
    ensures a <= b
  {
    forall y ensures a[y] <= b[y] {
      assert (a + multiset{x})[y] <= (b + multiset{x})[y];
    }
  }

  /** Mapping respects multiplicity: if every element of `a` occurs in `b` at
      least as often, the same holds for their images. */
  lemma {:induction false} MapMultisetMono<A, B>(a: seq<A>, b: seq<A>, f: A -> B)
    requires multiset(a) <= multiset(b)
    ensures multiset(Map(a, f)) <= multiset(Map(b, f))
    decreases |a|
  {
    if a != [] {
      var n := |a| - 1;
      var x := a[n];
      assert x in multiset(b);
      var i :| 0 <= i < |b| && b[i] == x;
      var rest := b[..i] + b[i + 1..];
      DeleteAt(a, n);
      assert a[..n] + a[n + 1..] == a[..n];
      DeleteAt(b, i);
      MultisetCancel(multiset(a[..n]), multiset(rest), x);
      MapMultisetMono(a[..n], rest, f);
      DeleteAt(Map(a, f), n);
      assert Map(a, f)[..n] + Map(a, f)[n + 1..] == Map(a[..n], f);
      DeleteAt(Map(b, f), i);
      assert Map(b, f)[..i] + Map(b, f)[i + 1..] == Map(rest, f);
      MultisetAdd(multiset(Map(a[..n], f)), multiset(Map(rest, f)), f(x));
    }
  }

  lemma MultisetAdd<T>(a: multiset<T>, b: multiset<T>, x: T)
    requires a <= b
    ensures a + multiset{x} <= b + multiset{x}
  {
  }

  // ---------------------------------------------------------------------------
  // slice(0, n)
  // ---------------------------------------------------------------------------

  function Min(a: int, b: int): int {
    if a <= b then a else b
  }

  /** JavaScript `s.slice(0, n)`. */
  function Take<T>(s: seq<T>, n: nat): (r: seq<T>)
    ensures |r| == Min(n, |s|)
    ensures r == s[..|r|]
  {
    s[..Min(n, |s|)]
  }

  // ---------------------------------------------------------------------------
  // Membership helpers for id selections
  // ---------------------------------------------------------------------------

  predicate NoDup<T(==)>(s: seq<T>) {
    forall i, j :: 0 <= i < j < |s| ==> s[i] != s[j]
  }

  /** A duplicate-free sequence whose elements all equal `x` is `[x]` or empty. */
  lemma DistinctCopies<T>(s: seq<T>, x: T)
    requires NoDup(s) && forall y :: y in s ==> y == x
    ensures |s| == if x in s then 1 else 0
  {
    AllEqualCount(s, x);
    DistinctCount(s, x);
    if |s| == 1 {
      assert s[0] in s;
    }
  }

  lemma {:induction false} AllEqualCount<T>(s: seq<T>, x: T)
    requires forall y :: y in s ==> y == x
    ensures multiset(s)[x] == |s|
  {
    if s != [] {
      assert s == [s[0]] + s[1..];
      assert s[0] in s;
      assert forall y :: y in s[1..] ==> y in s;
      AllEqualCount(s[1..], x);
    }
  }

  lemma {:induction false} DistinctCount<T>(s: seq<T>, x: T)
    requires NoDup(s)
    ensures multiset(s)[x] <= 1
  {
    if s != [] {
      assert s == [s[0]] + s[1..];
      DistinctCount(s[1..], x);
      if s[0] == x {
        assert x !in s[1..];
      }
    }
  }

  /** JavaScript `s.filter(y => y !== x)`: every occurrence of `x` removed. */
  function RemoveAll<T(==)>(s: seq<T>, x: T): (r: seq<T>)
    ensures x !in r
    ensures forall y :: y in r ==> y in s
    ensures forall y :: y in s && y != x ==> y in r
    ensures |r| <= |s|
    ensures x !in s ==> r == s
    ensures IsSubsequence(r, s)
  {
    if s == [] then []
    else if s[0] == x then RemoveAll(s[1..], x)
    else
      assert s == [s[0]] + s[1..];
      var r := [s[0]] + RemoveAll(s[1..], x);
      assert r[1..] == RemoveAll(s[1..], x);
      r
  }

  lemma {:induction false} RemoveAllNoDup<T>(s: seq<T>, x: T)
    requires NoDup(s)
    ensures NoDup(RemoveAll(s, x))
  {
    if s != [] {
      RemoveAllNoDup(s[1..], x);
      if s[0] != x {
        assert s[0] !in s[1..];
      }
    }
  }

  /** In a duplicate-free sequence that holds `x`, removing `x` shortens it by one. */
  lemma {:induction false} RemoveAllLength<T>(s: seq<T>, x: T)
    requires NoDup(s) && x in s
    ensures |RemoveAll(s, x)| == |s| - 1
  {
    if s[0] != x {
      RemoveAllLength(s[1..], x);
    } else {
      assert x !in s[1..];
    }
  }

  // ---------------------------------------------------------------------------
  // Sums
  // ---------------------------------------------------------------------------

  function Sum(s: seq<real>): real {
    if s == [] then 0.0 else s[0] + Sum(s[1..])
  }

  lemma {:induction false} SumNonNegative(s: seq<real>)
    requires forall i :: 0 <= i < |s| ==> s[i] >= 0.0
    ensures Sum(s) >= 0.0
    ensures forall i :: 0 <= i < |s| ==> s[i] <= Sum(s)
  {
    if s != [] {
      SumNonNegative(s[1..]);
      assert forall i :: 1 <= i < |s| ==> s[i] == s[1..][i - 1];
    }
  }

  /** A sum of non-negative terms is zero exactly when every term is zero. */
  lemma {:induction false} SumZeroIff(s: seq<real>)
    requires forall i :: 0 <= i < |s| ==> s[i] >= 0.0
    ensures Sum(s) == 0.0 <==> forall i :: 0 <= i < |s| ==> s[i] == 0.0
  {
    if s != [] {
      SumZeroIff(s[1..]);
      SumNonNegative(s[1..]);
      assert forall i :: 1 <= i < |s| ==> s[i] == s[1..][i - 1];
    }
  }

  // ---------------------------------------------------------------------------
  // Stable sort by a numeric key
  // ---------------------------------------------------------------------------

  /** Non-decreasing by `key`. */
  ghost predicate SortedBy<T>(s: seq<T>, key: T -> real) {
    forall i, j :: 0 <= i < j < |s| ==> key(s[i]) <= key(s[j])
  }

  /** Non-increasing by `key`. */
  ghost predicate SortedDescBy<T>(s: seq<T>, key: T -> real) {
    forall i, j :: 0 <= i < j < |s| ==> key(s[i]) >= key(s[j])
  }

  /** The elements of `s` whose key is `k`, in their order. */
  function WithKey<T>(s: seq<T>, key: T -> real, k: real): seq<T> {
    if s == [] then []
    else if key(s[0]) == k then [s[0]] + WithKey(s[1..], key, k)
    else WithKey(s[1..], key, k)
  }

  /** Inserts `x` before the first element whose key is not smaller. */
  function InsertBy<T>(x: T, s: seq<T>, key: T -> real): (r: seq<T>)
    ensures |r| == |s| + 1
    ensures multiset(r) == multiset(s) + multiset{x}
  {
    if s == [] || key(x) <= key(s[0]) then [x] + s
    else
      var rest := InsertBy(x, s[1..], key);
      assert s == [s[0]] + s[1..];
      [s[0]] + rest
  }

  lemma {:induction false} InsertBySorted<T>(x: T, s: seq<T>, key: T -> real)
    requires SortedBy(s, key)
    ensures SortedBy(InsertBy(x, s, key), key)
  {
    if s == [] || key(x) <= key(s[0]) {
    } else {
      InsertBySorted(x, s[1..], key);
      InsertByBounded(x, s[1..], key, key(s[0]));
    }
  }

  /** Inserting keeps a lower bound that `x` and every element meet. */
  lemma {:induction false} InsertByBounded<T>(x: T, s: seq<T>, key: T -> real, b: real)
    requires b <= key(x) && forall i :: 0 <= i < |s| ==> b <= key(s[i])
    ensures forall i :: 0 <= i < |InsertBy(x, s, key)| ==> b <= key(InsertBy(x, s, key)[i])
  {
    if s != [] && key(s[0]) < key(x) {
      InsertByBounded(x, s[1..], key, b);
    }
  }

  /** The stable sort of JavaScript's `Array.prototype.sort` with the
      comparator `(a, b) => key(a) - key(b)`. */
  function SortBy<T>(s: seq<T>, key: T -> real): (r: seq<T>)
    ensures |r| == |s|
    ensures multiset(r) == multiset(s)
    ensures SortedBy(r, key)
  {
    if s == [] then []
    else
      assert s == [s[0]] + s[1..];
      InsertBySorted(s[0], SortBy(s[1..], key), key);
      InsertBy(s[0], SortBy(s[1..], key), key)
  }

  /** The same sort with the comparator `(a, b) => key(b) - key(a)`. */
  function SortDescBy<T>(s: seq<T>, key: T -> real): (r: seq<T>)
    ensures |r| == |s|
    ensures multiset(r) == multiset(s)
    ensures SortedDescBy(r, key)
  {
    SortBy(s, x => -key(x))
  }

  lemma {:induction false} WithKeyInsertEqual<T>(x: T, s: seq<T>, key: T -> real)
    requires SortedBy(s, key)
    ensures WithKey(InsertBy(x, s, key), key, key(x)) == [x] + WithKey(s, key, key(x))
  {
    if s == [] || key(x) <= key(s[0]) {
    } else {
      assert key(s[0]) < key(x);
      WithKeyInsertEqual(x, s[1..], key);
    }
  }

  lemma {:induction false} WithKeyInsertOther<T>(x: T, s: seq<T>, key: T -> real, k: real)
    requires key(x) != k
    ensures WithKey(InsertBy(x, s, key), key, k) == WithKey(s, key, k)
  {
    if s == [] || key(x) <= key(s[0]) {
    } else {
      WithKeyInsertOther(x, s[1..], key, k);
    }
  }

  /** Stability: among elements with equal keys the sort keeps the original
      order. Together with sortedness and the multiset equality this
      determines the result completely. */
  lemma {:induction false} SortByStable<T>(s: seq<T>, key: T -> real, k: real)
    ensures WithKey(SortBy(s, key), key, k) == WithKey(s, key, k)
  {
    if s != [] {
      SortByStable(s[1..], key, k);
      if key(s[0]) == k {
        WithKeyInsertEqual(s[0], SortBy(s[1..], key), key);
      } else {
        WithKeyInsertOther(s[0], SortBy(s[1..], key), key, k);
      }
    }
  }

  /** Every element left out of a prefix of a non-increasing sequence ranks no
      higher than any element kept: the prefix is a top-n selection. */
  lemma TakeOfSortedDescIsTop<T>(s: seq<T>, key: T -> real, n: nat)
    requires SortedDescBy(s, key)
    ensures forall i, j :: 0 <= i < Min(n, |s|) <= j < |s| ==> key(s[i]) >= key(s[j])
  {
  }

  /** A prefix of a permutation of `s` that is sorted non-increasingly is a
      top selection of `s`. */
  lemma {:induction false} PrefixOfSortedIsTop<T>(s: seq<T>, sorted: seq<T>, key: T -> real, k: nat)
    requires multiset(sorted) == multiset(s) && SortedDescBy(sorted, key) && k <= |sorted|
    ensures multiset(sorted[..k]) <= multiset(s)
    ensures forall i :: 0 <= i < |s| ==>
      s[i] in multiset(sorted[..k]) || forall j :: 0 <= j < k ==> key(s[i]) <= key(sorted[..k][j])
  {
    var r := sorted[..k];
    assert sorted == r + sorted[k..];
    forall i | 0 <= i < |s|
      ensures s[i] in multiset(r) || forall j :: 0 <= j < k ==> key(s[i]) <= key(r[j])
    {
      assert s[i] in multiset(sorted);
      var m :| 0 <= m < |sorted| && sorted[m] == s[i];
      if m < k {
        assert r[m] == s[i];
      } else {
        forall j | 0 <= j < k ensures key(s[i]) <= key(r[j]) {
          assert r[j] == sorted[j];
        }
      }
    }
  }

  /** `s.sort((a, b) => key(b) - key(a)).slice(0, n)`: the `n` highest-ranked
      elements, best first. Every element left out ranks no higher than any
      element kept. */
  function TopBy<T>(s: seq<T>, key: T -> real, n: nat): (r: seq<T>)
    ensures |r| == Min(n, |s|)
    ensures SortedDescBy(r, key)
    ensures multiset(r) <= multiset(s)
    ensures forall i :: 0 <= i < |s| ==>
      s[i] in multiset(r) || forall j :: 0 <= j < |r| ==> key(s[i]) <= key(r[j])
  {
    var sorted := SortDescBy(s, key);
    PrefixOfSortedIsTop(s, sorted, key, Min(n, |s|));
    sorted[..Min(n, |s|)]
  }

  /** `top` is an admissible `s.sort(by key, descending).slice(0, n)`: as long
      as the slice, best first, drawn from `s` with multiplicity, and every
      element of `s` left out ranks no higher than each one kept. */
  ghost predicate IsTopBy<T>(top: seq<T>, s: seq<T>, key: T -> real, n: nat) {
    |top| == Min(n, |s|) && SortedDescBy(top, key) && multiset(top) <= multiset(s)
    && forall k :: 0 <= k < |s| ==>
      s[k] in multiset(top) || forall j :: 0 <= j < |top| ==> key(s[k]) <= key(top[j])
  }

  lemma TopByIsTop<T>(s: seq<T>, key: T -> real, n: nat)
    ensures IsTopBy(TopBy(s, key, n), s, key, n)
  {
  }

  /** A shorter top list is a prefix of a longer one over the same input. */
  lemma TopByPrefix<T>(s: seq<T>, key: T -> real, m: nat, n: nat)
    requires m <= n
    ensures TopBy(s, key, m) == TopBy(s, key, n)[..Min(m, |s|)]
  {
  }
}

=== FILE: strings.dfy ===
/** String operations of the JavaScript runtime that the application relies on:
    `toLowerCase`, `startsWith`, `includes`, `trim`, `split`, `join`, and the
    decimal rendering of a whole number in a template literal.
 */
module Strings {
  import opened Wrappers

  // ---------------------------------------------------------------------------
  // Case folding
  // ---------------------------------------------------------------------------

  /** Lower-case of one character; only ASCII letters change. */
  function LowerChar(c: char): char {
    if 'A' <= c <= 'Z' then (c as int + 32) as char else c
  }

  function ToLower(s: string): (r: string)
    ensures |r| == |s|
    ensures forall i :: 0 <= i < |s| ==> r[i] == LowerChar(s[i])
  {
    if s == [] then [] else [LowerChar(s[0])] + ToLower(s[1..])
  }

  /** A string that `ToLower` leaves unchanged. */
  predicate IsLower(s: string) {
    forall i :: 0 <= i < |s| ==> LowerChar(s[i]) == s[i]
  }

  lemma ToLowerIsLower(s: string)
    ensures IsLower(ToLower(s))
    ensures ToLower(ToLower(s)) == ToLower(s)
  {
  }

  lemma ToLowerOfLower(s: string)
    requires IsLower(s)
    ensures ToLower(s) == s
  {
  }

  /** A word with a capital initial lowers to its lower-case spelling. */
  lemma CapitalLowered(s: string, lower: string)
    requires |s| == |lower| > 0 && 'A' <= s[0] <= 'Z' && lower[0] == (s[0] as int + 32) as char
    requires s[1..] == lower[1..] && IsLower(lower[1..])
    ensures ToLower(s) == lower
  {
    ToLowerOfLower(s[1..]);
    assert s == [s[0]] + s[1..];
  }

  /** ToLower distributes over concatenation. */
  lemma ToLowerAppend(a: string, b: string)
    ensures ToLower(a + b) == ToLower(a) + ToLower(b)
  {
  }

  // ---------------------------------------------------------------------------
  // Prefixes and substrings
  // ---------------------------------------------------------------------------

  /** JavaScript `s.startsWith(p)`. */
  predicate StartsWith(s: string, p: string) {
    |p| <= |s| && s[..|p|] == p
  }

  /** `sub` occurs in `s` starting at index `i`. */
  predicate OccursAt(s: string, sub: string, i: int) {
    0 <= i && i + |sub| <= |s| && s[i..i + |sub|] == sub
  }

  /** JavaScript `s.includes(sub)`, computed by scanning the start positions. */
  predicate Contains(s: string, sub: string)
    decreases |s|
  {
    StartsWith(s, sub) || (|s| > 0 && Contains(s[1..], sub))
  }

  lemma OccursShiftAt(s: string, sub: string, j: int)
    requires |s| > 0 && 1 <= j
    ensures OccursAt(s, sub, j) <==> OccursAt(s[1..], sub, j - 1)
  {
    if j + |sub| <= |s| {
      assert s[j..j + |sub|] == s[1..][j - 1..j - 1 + |sub|];
    }
  }

  /** Occurrences in `s[1..]` are the occurrences in `s` shifted by one. */
  lemma OccursShift(s: string, sub: string)
    requires |s| > 0
    ensures forall j {:trigger OccursAt(s, sub, j)} :: 1 <= j ==>
      (OccursAt(s, sub, j) <==> OccursAt(s[1..], sub, j - 1))
  {
    forall j | 1 <= j
      ensures OccursAt(s, sub, j) <==> OccursAt(s[1..], sub, j - 1)
    {
      OccursShiftAt(s, sub, j);
    }
  }

  /** `Contains` holds exactly when there is a position where `sub` occurs. */
  lemma {:induction false} ContainsIffOccurs(s: string, sub: string)
    ensures Contains(s, sub) <==> exists i :: OccursAt(s, sub, i)
    decreases |s|
  {
    if StartsWith(s, sub) {
      assert OccursAt(s, sub, 0);
    } else if |s| > 0 {
      ContainsIffOccurs(s[1..], sub);
      OccursShift(s, sub);
      if Contains(s[1..], sub) {
        var i :| OccursAt(s[1..], sub, i);
        assert OccursAt(s, sub, i + 1);
      } else {
        forall i ensures !OccursAt(s, sub, i) {
          if i == 0 && |sub| <= |s| {
            assert s[0..|sub|] == s[..|sub|];
          }
        }
      }
    }
  }

  /** A string cannot contain a word that has a character the string lacks. */
  lemma MissingCharNotContained(s: string, sub: string, k: nat)
    requires k < |sub| && sub[k] !in s
    ensures !Contains(s, sub)
  {
    ContainsIffOccurs(s, sub);
    forall i ensures !OccursAt(s, sub, i) {
      if 0 <= i && i + |sub| <= |s| {
        assert s[i..i + |sub|][k] == s[i + k];
      }
    }
  }

  /** Every string includes the empty string. */
  lemma ContainsEmpty(s: string)
    ensures Contains(s, "")
  {
    assert StartsWith(s, "");
  }

  /** A string includes itself. */
  lemma ContainsSelf(s: string)
    ensures Contains(s, s)
  {
    assert StartsWith(s, s);
  }

  // ---------------------------------------------------------------------------
  // Whitespace and trim
  // ---------------------------------------------------------------------------

  /** The characters JavaScript's `trim` and the regular-expression class `\s`
      treat as white space (white-space and line-terminator code points). */
  predicate IsSpace(c: char) {
    var n := c as int;
    n == 0x20 || (0x09 <= n <= 0x0D) || n == 0xA0 || n == 0x1680
    || (0x2000 <= n <= 0x200A) || n == 0x2028 || n == 0x2029 || n == 0x202F
    || n == 0x205F || n == 0x3000 || n == 0xFEFF
  }

  /** Number of leading white-space characters. */
  function LeadingSpaces(s: string): (n: nat)
    ensures n <= |s|
    ensures forall k :: 0 <= k < n ==> IsSpace(s[k])
    ensures n < |s| ==> !IsSpace(s[n])
  {
    if s == [] || !IsSpace(s[0]) then 0 else 1 + LeadingSpaces(s[1..])
  }

  /** Length of `s` without its trailing white space. */
  function TrimmedEnd(s: string): (n: nat)
    ensures n <= |s|
    ensures forall k :: n <= k < |s| ==> IsSpace(s[k])
    ensures n > 0 ==> !IsSpace(s[n - 1])
  {
    if s == [] || !IsSpace(s[|s| - 1]) then |s| else TrimmedEnd(s[..|s| - 1])
  }

  /** A string with no white space at either end. */
  predicate IsTrimmed(s: string) {
    s == [] || (!IsSpace(s[0]) && !IsSpace(s[|s| - 1]))
  }

  /** JavaScript `s.trim()`: the slice of `s` left after removing white space at
      both ends. */
  function Trim(s: string): (r: string)
    ensures IsTrimmed(r)
    ensures exists a, b :: (0 <= a <= b <= |s| && r == s[a..b]
      && (forall k :: 0 <= k < a ==> IsSpace(s[k]))
      && (forall k :: b <= k < |s| ==> IsSpace(s[k])))
  {
    var a := LeadingSpaces(s);
    var t := s[a..];
    var b := TrimmedEnd(t);
    assert t[..b] == s[a..a + b];
    assert forall k :: a + b <= k < |s| ==> s[k] == t[k - a];
    t[..b]
  }

  /** The trimmed string is empty exactly when every character is white space. */
  lemma TrimEmptyIff(s: string)
    ensures Trim(s) == "" <==> forall k :: 0 <= k < |s| ==> IsSpace(s[k])
  {
    var a := LeadingSpaces(s);
    var t := s[a..];
    var b := TrimmedEnd(t);
    if Trim(s) == "" {
      assert b == 0;
      assert a == |s|;
    } else {
      assert b > 0;
      assert !IsSpace(t[b - 1]);
      assert t[b - 1] == s[a + b - 1];
    }
  }

  /** A string with no white space at either end is its own trim. */
  lemma TrimOfTrimmed(s: string)
    requires IsTrimmed(s)
    ensures Trim(s) == s
  {
    assert LeadingSpaces(s) == 0;
    assert s[0..] == s;
  }

  // ---------------------------------------------------------------------------
  // split and join
  // ---------------------------------------------------------------------------

  /** JavaScript `s.indexOf(sep)` for a non-empty separator. */
  function IndexOf(s: string, sep: string): (r: Option<nat>)
    requires |sep| > 0
    ensures r.Some? ==> OccursAt(s, sep, r.value)
    ensures r.Some? ==> forall j :: 0 <= j < r.value ==> !OccursAt(s, sep, j)
    ensures r.None? ==> forall j :: !OccursAt(s, sep, j)
    decreases |s|
  {
    if StartsWith(s, sep) then Some(0)
    else if |s| < |sep| then None
    else
      var rest := IndexOf(s[1..], sep);
      OccursShift(s, sep);
      assert !OccursAt(s, sep, 0) by {
        assert s[0..|sep|] == s[..|sep|];
      }
      if rest.None? then None else Some(rest.value + 1)
  }

  /** JavaScript `s.split(sep)` for a non-empty separator: the pieces between
      consecutive occurrences, in order. */
  function Split(s: string, sep: string): (r: seq<string>)
    requires |sep| > 0
    ensures |r| >= 1
    decreases |s|
  {
    var idx := IndexOf(s, sep);
    if idx.None? then [s]
    else [s[..idx.value]] + Split(s[idx.value + |sep|..], sep)
  }

  /** JavaScript `parts.join(sep)`. */
  function Join(parts: seq<string>, sep: string): string
  {
    if parts == [] then ""
    else if |parts| == 1 then parts[0]
    else parts[0] + sep + Join(parts[1..], sep)
  }

  lemma {:induction false} SplitUnfold(s: string, sep: string, i: nat)
    requires |sep| > 0 && IndexOf(s, sep) == Some(i)
    ensures i + |sep| <= |s|
    ensures Split(s, sep) == [s[..i]] + Split(s[i + |sep|..], sep)
  {
  }

  lemma JoinCons(a: string, parts: seq<string>, sep: string)
    requires |parts| >= 1
    ensures Join([a] + parts, sep) == a + sep + Join(parts, sep)
  {
    assert ([a] + parts)[1..] == parts;
  }

  /** Joining the pieces of a split with the same separator gives back the
      original string. */
  lemma {:induction false} JoinSplit(s: string, sep: string)
    requires |sep| > 0
    ensures Join(Split(s, sep), sep) == s
    decreases |s|
  {
    var idx := IndexOf(s, sep);
    if idx.Some? {
      var i := idx.value;
      SplitUnfold(s, sep, i);
      var rest := s[i + |sep|..];
      JoinSplit(rest, sep);
      JoinCons(s[..i], Split(rest, sep), sep);
      assert s[i..i + |sep|] == sep;
      assert s == s[..i] + s[i..i + |sep|] + rest;
    }
  }

  /** No piece of a split contains the separator. */
  lemma {:induction false} SplitPiecesAvoidSeparator(s: string, sep: string)
    requires |sep| > 0
    ensures forall k, j :: 0 <= k < |Split(s, sep)| ==> !OccursAt(Split(s, sep)[k], sep, j)
    decreases |s|
  {
    match IndexOf(s, sep)
    case None =>
    case Some(i) =>
      var rest := s[i + |sep|..];
      SplitPiecesAvoidSeparator(rest, sep);
      forall j | OccursAt(s[..i], sep, j) ensures false {
        assert s[..i][j..j + |sep|] == s[j..j + |sep|];
        assert OccursAt(s, sep, j);
      }
      assert Split(s, sep) == [s[..i]] + Split(rest, sep);
  }

  /** The last piece of a split is a suffix of the string. */
  lemma SplitLastIsSuffix(s: string, sep: string)
    requires |sep| > 0
    ensures var last := Split(s, sep)[|Split(s, sep)| - 1];
      |last| <= |s| && s[|s| - |last|..] == last
  {
    var parts := Split(s, sep);
    JoinSplit(s, sep);
    assert Join(parts, sep) == s;
    if |parts| >= 2 {
      JoinSnoc(parts, sep);
    }
  }

  /** When the separator is a single character, splitting the join of pieces
      that do not contain it gives back the pieces. */
  lemma {:induction false} SplitJoinSingle(parts: seq<string>, c: char)
    requires |parts| >= 1
    requires forall k, j :: 0 <= k < |parts| && 0 <= j < |parts[k]| ==> parts[k][j] != c
    ensures Split(Join(parts, [c]), [c]) == parts
    decreases |parts|
  {
    var sep := [c];
    var s := Join(parts, sep);
    NoCharNoIndex(parts[0], c);
    if |parts| == 1 {
      assert s == parts[0];
    } else {
      var tail := Join(parts[1..], sep);
      assert s == parts[0] + sep + tail;
      assert OccursAt(s, sep, |parts[0]|) by {
        assert s[|parts[0]|..|parts[0]| + 1] == sep;
      }
      forall j | 0 <= j < |parts[0]| ensures !OccursAt(s, sep, j) {
        assert s[j] == parts[0][j];
      }
      assert IndexOf(s, sep) == Some(|parts[0]|);
      assert s[..|parts[0]|] == parts[0];
      assert s[|parts[0]| + 1..] == tail;
      SplitJoinSingle(parts[1..], c);
    }
  }

  /** The last of at least two joined pieces follows a separator. */
  lemma {:induction false} JoinSnoc(parts: seq<string>, sep: string)
    requires |parts| >= 2
    ensures Join(parts, sep) == Join(parts[..|parts| - 1], sep) + sep + parts[|parts| - 1]
    decreases |parts|
  {
    if |parts| > 2 {
      JoinSnoc(parts[1..], sep);
      assert parts[1..][..|parts| - 2] == parts[..|parts| - 1][1..];
    }
  }

  lemma JoinedLastAfterSeparator(parts: seq<string>, sep: string)
    requires |parts| >= 2
    ensures var s := Join(parts, sep); var last := parts[|parts| - 1];
      |last| + |sep| <= |s| && s[|s| - |last| - |sep|..|s| - |last|] == sep
  {
    JoinSnoc(parts, sep);
    var init := Join(parts[..|parts| - 1], sep);
    var s := Join(parts, sep);
    assert s[|init|..|init| + |sep|] == sep;
  }

  /** A string holding the separator splits into at least two pieces. */
  lemma SeparatorFoundSplits(s: string, sep: string)
    requires |sep| > 0 && IndexOf(s, sep).Some?
    ensures |Split(s, sep)| >= 2
  {
    SplitUnfold(s, sep, IndexOf(s, sep).value);
  }

  lemma CharFoundSplits(s: string, c: char)
    requires c in s
    ensures |Split(s, [c])| >= 2
  {
    var i :| 0 <= i < |s| && s[i] == c;
    assert OccursAt(s, [c], i) by {
      assert s[i..i + 1] == [s[i]];
    }
    SeparatorFoundSplits(s, [c]);
  }

  /** The last piece of a split into several pieces follows an occurrence of
      the separator. */
  lemma SplitLastAfterSeparator(s: string, sep: string)
    requires |sep| > 0 && |Split(s, sep)| >= 2
    ensures var last := Split(s, sep)[|Split(s, sep)| - 1];
      |last| + |sep| <= |s| && s[|s| - |last| - |sep|..|s| - |last|] == sep
  {
    var parts := Split(s, sep);
    JoinSplit(s, sep);
    assert Join(parts, sep) == s;
    JoinedLastAfterSeparator(parts, sep);
  }

  lemma NoCharNoIndex(s: string, c: char)
    requires forall j :: 0 <= j < |s| ==> s[j] != c
    ensures IndexOf(s, [c]) == None
  {
    forall j ensures !OccursAt(s, [c], j) {
      if 0 <= j && j + 1 <= |s| {
        assert s[j..j + 1] == [s[j]];
      }
    }
  }

  // ---------------------------------------------------------------------------
  // Decimal numerals
  // ---------------------------------------------------------------------------

  function DigitChar(d: nat): char
    requires d < 10
  {
    ('0' as int + d) as char
  }

  predicate IsDigit(c: char) {
    '0' as int <= c as int <= '9' as int
  }

  /** The decimal numeral of `n`, as a template literal prints a whole number. */
  function NatToString(n: nat): (r: string)
    ensures |r| >= 1
    ensures forall k :: 0 <= k < |r| ==> IsDigit(r[k])
  {
    if n < 10 then [DigitChar(n)] else NatToString(n / 10) + [DigitChar(n % 10)]
  }

  /** The value of a decimal numeral. */
  function ParseNat(s: string): nat
    requires forall k :: 0 <= k < |s| ==> IsDigit(s[k])
  {
    if s == [] then 0
    else
      assert IsDigit(s[|s| - 1]);
      ParseNat(s[..|s| - 1]) * 10 + (s[|s| - 1] as int - '0' as int)
  }

  /** Printing a whole number and reading it back gives the number. */
  lemma {:induction false} ParseNatToString(n: nat)
    ensures ParseNat(NatToString(n)) == n
  {
    if n >= 10 {
      ParseNatToString(n / 10);
      var s := NatToString(n);
      assert s[..|s| - 1] == NatToString(n / 10);
    }
  }
}

=== FILE: theme.dfy ===
/** An element's class list, as the theme code manipulates it: an ordered set
    of non-empty tokens without spaces. `classList.add` of an empty token
    throws in the browser, so adding requires a non-empty token.
 */
module ClassLists {
  import opened Seqs
  import opened Strings

  predicate IsToken(c: string) {
    c != "" && ' ' !in c
  }

  predicate Valid(cl: seq<string>) {
    NoDup(cl) && forall i :: 0 <= i < |cl| ==> IsToken(cl[i])
  }

  /** `classList.add(c)`. */
  function Add(cl: seq<string>, c: string): (r: seq<string>)
    requires c != ""
    ensures forall x :: x in r <==> x in cl || x == c
    ensures NoDup(cl) ==> NoDup(r)
    ensures Valid(cl) && IsToken(c) ==> Valid(r)
  {
    if c in cl then cl else cl + [c]
  }

  /** `classList.add(...cs)`. */
  function AddAll(cl: seq<string>, cs: seq<string>): (r: seq<string>)
    requires forall i :: 0 <= i < |cs| ==> cs[i] != ""
    ensures forall x :: x in r <==> x in cl || x in cs
    ensures NoDup(cl) ==> NoDup(r)
    decreases |cs|
  {
    if cs == [] then cl else AddAll(Add(cl, cs[0]), cs[1..])
  }

  /** `classList.remove(...cs)`. */
  function Without(cl: seq<string>, cs: seq<string>): (r: seq<string>)
    ensures forall x :: x in r <==> x in cl && x !in cs
    ensures NoDup(cl) ==> NoDup(r)
    ensures Valid(cl) ==> Valid(r)
  {
    if cl == [] then []
    else if cl[0] in cs then Without(cl[1..], cs)
    else [cl[0]] + Without(cl[1..], cs)
  }

  /** Removing a whole group of classes and adding one back: afterwards the
      only class of the group present is `c`, and classes outside the group
      are untouched. */
  function ReplaceInGroup(cl: seq<string>, group: seq<string>, c: string): (r: seq<string>)
    requires c != ""
    ensures c in r
    ensures forall g :: g in group ==> (g in r <==> g == c)
    ensures forall x :: x !in group && x != c ==> (x in r <==> x in cl)
    ensures Valid(cl) && IsToken(c) ==> Valid(r)
  {
    Add(Without(cl, group), c)
  }

  /** The tokens of a `className` string split on single spaces, as the class
      list reads them: empty pieces dropped, repeats kept once. */
  function FromString(s: string): (r: seq<string>)
    ensures forall x :: x in r <==> x in Split(s, " ") && x != ""
    ensures NoDup(r)
  {
    var pieces := Split(s, " ");
    var tokens := Filter(pieces, (x: string) => x != "");
    AddAll([], tokens)
  }

  /** Writing a class list out as `className` and reading it back gives the
      same list. */
  lemma {:induction false} FromStringJoin(cl: seq<string>)
    requires Valid(cl)
    ensures forall x :: x in FromString(Join(cl, " ")) <==> x in cl
  {
    if cl == [] {
      assert Split("", " ") == [""];
    } else {
      forall k, j | 0 <= k < |cl| && 0 <= j < |cl[k]| ensures cl[k][j] != ' ' {
        assert cl[k][j] in cl[k];
      }
      SplitJoinSingle(cl, ' ');
      assert Split(Join(cl, " "), " ") == cl;
    }
  }

  /** `cl.filter(c => !c.startsWith(prefix))`. */
  function DropPrefixed(cl: seq<string>, prefix: string): (r: seq<string>)
    ensures forall x :: x in r <==> x in cl && !StartsWith(x, prefix)
    ensures Valid(cl) ==> Valid(r)
  {
    if cl == [] then []
    else if StartsWith(cl[0], prefix) then DropPrefixed(cl[1..], prefix)
    else [cl[0]] + DropPrefixed(cl[1..], prefix)
  }
}

/** `src/context/ThemeContext.jsx`: the selected theme and the three
    customisations (background, font, text colour), the effects that apply
    them to the document and to storage, and the guard on saving them to the
    server.
 */
module ThemeContext {
  import opened Wrappers
  import opened Strings
  import opened ClassLists

  /** The six theme ids, in the order of `surpriseTheme`'s options. */
  const Themes: seq<string> := ["light", "dark", "solarized", "neon", "vaporwave", "mono"]

  const ThemeKey: string := "theme"
  const BackgroundKey: string := "custom-bg"
  const FontKey: string := "custom-font"
  const TextKey: string := "custom-text"

  datatype ThemeState = ThemeState(theme: string, previewTheme: Option<string>, background: string, font: string, textColor: string)

  /** The root element's classes, the body's classes, and storage. */
  datatype Document = Document(root: seq<string>, body: seq<string>, storage: Storage)

  /** The state on start: stored values, with "light" and empty
      customisations for what is missing or empty. */
  function InitialState(storage: Storage): (st: ThemeState)
    ensures st.theme == OrDefault(Lookup(storage, ThemeKey), "light")
    ensures st.theme != ""
    ensures st.previewTheme.None?
    ensures st.background == OrDefault(Lookup(storage, BackgroundKey), "")
    ensures st.font == OrDefault(Lookup(storage, FontKey), "")
    ensures st.textColor == OrDefault(Lookup(storage, TextKey), "")
  {
    ThemeState(OrDefault(Lookup(storage, ThemeKey), "light"), None,
               OrDefault(Lookup(storage, BackgroundKey), ""),
               OrDefault(Lookup(storage, FontKey), ""),
               OrDefault(Lookup(storage, TextKey), ""))
  }

  /** `toggleTheme`: dark becomes light, every other theme becomes dark. */
  function ToggleTheme(theme: string): (r: string)
    ensures r == "light" || r == "dark"
    ensures r == "light" <==> theme == "dark"
  {
    if theme == "dark" then "light" else "dark"
  }

  /** Between light and dark, toggling twice is no change. */
  lemma ToggleTwice(theme: string)
    requires theme == "light" || theme == "dark"
    ensures ToggleTheme(ToggleTheme(theme)) == theme
  {
  }

  /** `surpriseTheme` with `Math.random()` returning `x`:
      `options[Math.floor(x * 6)]`. */
  function SurpriseTheme(x: real): (r: string)
    requires 0.0 <= x < 1.0
    ensures r in Themes
  {
    var i := (x * 6.0).Floor;
    Themes[i]
  }

  /** Each theme is drawn from its own sixth of the unit interval. */
  lemma SurpriseSixths(x: real, k: nat)
    requires k < 6 && k as real / 6.0 <= x < (k + 1) as real / 6.0
    ensures SurpriseTheme(x) == Themes[k]
  {
    assert k as real <= x * 6.0 < (k + 1) as real;
  }

  // ---------------------------------------------------------------------------
  // Saving
  // ---------------------------------------------------------------------------

  /** The public-view test as written: the path starts with "/user". */
  predicate IsPublicViewAsWritten(pathname: string) {
    StartsWith(pathname, "/user")
  }

  /** The public-view test as evidently intended: the public profile route
      is "/u/:user_id". */
  predicate IsPublicView(pathname: string) {
    StartsWith(pathname, "/u/")
  }

  /** No public profile path counts as a public view as written, while every
      one does as intended; the app's other routes are neither. */
  lemma PublicRouteMissed(id: string)
    ensures !IsPublicViewAsWritten("/u/" + id)
    ensures IsPublicView("/u/" + id)
    ensures forall p :: p in ["/", "/home", "/onboard", "/callback"] ==> !IsPublicView(p) && !IsPublicViewAsWritten(p)
  {
    assert ("/u/" + id)[..3] == "/u/";
    assert ("/u/" + id)[2] == '/';
  }

  /** The guard of `loadUserTheme` and `saveToServer` as written: a user id,
      and a path that fails the "/user" test. The effects below use it. */
  predicate SaveAllowed(userId: Option<string>, pathname: string) {
    Truthy(userId) && !IsPublicViewAsWritten(pathname)
  }

  /** The guard as evidently intended: no loading or saving on a public
      profile page. */
  predicate SaveAllowedCorrected(userId: Option<string>, pathname: string) {
    Truthy(userId) && !IsPublicView(pathname)
  }

  /** On a public profile page with a signed-in viewer, the program as
      written loads the viewer's saved theme and posts every theme change,
      while the corrected guard does neither. */
  lemma PublicProfileStillSaves(id: string, viewer: string, doc: Document, st: ThemeState, saved: SavedTheme)
    requires viewer != "" && ShownTheme(st) != ""
    requires saved.theme.Some? && saved.theme.value != ""
    ensures var path := "/u/" + id;
      SaveAllowed(Some(viewer), path) && !SaveAllowedCorrected(Some(viewer), path)
      && ThemeEffect(doc, st, Some(viewer), path).1
      && LoadUserTheme(st, Some(viewer), path, Fetched(saved)).theme == saved.theme.value
  {
    PublicRouteMissed(id);
  }

  // ---------------------------------------------------------------------------
  // Effects; each returns the document afterwards and whether a save was sent
  // ---------------------------------------------------------------------------

  /** The class shown: `previewTheme || theme`. */
  function ShownTheme(st: ThemeState): (r: string)
    ensures Truthy(st.previewTheme) ==> r == st.previewTheme.value
    ensures !Truthy(st.previewTheme) ==> r == st.theme
  {
    OrDefault(st.previewTheme, st.theme)
  }

  /** The theme effect: the root keeps exactly one of the six theme classes,
      the one shown; the stored theme is `theme`. */
  function ThemeEffect(doc: Document, st: ThemeState, userId: Option<string>, pathname: string): (r: (Document, bool))
    requires ShownTheme(st) != ""
    ensures forall t :: t in Themes ==> (t in r.0.root <==> t == ShownTheme(st))
    ensures forall x :: x !in Themes && x != ShownTheme(st) ==> (x in r.0.root <==> x in doc.root)
    ensures ShownTheme(st) in r.0.root
    ensures r.0.body == doc.body && r.0.storage == doc.storage[ThemeKey := st.theme]
    ensures r.1 == SaveAllowed(userId, pathname)
  {
    (doc.(root := ReplaceInGroup(doc.root, Themes, ShownTheme(st)), storage := doc.storage[ThemeKey := st.theme]), SaveAllowed(userId, pathname))
  }

  /** The background effect: a non-empty background replaces the body's whole
      class string. */
  function BackgroundEffect(doc: Document, background: string, userId: Option<string>, pathname: string): (r: (Document, bool))
    ensures background == "" ==> r == (doc, false)
    ensures background != "" ==> r.0.body == FromString(background) && r.0.storage == doc.storage[BackgroundKey := background]
    ensures background != "" ==> r.0.root == doc.root && r.1 == SaveAllowed(userId, pathname)
  {
    if background == "" then (doc, false)
    else (doc.(body := FromString(background), storage := doc.storage[BackgroundKey := background]), SaveAllowed(userId, pathname))
  }

  /** The font effect: a non-empty font is added; earlier fonts stay. */
  function FontEffect(doc: Document, font: string, userId: Option<string>, pathname: string): (r: (Document, bool))
    ensures font == "" ==> r == (doc, false)
    ensures font != "" ==> (forall x :: x in r.0.body <==> x in doc.body || x == font)
    ensures font != "" ==> r.0.storage == doc.storage[FontKey := font] && r.0.root == doc.root && r.1 == SaveAllowed(userId, pathname)
  {
    if font == "" then (doc, false)
    else (doc.(body := Add(doc.body, font), storage := doc.storage[FontKey := font]), SaveAllowed(userId, pathname))
  }

  /** The text-colour effect: every text-colour class is removed, then the
      selected one is added. `textColors` lists the classes of the
      customisation table. */
  function TextColorEffect(doc: Document, textColor: string, textColors: seq<string>, userId: Option<string>, pathname: string): (r: (Document, bool))
    ensures textColor == "" ==> r == (doc, false)
    ensures textColor != "" ==> r.0.body == ReplaceInGroup(doc.body, textColors, textColor)
    ensures textColor != "" ==> r.0.storage == doc.storage[TextKey := textColor] && r.0.root == doc.root && r.1 == SaveAllowed(userId, pathname)
  {
    if textColor == "" then (doc, false)
    else (doc.(body := ReplaceInGroup(doc.body, textColors, textColor), storage := doc.storage[TextKey := textColor]), SaveAllowed(userId, pathname))
  }

  /** After the text-colour effect with a listed colour, the body holds
      exactly one text-colour class. */
  lemma OneTextColor(doc: Document, textColor: string, textColors: seq<string>, userId: Option<string>, pathname: string)
    requires textColor in textColors && textColor != ""
    ensures forall t :: t in textColors ==> (t in TextColorEffect(doc, textColor, textColors, userId, pathname).0.body <==> t == textColor)
  {
  }

  /** The `/get-theme` answer: each field is applied only when it is
      non-empty. */
  datatype SavedTheme = SavedTheme(theme: Option<string>, background: Option<string>, font: Option<string>, text_color: Option<string>)

  /** `loadUserTheme()`, run when the guard as written lets it. */
  function LoadUserTheme(st: ThemeState, userId: Option<string>, pathname: string, resp: FetchOutcome<SavedTheme>): (r: ThemeState)
    ensures !SaveAllowed(userId, pathname) || resp.FetchFailed? ==> r == st
    ensures SaveAllowed(userId, pathname) && resp.Fetched? ==>
      r.theme == OrDefault(resp.data.theme, st.theme)
      && r.background == OrDefault(resp.data.background, st.background)
      && r.font == OrDefault(resp.data.font, st.font)
      && r.textColor == OrDefault(resp.data.text_color, st.textColor)
      && r.previewTheme == st.previewTheme
  {
    if !SaveAllowed(userId, pathname) || resp.FetchFailed? then st
    else
      var d := resp.data;
      st.(theme := OrDefault(d.theme, st.theme), background := OrDefault(d.background, st.background),
          font := OrDefault(d.font, st.font), textColor := OrDefault(d.text_color, st.textColor))
  }

  /** A non-empty theme stays non-empty through a server load, so the theme
      effect can always add it. */
  lemma LoadKeepsThemeNonEmpty(st: ThemeState, userId: Option<string>, pathname: string, resp: FetchOutcome<SavedTheme>)
    requires st.theme != ""
    ensures LoadUserTheme(st, userId, pathname, resp).theme != ""
  {
  }
}

/** `src/components/settings/ThemePickerModal.jsx`: the preset grid, the
    surprise button, and the background, font and text-colour buttons.
 */
module ThemePickerModal {
  import opened Wrappers
  import opened Strings
  import opened Seqs
  import opened ClassLists
  import ThemeContext

  /** The preset ids, in grid order. */
  const Presets: seq<string> := ThemeContext.Themes

  datatype Picker = Picker(theme: ThemeContext.ThemeState, open: bool, doc: ThemeContext.Document)

  /** A preset button is highlighted iff it is the current theme. */
  predicate Highlighted(theme: string, id: string) {
    theme == id
  }

  /** The highlighted presets: one when the theme is a preset, none otherwise. */
  function HighlightedPresets(theme: string): (r: seq<string>)
    ensures forall id :: id in r <==> id in Presets && Highlighted(theme, id)
  {
    Filter(Presets, (id: string) => Highlighted(theme, id))
  }

  lemma AtMostOneHighlighted(theme: string)
    ensures |HighlightedPresets(theme)| == if theme in Presets then 1 else 0
  {
    var r := HighlightedPresets(theme);
    HighlightedDistinct(theme);
    DistinctCopies(r, theme);
  }

  lemma HighlightedDistinct(theme: string)
    ensures NoDup(HighlightedPresets(theme))
  {
    PresetsDistinct();
    FilterOfDistinctIsDistinct(Presets, (id: string) => Highlighted(theme, id));
  }

  lemma PresetsDistinct()
    ensures NoDup(Presets)
  {
  }

  lemma {:induction false} FilterOfDistinctIsDistinct(s: seq<string>, p: string -> bool)
    requires NoDup(s)
    ensures NoDup(Filter(s, p))
  {
    if s != [] {
      FilterOfDistinctIsDistinct(s[1..], p);
      assert s[0] !in s[1..];
      assert s[0] !in Filter(s[1..], p);
    }
  }

  /** A preset click as written: `setTheme(id)` runs, then the handler calls
      `setBackground`, which the component never took from the context, and
      throws; the customisations and storage are untouched and the modal stays
      open. */
  function PresetClickAsWritten(pk: Picker, id: string): (r: Picker)
    ensures r.theme == pk.theme.(theme := id)
    ensures r.open == pk.open && r.doc == pk.doc
  {
    pk.(theme := pk.theme.(theme := id))
  }

  /** A preset click as evidently intended: the theme is set, the three
      customisations are reset and their storage entries removed, and the
      modal closes. */
  function PresetClick(pk: Picker, id: string): (r: Picker)
    ensures r.theme.theme == id && r.theme.previewTheme == pk.theme.previewTheme
    ensures r.theme.background == "" && r.theme.font == "" && r.theme.textColor == ""
    ensures !r.open
    ensures r.doc.storage.Keys == pk.doc.storage.Keys - {ThemeContext.BackgroundKey, ThemeContext.FontKey, ThemeContext.TextKey}
    ensures forall k :: k in r.doc.storage ==> r.doc.storage[k] == pk.doc.storage[k]
  {
    var storage := pk.doc.storage - {ThemeContext.BackgroundKey, ThemeContext.FontKey, ThemeContext.TextKey};
    Picker(pk.theme.(theme := id, background := "", font := "", textColor := ""), false, pk.doc.(storage := storage))
  }

  /** As written, choosing a preset with a custom background leaves the
      background and the open modal in place; as intended it clears and
      closes. */
  lemma PresetKeepsCustomisations(pk: Picker, id: string)
    requires pk.open && pk.theme.background != ""
    ensures PresetClickAsWritten(pk, id).open && PresetClickAsWritten(pk, id).theme.background != ""
    ensures !PresetClick(pk, id).open && PresetClick(pk, id).theme.background == ""
  {
  }

  /** "Surprise Me": a random preset is chosen, then the modal closes. */
  function SurpriseClick(pk: Picker, x: real): (r: Picker)
    requires 0.0 <= x < 1.0
    ensures r.theme.theme in Presets && !r.open
    ensures r.doc == pk.doc
  {
    pk.(theme := pk.theme.(theme := ThemeContext.SurpriseTheme(x)), open := false)
  }

  /** A background click as written on the class string: split the body's
      `className` on spaces, drop every piece starting with "bg-", join,
      assign, then add the chosen class's tokens; the chosen class is stored. */
  function BackgroundClick(doc: ThemeContext.Document, bgClass: string): (r: ThemeContext.Document)
    requires forall i :: 0 <= i < |Split(bgClass, " ")| ==> Split(bgClass, " ")[i] != ""
    ensures r.storage == doc.storage[ThemeContext.BackgroundKey := bgClass]
    ensures r.root == doc.root
  {
    var kept := Filter(Split(Join(doc.body, " "), " "), (c: string) => !StartsWith(c, "bg-"));
    var body := AddAll(FromString(Join(kept, " ")), Split(bgClass, " "));
    doc.(body := body, storage := doc.storage[ThemeContext.BackgroundKey := bgClass])
  }

  /** On a well-formed body, a background click keeps exactly the classes not
      starting with "bg-" and adds the chosen tokens. */
  lemma BackgroundClickClasses(doc: ThemeContext.Document, bgClass: string)
    requires Valid(doc.body)
    requires forall i :: 0 <= i < |Split(bgClass, " ")| ==> Split(bgClass, " ")[i] != ""
    ensures forall x :: x in BackgroundClick(doc, bgClass).body <==>
      (x in doc.body && !StartsWith(x, "bg-")) || x in Split(bgClass, " ")
  {
    var p := (c: string) => !StartsWith(c, "bg-");
    var pieces := Split(Join(doc.body, " "), " ");
    var kept := Filter(pieces, p);
    if doc.body == [] {
      assert pieces == [""];
      assert kept == [""];
      assert Join(kept, " ") == "";
      assert Split("", " ") == [""];
    } else {
      forall k, j | 0 <= k < |doc.body| && 0 <= j < |doc.body[k]| ensures doc.body[k][j] != ' ' {
        assert doc.body[k][j] in doc.body[k];
      }
      SplitJoinSingle(doc.body, ' ');
      assert pieces == doc.body;
      FilterIsDropPrefixed(doc.body);
      FromStringJoin(DropPrefixed(doc.body, "bg-"));
    }
  }

  lemma {:induction false} FilterIsDropPrefixed(cl: seq<string>)
    ensures Filter(cl, (c: string) => !StartsWith(c, "bg-")) == DropPrefixed(cl, "bg-")
  {
    if cl != [] {
      FilterIsDropPrefixed(cl[1..]);
    }
  }

  /** A font click: every font class removed, then the chosen one added.
      `fonts` lists the classes of the customisation table. */
  function FontClick(doc: ThemeContext.Document, fonts: seq<string>, f: string): (r: ThemeContext.Document)
    requires f != ""
    ensures f in fonts ==> forall g :: g in fonts ==> (g in r.body <==> g == f)
    ensures forall x :: x !in fonts && x != f ==> (x in r.body <==> x in doc.body)
    ensures r.storage == doc.storage[ThemeContext.FontKey := f] && r.root == doc.root
  {
    doc.(body := ReplaceInGroup(doc.body, fonts, f), storage := doc.storage[ThemeContext.FontKey := f])
  }

  /** A text-colour click: the same rule over the text-colour classes. */
  function TextColorClick(doc: ThemeContext.Document, textColors: seq<string>, tc: string): (r: ThemeContext.Document)
    requires tc != ""
    ensures tc in textColors ==> forall g :: g in textColors ==> (g in r.body <==> g == tc)
    ensures forall x :: x !in textColors && x != tc ==> (x in r.body <==> x in doc.body)
    ensures r.storage == doc.storage[ThemeContext.TextKey := tc] && r.root == doc.root
  {
    doc.(body := ReplaceInGroup(doc.body, textColors, tc), storage := doc.storage[ThemeContext.TextKey := tc])
  }

  /** The text-colour click and the context's text-colour effect leave the
      same body classes. */
  lemma TextColorClickMatchesEffect(doc: ThemeContext.Document, textColors: seq<string>, tc: string, userId: Option<string>, pathname: string)
    requires tc != ""
    ensures TextColorClick(doc, textColors, tc).body == ThemeContext.TextColorEffect(doc, tc, textColors, userId, pathname).0.body
  {
  }
}

/** `src/App.jsx`: on start the root's "dark" class follows the saved theme,
    or the system preference when neither "dark" nor "light" is saved.
 */
module AppTheme {
  import opened Wrappers
  import opened ClassLists

  function DarkClass(root: seq<string>, saved: Option<string>, prefersDark: bool): (r: seq<string>)
    ensures "dark" in r <==> saved == Some("dark") || (saved != Some("light") && prefersDark)
    ensures forall x :: x != "dark" ==> (x in r <==> x in root)
    ensures Valid(root) ==> Valid(r)
  {
    if saved == Some("dark") then Add(root, "dark")
    else if saved == Some("light") then Without(root, ["dark"])
    else if prefersDark then Add(root, "dark")
    else Without(root, ["dark"])
  }

  /** A saved "light" wins over a dark system preference. */
  lemma SavedLightWins(root: seq<string>, prefersDark: bool)
    ensures "dark" !in DarkClass(root, Some("light"), prefersDark)
  {
  }

  /** Running the start-up rule twice is running it once. */
  lemma DarkClassIdempotent(root: seq<string>, saved: Option<string>, prefersDark: bool)
    ensures var once := DarkClass(root, saved, prefersDark);
      forall x :: x in DarkClass(once, saved, prefersDark) <==> x in once
  {
  }
}

=== FILE: user_context.dfy ===
/** `src/context/UserContext.jsx`: which user id the app runs as, the user
    record loaded for it, and the list of important playlists. Browser storage
    is a map from keys to strings; the `/me` request is an outcome parameter.
    The genre analysis is kept abstract as the type parameter `G`.
 */
module UserContext {
  import opened Wrappers
  import Selection

  const UserIdKey: string := "user_id"

  /** The `/me` response fields the app reads or keeps. */
  datatype MeData<G> = MeData(
    user_id: Option<string>,
    display_name: Option<string>,
    profile_picture: Option<string>,
    important_playlists: Option<seq<Selection.Item>>,
    genre_analysis: Option<G>)

  /** The user record: every response field, plus `genreAnalysis`. */
  datatype User<G> = User(data: MeData<G>, genreAnalysis: Option<G>)

  /** The initial `user_id`: a non-empty URL parameter wins and is written to
      storage; otherwise the stored value is used and storage is untouched. */
  function ResolveUserId(urlParam: Option<string>, storage: Storage): (r: (Option<string>, Storage))
    ensures Truthy(urlParam) ==> r.0 == urlParam && r.1 == storage[UserIdKey := urlParam.value]
    ensures !Truthy(urlParam) ==> r.0 == Lookup(storage, UserIdKey) && r.1 == storage
    ensures forall k :: k in storage && k != UserIdKey ==> k in r.1 && r.1[k] == storage[k]
  {
    if Truthy(urlParam) then (urlParam, storage[UserIdKey := urlParam.value])
    else (Lookup(storage, UserIdKey), storage)
  }

  /** An id that arrived in the URL is remembered: a later start without the
      parameter resolves to the same id. */
  lemma UrlIdPersists(id: string, later: Option<string>, storage: Storage)
    requires id != "" && !Truthy(later)
    ensures ResolveUserId(later, ResolveUserId(Some(id), storage).1).0 == Some(id)
  {
  }

  /** What the context holds after its effect has run. */
  datatype Session<G> = Session(user: Option<User<G>>, loading: bool, requested: bool)

  /** The effect for `userId`. `resp` is the `/me` request: `Fetched(None)` is a
      non-ok response (or a `null` body), `FetchFailed` a network or parse
      error. `prev` is the user before the effect. */
  function LoadUser<G>(userId: Option<string>, resp: FetchOutcome<Option<MeData<G>>>, prev: Option<User<G>>): (r: Session<G>)
    ensures !r.loading
    ensures r.requested <==> Truthy(userId)
    ensures !Truthy(userId) ==> r.user == prev
    ensures Truthy(userId) && resp.FetchFailed? ==> r.user.None?
    ensures Truthy(userId) && resp == Fetched(None) ==> r.user == prev
    ensures Truthy(userId) && resp.Fetched? && resp.data.Some? ==>
      r.user.Some? && r.user.value.data == resp.data.value && r.user.value.genreAnalysis == resp.data.value.genre_analysis
  {
    if !Truthy(userId) then Session(prev, false, false)
    else if resp.FetchFailed? then Session(None, false, true)
    else if resp.data.None? then Session(prev, false, true)
    else Session(Some(User(resp.data.value, resp.data.value.genre_analysis)), false, true)
  }

  /** Starting from the context's initial state (no user), a user is present
      after the effect exactly when a user id was known and `/me` answered
      with a body. */
  lemma UserPresentIff<G>(userId: Option<string>, resp: FetchOutcome<Option<MeData<G>>>)
    ensures LoadUser(userId, resp, None).user.Some? <==> Truthy(userId) && resp.Fetched? && resp.data.Some?
  {
  }

  /** `user?.important_playlists || []`. */
  function ImportantPlaylists<G>(user: Option<User<G>>): (r: seq<Selection.Item>)
    ensures user.None? || user.value.data.important_playlists.None? ==> r == []
    ensures user.Some? && user.value.data.important_playlists.Some? ==> r == user.value.data.important_playlists.value
  {
    if user.Some? && user.value.data.important_playlists.Some? then user.value.data.important_playlists.value else []
  }
}

=== FILE: wrappers.dfy ===
/** Optional values and the JavaScript notion of a "truthy" string.

    The application's records are plain JavaScript objects whose fields may be
    missing (`undefined`), `null`, or present. Both absent forms are `None` here.
 */
module Wrappers {

  datatype Option<+T> = None | Some(value: T) {

    /** The wrapped value, or `default` when absent (JavaScript `x ?? default`). */
    function GetOr(default: T): T {
      match this
      case Some(v) => v
      case None => default
    }
  }

  /** The outcome of a request whose transport is not modelled: the parsed
      response, or a failure (a rejected promise, a thrown error). */
  datatype FetchOutcome<T> = Fetched(data: T) | FetchFailed

  /** A string field is truthy in JavaScript when it is present and non-empty. */
  predicate Truthy(s: Option<string>) {
    s.Some? && s.value != ""
  }

  /** JavaScript `a || b` on two optional strings. */
  function OrElse(a: Option<string>, b: Option<string>): (r: Option<string>)
    ensures Truthy(a) ==> r == a
    ensures !Truthy(a) ==> r == b
  {
    if Truthy(a) then a else b
  }

  /** JavaScript `a || fallback` where the fallback is a literal string. */
  function OrDefault(a: Option<string>, fallback: string): (r: string)
    ensures Truthy(a) ==> r == a.value
    ensures !Truthy(a) ==> r == fallback
    ensures fallback != "" ==> r != ""
  {
    if Truthy(a) then a.value else fallback
  }

  /** A possibly missing string spliced into text with `+` or a template
      literal: a missing value prints as "undefined". */
  function Interpolated(a: Option<string>): (r: string)
    ensures a.Some? ==> r == a.value
    ensures a.None? ==> r == "undefined"
  {
    if a.Some? then a.value else "undefined"
  }

  /** Browser storage: keys to strings. */
  type Storage = map<string, string>

  /** `localStorage.getItem(key)`: `None` is `null`. */
  function Lookup(storage: Storage, key: string): (r: Option<string>)
    ensures r.Some? <==> key in storage
    ensures r.Some? ==> r.value == storage[key]
  {
    if key in storage then Some(storage[key]) else None
  }
}
